=== FILE: README.md ===
# Bed-mesh editor model

A Dafny model of the bed-level mesh editors: three Python Tk applications that let a 3D-printer user edit the probed bed mesh Klipper saved in `printer.cfg`, then write it back.

- `bed_level_editor.py` is the basic editor.
- `bed_level_editor_enhanced.py` is the enhanced editor.
- `bed_level_editor_pro.py` is the pro editor.

All three share one core, modelled once with a `Variant` where they differ.

- **The mesh block codec** (`text.dfy`, `codec.dfy`, `roundtrip.dfy`). This covers:
  - the `re.search` that finds `[bed_mesh default] ... points =` and captures the row block up to its boundary;
  - the loop that turns `#*#` lines into rows of value tokens;
  - the `#*# x_count / y_count / mesh_x_pps / mesh_y_pps = N` metadata searches;
  - the save loop that formats one `#*# \t  v, v, ...` line per row;
  - the `re.sub` that splices those lines into the file.

  Regular expressions are written out as the first-match scans Python's `re` performs for them. Values stay tokens: `float()` and `f"{v:.6f}"` are parameters (`parse`, `format`).
- **The editing session.**
  - `session_spec.dfy` states every event as a function from the session before it to the session after it and a status.
  - `session_laws.dfy` proves what each event does and that each keeps the session invariant.
  - `session.dfy` is the editor object. It is a class with `mesh_data` as an `array2<real>`; its methods update the array in place and the other attributes as a record field. Each method is proved to leave the state the matching function computes.
  - `grid.dfy` holds the grid operations: writes, means, smoothing, fill and offset, as functions and as in-place array loops.
  - `selection.dfy` is point and rectangle selection.
  - `store.dfy` is the config file and its backup, as a map of paths.
- **Small helpers.**
  - `colour.dfy`: `lighten_color`.
  - `geometry.dfy`: the interpolated grid's axes and the index-to-millimetre mapping.

The variants differ in these places:
- **Load boundary.** The basic editor ends the captured block at the next `\n#*#`; the others at the next metadata keyword line.
- **Interpolation density.** The basic editor never reads `mesh_x_pps`/`mesh_y_pps`.
- **`clear_region`.** The pro editor also drops the selected point.
- **`update_point_value`.** The basic editor checks the selection before the entry.
- **`is_modified`.** Only the pro editor keeps this flag.
- **`reset_mesh_data`.** The basic editor restores the mesh and keeps the selection; the others also clear the region and the drag (bed_level_editor.py:251-260).
- **`quick_adjust`.** The basic editor checks only for a selected point; the others accept a point or a region.
- **Region selection.** The basic editor has no region mode, drag, `clear_region`, `average_region` or `smooth_region`; its session never enters region mode.

## Model

| member | source | states |
|---|---|---|
| TextOps.TrimStartDropsBlanks | bed_level_editor_pro.py:477 | `lstrip` keeps a suffix of the text and drops only blanks before it |
| TextOps.TrimEndDropsBlanks | bed_level_editor_pro.py:477 | `rstrip` keeps a prefix of the text and drops only blanks after it |
| TextOps.Strip | bed_level_editor_pro.py:477 | a stripped line has no blank at either end |
| TextOps.SplitJoin | bed_level_editor_pro.py:476 | `split` pieces hold no separator, and joining them with it gives the text back |
| TextOps.SplitOfJoin | bed_level_editor_pro.py:476 | splitting undoes joining parts that hold no separator |
| TextOps.FindFound | bed_level_editor_pro.py:462 | `str.find` reports a position where the pattern occurs |
| TextOps.FindIsFirst | bed_level_editor_pro.py:462 | no occurrence starts before the reported one, and there is none anywhere when it reports none |
| TextOps.SkipBlanksRun | bed_level_editor_pro.py:462 | a greedy `\s*` passes only blanks and stops at a non-blank or at the end |
| MeshCodec.BlockLengthStops | bed_level_editor_pro.py:462 | the lazy `(.*?)` group ends at the first position where the boundary lookahead succeeds, `$` included |
| MeshCodec.RowTokensShape | bed_level_editor_pro.py:476-482 | only a stripped line starting with `#*#` and holding a comma gives values; each value is a stripped, comma-free, non-empty token |
| MeshCodec.KeepTokens | bed_level_editor_pro.py:480 | every kept piece is a non-empty stripped token |
| MeshCodec.LineRows | bed_level_editor_pro.py:481-482 | only non-empty rows are appended |
| MeshCodec.LineRowsAppend | bed_level_editor_pro.py:476-482 | reading consecutive stretches of lines reads each stretch, in line order |
| MeshCodec.ParseRow | bed_level_editor_pro.py:480 | a row converts exactly when every token converts, token by token in place |
| MeshCodec.ParseRowsMeaning | bed_level_editor_pro.py:476-482 | the load fails exactly when some token is not a number; otherwise every row keeps its length and every token is converted in place |
| MeshCodec.LineFails | bed_level_editor_pro.py:480 | one row that fails to convert fails the whole load, whatever follows it |
| MeshCodec.ReadPoints | bed_level_editor_pro.py:475-482 | the load loop over the block's lines computes the converted rows, or fails where a token is not a number |
| MeshCodec.ParseFormatted | bed_level_editor_pro.py:538 | converting formatted values gives the values back when `float()` reads back what `:.6f` wrote |
| MeshCodec.FormatPoints | bed_level_editor_pro.py:535-539 | the save loop builds one `#*# \t  ` line per grid row, in row order, each ending in a newline |
| MeshCodec.SerialiseAppend | bed_level_editor_pro.py:536-539 | each further row adds exactly its own line at the end |
| MeshCodec.FindCountLineFound | bed_level_editor_pro.py:533 | the save pattern's lookahead succeeds where the search reports it |
| MeshCodec.FindCountLineFirst | bed_level_editor_pro.py:533 | the lazy `.*?` stops at the first `#*#\s*x_count` |
| MeshCodec.SpliceWithoutSection | bed_level_editor_pro.py:533-541 | a file without `[bed_mesh default]`, or without `points =` after its first header, is written back unchanged |
| MeshCodec.SpliceWithoutCountLine | bed_level_editor_pro.py:533-541 | a file with no `#*#` `x_count` line after `points =` is written back unchanged: the pattern needs that line to match |
| MeshCodec.LeadingDigits | bed_level_editor_pro.py:495 | `\d+` takes the longest run of digits |
| MeshCodec.FindMetaFirst | bed_level_editor_pro.py:495-498 | the metadata search answers with the line that starts first in the file, and with nothing when no position starts one |
| MeshCodec.FirstFoundFirst | bed_level_editor_pro.py:495-498 | the first entry holding a value is found; none are found exactly when no entry holds one |
| MeshRoundTrip.RowRoundTrip | bed_level_editor_pro.py:476-482 | re-tokenising a saved row line gives back the same tokens |
| MeshRoundTrip.KeepSplitJoined | bed_level_editor_pro.py:479-480 | splitting `", ".join(row)` at commas and stripping gives the row back |
| MeshRoundTrip.RowTextIsRowLine | bed_level_editor_pro.py:537-538 | a saved row line survives `strip()`, starts with `#*#` and holds a comma |
| MeshRoundTrip.SingleValueRowSkipped | bed_level_editor_pro.py:478 | a row saved with a single value has no comma, so the load loop skips it |
| MeshReload.RowTextNoNewline | bed_level_editor_pro.py:537-539 | a saved row line holds no newline, so each one is one line |
| MeshReload.SerialiseJoin | bed_level_editor_pro.py:535-539 | the saved text is the row lines joined by newlines, plus a final newline |
| MeshReload.LineRowsOfSaved | bed_level_editor_pro.py:476-482 | reading the saved row lines gives the saved rows, in order |
| MeshReload.ReadSavedLines | bed_level_editor_pro.py:476-482 | the captured text of saved row lines reads back as exactly those rows |
| MeshReload.RowTextNotKeyword | bed_level_editor_pro.py:462 | a saved row line never counts as a metadata keyword line, so it never ends the block |
| MeshReload.ScanRows | bed_level_editor_pro.py:462 | after saved rows and a keyword line, the enhanced and pro block runs to the last row line |
| MeshReload.ScanFirstRow | bed_level_editor.py:169 | with the basic editor's boundary, the block ends after the first saved row line |
| MeshReload.CountLineIsKeyword | bed_level_editor_pro.py:533 | the `#*# x_count` line where the save stops is a line the load pattern stops at |
| MeshReload.SpliceSingle | bed_level_editor_pro.py:533-541 | in a file with one mesh section, the saved text is the prefix through `points =\s*`, a newline, the new rows, then the original text from the `#*# x_count` line on |
| MeshReload.MatchEndMoves | bed_level_editor_pro.py:461-465 | inserting blanks after `key\s*`, before a non-blank, moves the match end by their number and nothing else |
| MeshReload.SavedLayout | bed_level_editor_pro.py:533-541 | after saving, the load match ends just before the new rows, which are followed by the original `#*# x_count` line |
| MeshReload.SavedBlock | bed_level_editor_pro.py:461-472 | after saving, the enhanced and pro load pattern captures exactly the new row lines |
| MeshReload.SaveThenLoad | bed_level_editor_pro.py:461-541 | save then load, token level: in a file with one mesh section, non-empty rows of at least two numerals each are read back as the rows saved |
| MeshReload.SaveThenLoadValues | bed_level_editor_pro.py:461-541 | save then load, value level: in a file with one mesh section, a non-empty grid whose rows hold at least two values each, each printed as a numeral that `float()` reads back, is read back as the grid saved |
| MeshReload.BasicSavedBlock | bed_level_editor.py:169-234 | after saving, the basic editor's load pattern captures only the first row line |
| MeshReload.BasicReadsFirstRowOnly | bed_level_editor.py:169-187 | the basic editor reads back only the first of the rows it saved |
| MeshReload.BasicSaveThenLoadValues | bed_level_editor.py:169-234 | value level, under the same hypotheses as SaveThenLoadValues: the basic editor reads back the first row of the saved grid alone |
| Selection.RectangleSize | bed_level_editor_pro.py:893-898 | the rectangle holds `(abs(dy) + 1) * (abs(dx) + 1)` cells |
| Selection.RectangleHas | bed_level_editor_pro.py:893-898 | a cell is selected exactly when it lies between the corners on both axes |
| Selection.RectangleCovers | bed_level_editor_pro.py:897-898 | every cell between the corners is selected, at its row-major place |
| Selection.RectangleOrdered | bed_level_editor_pro.py:897-898 | the cells come row by row, left to right, each once |
| Selection.RectangleCorners | bed_level_editor_pro.py:894-898 | the first cell is the top-left corner and the last the bottom-right one |
| Selection.RectangleInCount | bed_level_editor_pro.py:887-898 | when both corners pass the bounds check, so does every selected cell |
| Geometry.DenseAxis | bed_level_editor_enhanced.py:343-349 | the interpolated axis has `(count - 1) * pps + 1` samples from 0 to `count - 1`, and sample `i * pps` is grid index `i` |
| Geometry.OriginalAxis | bed_level_editor_pro.py:581-582 | the original axis is the grid indices |
| Geometry.LinspaceIncreasing | bed_level_editor_pro.py:589-590 | the samples increase along the axis |
| Geometry.PhysicalEnds | bed_level_editor_enhanced.py:589-590 | index 0 maps to `mesh_min` and index `count - 1` to `mesh_max` |
| Geometry.PhysicalWithin | bed_level_editor_enhanced.py:589-590 | inside the grid the position lies within the probed area and grows with the index |
| Colour.HexDigit | bed_level_editor_pro.py:48 | each printed digit is lower-case hexadecimal and reads back as its value |
| Colour.ParseInt16Some | bed_level_editor_pro.py:44 | `int(t, 16)` succeeds exactly when `t`, stripped of whitespace, is an optional sign and then at least one hex digit |
| Colour.SignedSome | bed_level_editor_pro.py:44 | a stripped slice reads as a number exactly when it is an optional sign followed by hex digits only |
| Colour.ChannelRange | bed_level_editor_pro.py:44 | a channel read from at most two characters lies between -15 and 255 |
| Colour.HexByteRoundTrip | bed_level_editor_pro.py:44-48 | printing a channel from 0 to 255 with `02x` and reading it back with `int(_, 16)` gives the channel |
| Colour.HexDigitsRoundTrip | bed_level_editor_pro.py:44-48 | the hex digits of any natural number read back as that number |
| Colour.Format02xRoundTrip | bed_level_editor_pro.py:44-48 | any integer printed with `02x`, a negative one with its `-`, reads back as itself |
| Colour.ChannelBound | bed_level_editor_pro.py:44 | a channel read from two hex digits is below 256 |
| Colour.LstripHash | bed_level_editor_pro.py:43 | `lstrip('#')` drops exactly the leading `#` characters: the result is a suffix that does not start with `#`, and every dropped character is `#` |
| Colour.ScaleNotDarker | bed_level_editor_pro.py:45-47 | no channel from 0 to 255 gets darker, and none exceeds 255 |
| Colour.ScaleNegative | bed_level_editor_pro.py:45-47 | `int(c * 1.2)` truncates toward zero, so a negative channel does not rise |
| Colour.ScaleMonotone | bed_level_editor_pro.py:45-47 | a lighter input channel gives a lighter or equal output |
| Colour.ScaleEnds | bed_level_editor_pro.py:45-47 | 0 stays 0; non-negative channels from 213 up saturate to 255; below 213, `int(c * 1.2)` is `c * 6 / 5` |
| Colour.LightenDefined | bed_level_editor_pro.py:41-48 | the result exists exactly when each of the three two-character slices, stripped, is an optionally signed run of hex digits (`ValueError` otherwise) |
| Colour.PrintedChannels | bed_level_editor_pro.py:44-48 | reading the channels of a printed colour gives them back |
| Colour.LightenShape | bed_level_editor_pro.py:41-48 | for non-negative channels the result is `#` and six lower-case hex digits whose channels are the scaled input channels |
| Colour.LightenNegativeChannel | bed_level_editor_pro.py:41-48 | a signed slice is a channel: `#-1ffff` lightens to itself, the `-1` printed back with its sign |
| Colour.LightenPaddedChannel | bed_level_editor_pro.py:41-48 | a blank-padded slice is a channel: `# f0000` lightens to `#120000` |
| MeshGrid.FirstMiss | bed_level_editor_pro.py:937-938 | the write loop reaches every cell before the first one outside the array, and raises there |
| MeshGrid.SetRegion | bed_level_editor_pro.py:937-938 | after the write loop, a cell holds the new value exactly when it was reached, and every other cell is unchanged |
| MeshGrid.WrittenOutside | bed_level_editor_pro.py:975-976 | writing cells leaves every other cell as it was |
| MeshGrid.WrittenLast | bed_level_editor_pro.py:1003-1004 | a written cell holds the value of the last write to it |
| MeshGrid.WrittenSame | bed_level_editor_pro.py:1003-1004 | writing each cell's own value back changes nothing |
| MeshGrid.WrittenConsistent | bed_level_editor_pro.py:1003-1004 | when a cell always gets the same value, each written cell holds its value whatever the repetitions |
| MeshGrid.AverageKeepsMean | bed_level_editor_pro.py:974-976 | after every region cell is written with the prior region mean, the region's mean and sum are what they were, and that mean lies between the smallest and largest prior value |
| MeshGrid.MeanBetween | bed_level_editor_pro.py:974 | a mean lies between the smallest and the largest value |
| MeshGrid.KeepInCount | bed_level_editor_pro.py:999 | the neighbours kept are exactly those that pass the bounds check against the counts |
| MeshGrid.NeighboursNear | bed_level_editor_pro.py:996-1000 | every neighbour is within one step on both axes and inside the counts |
| MeshGrid.NeighboursHasSelf | bed_level_editor_pro.py:996-1000 | a cell inside the counts is among its own neighbours |
| MeshGrid.SmoothBetween | bed_level_editor_pro.py:1001 | a smoothed value lies between the smallest and largest value before smoothing |
| MeshGrid.SmoothFlat | bed_level_editor_pro.py:992-1004 | smoothing a flat grid changes nothing |
| MeshGrid.FlattenKeepsMean | bed_level_editor_pro.py:1043-1044 | flattening sets every cell to the mean and keeps the mean |
| MeshGrid.OffsetShiftsMean | bed_level_editor_pro.py:1077 | an offset moves the mean by the offset |
| MeshGrid.OffsetUndone | bed_level_editor_pro.py:1077 | the opposite offset undoes an offset |
| MeshGrid.CellCountRectangular | bed_level_editor_pro.py:1043 | a rectangular grid has rows times columns cells, at least one |
| MeshGrid.NewGrid | bed_level_editor_pro.py:489 | `np.array(points)` of rectangular rows is a fresh array holding those rows |
| MeshGrid.MeanOf | bed_level_editor_pro.py:974 | the region mean is found exactly when every cell is inside the array (`IndexError` otherwise), and is the mean of the region's values |
| MeshGrid.SmoothCell | bed_level_editor_pro.py:995-1001 | one cell's neighbourhood mean, or failure where a neighbour or the cell is outside the array |
| MeshGrid.SmoothOf | bed_level_editor_pro.py:992-1001 | the first loop computes every smoothed value from the unedited grid, or reports the `IndexError` or empty neighbourhood |
| MeshGrid.RowSum | bed_level_editor_pro.py:1043 | the loop sums one row of the array |
| MeshGrid.GridMeanOf | bed_level_editor_pro.py:1043 | `np.mean(mesh_data)` is the mean over all cells |
| MeshGrid.WriteCells | bed_level_editor_pro.py:937-938 | the write loop writes the cells in order up to the first one outside the array and reports where it stopped |
| MeshGrid.SetAll | bed_level_editor_pro.py:937-938 | writing one value to the cells: the array afterwards is the set-cells grid |
| MeshGrid.FillAll | bed_level_editor_pro.py:1044 | `fill(avg)` sets every cell of the array |
| MeshGrid.AddAll | bed_level_editor_pro.py:1077 | `+= offset` adds to every cell of the array |
| Storage.FileStore.Read | bed_level_editor_pro.py:452-458 | reading gives the file's text exactly when the file exists |
| Storage.FileStore.Write | bed_level_editor_pro.py:544-548 | a write that goes through replaces that one file, and a failing write changes nothing |
| EditorSpec.ReadMesh | bed_level_editor_pro.py:461-489 | a load that succeeds has rectangular rows; a failed load names one of the four reasons |
| EditorSpec.PreviewAxes | bed_level_editor_pro.py:576-590 | the preview axes have `(count - 1) * pps + 1` samples, and exist for any loaded mesh whose counts are at least 1 (`np.linspace` raises for a negative sample count) |
| EditorLaws.ReadMeshMeaning | bed_level_editor_pro.py:461-489 | the load succeeds exactly when the block exists, has rows, every token is a number and the rows are of one width; the rows are the converted tokens, row for row |
| EditorLaws.LoadAtomic | bed_level_editor_pro.py:447-492 | a failed load changes nothing; a successful one sets the mesh and an equal baseline, clears the modified flag, and keeps the selection and entry |
| EditorLaws.LoadCounts | bed_level_editor_pro.py:491-505 | counts come from the metadata when present, else from the array's shape; pps changes only when both keys are present, and never in the basic editor |
| EditorLaws.LoadsRows | bed_level_editor_pro.py:489-490 | a file whose block reads as rectangular rows loads them as both mesh and baseline |
| EditorLaws.ReadsRows | bed_level_editor_pro.py:461-489 | a block that converts to rectangular rows reads as them |
| EditorLaws.SaveOrder | bed_level_editor_pro.py:521-551 | the config changes only after the backup holds the old text; only those two files change; the baseline becomes the mesh only when both writes succeed |
| EditorLaws.SaveThenReload | bed_level_editor_pro.py:447-551 | in a file with one mesh section, for a mesh whose rows hold at least two values each and whose values print as numerals that `float()` reads back, a successful save followed by a load in the enhanced or pro editor gives back the mesh just saved, as mesh and baseline |
| EditorLaws.BasicSaveThenReload | bed_level_editor.py:158-249 | under the same hypotheses (one mesh section, at least two values per row, values that print as numerals `float()` reads back), a save followed by a load in the basic editor gives back only the first row of the mesh |
| EditorLaws.BasicReadsSaved | bed_level_editor.py:169-234 | the basic editor reads the text its save wrote as the first row only |
| EditorLaws.ResetRestores | bed_level_editor_pro.py:562-570 | a confirmed reset restores the baseline, clears the region, the drag and the modified flag (the pro editor also the point); otherwise nothing changes |
| EditorLaws.ClearDropsSelection | bed_level_editor_pro.py:958-962 | clearing empties the region and ends any drag; the pro editor also drops the point, the enhanced editor (bed_level_editor_enhanced.py:684-688) keeps it |
| EditorLaws.ModeChangeClears | bed_level_editor_pro.py:420-423 | a mode change sets the mode and clears the selection as `clear_region` does |
| EditorLaws.PressSelects | bed_level_editor_pro.py:838-859 | a press outside the counts changes nothing; in region mode it starts a drag at the cell; otherwise it selects the point, and when it succeeds (status Done) it also shows the cell's value, with a millimetre position that lies in the probed area. A cell outside the array selects the point without showing a value (`IndexError`), and a count of 1 shows the value but has no position (division by zero) |
| EditorLaws.MoveSelectsRectangle | bed_level_editor_pro.py:879-898 | during a drag, a move to a cell inside the counts selects exactly the rectangle between the corners; anything else changes nothing |
| EditorLaws.ReleaseShowsMean | bed_level_editor_pro.py:867-877 | a release that succeeds (status Done) ends the drag and shows the region's mean in the entry; a region cell outside the array raises `IndexError` before the drag ends and changes nothing; the mesh and the region are never touched |
| EditorLaws.TargetsMeaning | bed_level_editor_pro.py:936-948 | the update writes the region in region mode, else the point; no cell index is negative |
| EditorLaws.UpdateSetsSelection | bed_level_editor_pro.py:931-956 | with no selection or a non-number entry nothing changes; otherwise each target up to the first one outside the mesh gets the value and no other cell changes |
| EditorLaws.QuickAdjustMoves | bed_level_editor_pro.py:917-927 | a quick adjustment moves every selected cell and the entry to the entry's value plus `delta`, and leaves other cells alone |
| EditorLaws.AverageSetsMean | bed_level_editor_pro.py:968-979 | every region cell gets the region's prior mean, shown in the entry; no other cell changes; the region mean is unchanged |
| EditorLaws.SmoothAverages | bed_level_editor_pro.py:986-1006 | each region cell gets its neighbourhood mean from the pre-edit mesh; no other cell changes |
| EditorLaws.SmoothStaysWithin | bed_level_editor_pro.py:986-1004 | after smoothing, every value lies between the smallest and largest value before |
| EditorLaws.FlattenSetsMean | bed_level_editor_pro.py:1037-1045 | a confirmed flatten sets every cell to the mean, so the mean stays; declined, nothing changes |
| EditorLaws.OffsetShifts | bed_level_editor_pro.py:1074-1086 | every cell moves by the offset and so does the mean; a text that is not a number changes nothing |
| EditorLaws.OffsetThenBack | bed_level_editor_pro.py:1077 | the opposite offset gives back the mesh |
| EditorLaws.LoadKeepsInvariant | bed_level_editor_pro.py:447-505 | loading keeps the session invariant |
| EditorLaws.SaveKeepsInvariant | bed_level_editor_pro.py:521-551 | saving keeps the session invariant |
| EditorLaws.ClearKeepsInvariant | bed_level_editor_pro.py:958-962 | clearing the region keeps the session invariant |
| EditorLaws.ModeChangeKeepsInvariant | bed_level_editor_pro.py:420-423 | a mode change keeps the session invariant |
| EditorLaws.QuickAdjustKeepsInvariant | bed_level_editor_pro.py:917-929 | a quick adjustment keeps the session invariant |
| EditorLaws.UpdateKeepsInvariant | bed_level_editor_pro.py:931-956 | an update keeps the session invariant, the mesh rectangular and its shape that of the baseline |
| EditorLaws.SmoothKeepsInvariant | bed_level_editor_pro.py:986-1006 | smoothing keeps the session invariant |
| EditorLaws.MoveKeepsInvariant | bed_level_editor_pro.py:879-898 | a drag keeps the session invariant (selected cells non-negative, a region only in region mode) |
| Editor.ReadMeshFrom | bed_level_editor_pro.py:461-489 | the reading steps of the load compute ReadMesh |
| Editor.EditorSession.constructor | bed_level_editor_pro.py:57-105 | the editor starts from the Initial session (no mesh, no selection, point mode, 10 by 10 counts, 4 by 4 pps) and then loads the config file, ending in the session that load computes |
| Editor.EditorSession.Load | bed_level_editor_pro.py:447-505 | load_mesh_data leaves the state AfterLoad computes, the array holding the new mesh |
| Editor.EditorSession.LoadFrom | bed_level_editor_pro.py:461-505 | the rest of the load, from the file's text |
| Editor.EditorSession.Install | bed_level_editor_pro.py:489-490 | the session takes on the loaded state, its array holding the new mesh |
| Editor.EditorSession.Save | bed_level_editor_pro.py:521-551 | save_mesh_data writes the backup, then the config, then takes the baseline, leaving the state and the files AfterSave computes |
| Editor.EditorSession.ClearRegion | bed_level_editor_pro.py:958-962 | clear_region leaves the state Cleared computes |
| Editor.EditorSession.SetRegionMode | bed_level_editor_pro.py:420-423 | change_selection_mode leaves the state AfterModeChange computes |
| Editor.EditorSession.Reset | bed_level_editor_pro.py:562-570 | reset_mesh_data leaves the state AfterReset computes, the array holding the baseline |
| Editor.EditorSession.Press | bed_level_editor_pro.py:838-859 | on_mouse_press leaves the state AfterPress computes; it returns the millimetre position only when a point is selected successfully (status Done, point mode), and nothing otherwise |
| Editor.EditorSession.Move | bed_level_editor_pro.py:879-898 | on_mouse_move leaves the state AfterMove computes |
| Editor.EditorSession.Release | bed_level_editor_pro.py:867-877 | on_mouse_release leaves the state AfterRelease computes |
| Editor.EditorSession.UpdateSelectionValue | bed_level_editor_pro.py:931-956 | update_selection_value writes the array in place and leaves the state AfterUpdate computes |
| Editor.EditorSession.QuickAdjust | bed_level_editor_pro.py:917-929 | quick_adjust leaves the state AfterQuickAdjust computes |
| Editor.EditorSession.AverageRegion | bed_level_editor_pro.py:968-979 | average_region leaves the state AfterAverage computes |
| Editor.EditorSession.SmoothRegion | bed_level_editor_pro.py:986-1006 | smooth_region computes every value from the unedited array, then writes them, leaving the state AfterSmooth computes |
| Editor.EditorSession.Flatten | bed_level_editor_pro.py:1037-1045 | flatten_mesh leaves the state AfterFlatten computes, the array filled with the mean |
| Editor.EditorSession.ApplyOffset | bed_level_editor_pro.py:1074-1078 | apply_offset leaves the state AfterOffset computes, the offset added to the array in place |

## Left out

- **The user interface.** Tk widgets, matplotlib plotting, `update_plot`, `update_statistics`, `update_status`, `show_3d_view`, `show_interpolated`, message boxes and button hover colours are left out. Dialog answers are parameters (`confirm`, the offset text). A message box is a `Status` value.
- **`on_slider_change`.** It only rewrites the entry text and never touches the mesh.
- **`browse_file`.** It only picks the path that the load then reads.
- **Mouse events.** `event.inaxes` and the rounding `int(round(event.xdata))` are left out. Events arrive as integer cells.
- **IEEE floating point.** Cell values are `real`. `float()` and `f"{v:.6f}"` are parameters. The value-level round trip assumes `float()` reads back what `:.6f` wrote. `np.std` is not modelled.
- **Spline evaluation.** The `RectBivariateSpline` evaluation in `generate_interpolated_mesh` is a foreign floating-point call. Only its axes (sizes and sample positions) are modelled.
- **Files and exceptions.** A file is a map from paths to text, plus a set of paths whose writes fail. Other read errors, non-atomic partial writes and exceptions raised by `update_plot` are not modelled.
- **Multiple `[bed_mesh default]` sections.** `Splice` follows `re.sub` and replaces every match. The round-trip lemmas assume a file with one section (`SingleSection`).
- **Negative indices.** Python's wrap-around for negative indices is not modelled. The session invariant keeps every selected cell non-negative, which the bounds checks guarantee.
- **`original_mesh_data`** is held as a value in the session record, not as a second array. It is only ever replaced by a fresh `.copy()` and never written cell by cell. The `.copy()` that restores it into `mesh_data` (bed_level_editor_pro.py:568) is a fresh array built from that value by `MeshGrid.NewGrid`, so the two never alias.
- **EditorSession:** the editor's attributes other than `mesh_data` are grouped in one `Session` record field rather than one Dafny field each. Each method reassigns the fields it changes.
- **EditorLaws.SmoothAverages:** an empty in-count neighbourhood gives NaN from `np.mean([])` in the source, which is then written into the cell. `EditorSpec.AfterSmooth` (and so `EditorLaws.SmoothAverages`, `MeshGrid.SmoothValues` and `Editor.EditorSession.SmoothRegion`) reports `NoNeighbours` instead and leaves the mesh unchanged.
- **Geometry.Linspace:** models `np.linspace` over the reals. Its floating-point rounding is not modelled.
- **Colour.Scale:** `int(c * 1.2)` is modelled as `c * 6 / 5` truncated toward zero. The two agree for the channel values -15..255 that two characters can hold, but not for floating-point inputs in general.
- **Colour.ParseInt16:** `int(_, 16)` also accepts non-ASCII Unicode digits; the model reads ASCII hex digits only. The `0x` prefix and `_` separators are not modelled, because neither can form a valid literal within a two-character slice.
- **MeshCodec.LeadingDigits:** `\d` and `int()` also accept every Unicode decimal digit (for example Arabic-Indic digits); the model reads ASCII digits only, so such a metadata line reads as missing.
- **EditorSpec.LoadText:** a ragged block fails before `mesh_data` is replaced, as with numpy 1.24 and later, where `np.array` raises on ragged rows. Older numpy builds an object array instead, which replaces `mesh_data` and `original_mesh_data` before the shape unpack at bed_level_editor_pro.py:491 raises.
- **Ctrl+Z** is bound to `reset_mesh_data` and is modelled as that reset, not as an undo.

## Findings

| source | as written | input that shows it | evidently intended | confidence | as-written member | corrected member |
|---|---|---|---|---|---|---|
| bed_level_editor.py:169 | the load pattern ends the captured block at the first `\n#*#`, and every saved row line starts with `#*#` | any file with two or more mesh rows, each on its own `#*#` line after `points =`: that is the layout Klipper writes and the layout the editor saves (the `\s*` after `points =` takes the newline, and the lazy group stops at the first `\n#*#`). `points =\n#*# \t  0.1, 0.2\n#*# \t  0.3, 0.4\n#*# x_count = 2` loads as the single row `[0.1, 0.2]` | the block should run to the metadata keyword line, as in bed_level_editor_enhanced.py:239, so that a saved mesh loads back whole | high; not executed | EditorLaws.BasicSaveThenReload | EditorLaws.SaveThenReload |

=== FILE: codec.dfy ===
/**
  The bed-mesh block of a Klipper `printer.cfg`, as the three editors read and
  write it.  A saved mesh sits in the auto-generated `#*#` part of the file:

    #*# [bed_mesh default]
    #*# version = 1
    #*# points =
    #*# \t  0.012500, -0.037500, ...
    #*# \t  ...
    #*# x_count = 10
    #*# y_count = 10
    #*# mesh_x_pps = 4
    ...

  The editors find the block with regular expressions, split it into rows of
  value tokens, and on save splice freshly formatted rows back in.  The
  regular expressions are modelled here as the first-match scans Python's
  `re` performs for them; values stay tokens (`float()` is a parameter).
 */
module MeshCodec {
  import opened Wrappers
  import opened TextOps

  const Marker: string := "#*#"
  const Header: string := "[bed_mesh default]"
  const PointsKey: string := "points ="
  /** What every saved row line starts with. */
  const RowPrefix: string := "#*# \t  "
  const ValueSeparator: string := ", "
  const CountKey: string := "x_count"

  // ---------------------------------------------------------------------
  // Locating the block (the `re.search` in load_mesh_data)
  // ---------------------------------------------------------------------

  /** Where the lazily captured row block ends. */
  datatype Boundary =
    | AnyMarkerLine  // basic editor: at the next line that starts with the marker or `z_count`
    | KeywordLine    // enhanced and pro: at the next line naming one of the mesh keywords

  /** One of the mesh keywords that follow the rows, at the start of `u`. */
  predicate StartsWithKeyword(u: string) {
    StartsWith(u, "x_count") || StartsWith(u, "mesh_x_pps") || StartsWith(u, "mesh_y_pps")
    || StartsWith(u, "algo") || StartsWith(u, "min_x") || StartsWith(u, "max_x")
    || StartsWith(u, "min_y") || StartsWith(u, "max_y")
  }

  /** A keyword, optionally preceded by the marker and blanks, at the start of `u`. */
  predicate KeywordLineAt(u: string) {
    StartsWithKeyword(u) || (StartsWith(u, Marker) && StartsWithKeyword(TrimStart(u[|Marker|..])))
  }

  /** Does the block's closing lookahead succeed where `t` begins?  `$` (no
      MULTILINE flag) matches at the end and just before a final newline. */
  predicate StopsAt(b: Boundary, t: string) {
    |t| == 0 || (|t| == 1 && t[0] == '\n') ||
    match b
    case AnyMarkerLine => StartsWith(t, "\n#*#") || StartsWith(t, "\nz_count")
    case KeywordLine => t[0] == '\n' && KeywordLineAt(t[1..])
  }

  /** Length of the lazy `(.*?)` group: the first place the lookahead succeeds. */
  function BlockLength(b: Boundary, t: string): (n: nat)
    ensures n <= |t|
  {
    if StopsAt(b, t) then 0 else 1 + BlockLength(b, t[1..])
  }

  /** The block is lazy: the lookahead succeeds at its end and fails at
      every earlier position. */
  lemma {:induction false} BlockLengthStops(b: Boundary, t: string)
    ensures StopsAt(b, t[BlockLength(b, t)..])
    ensures forall m :: 0 <= m < BlockLength(b, t) ==> !StopsAt(b, t[m..])
  {
    if !StopsAt(b, t) {
      BlockLengthStops(b, t[1..]);
      assert forall m :: 1 <= m <= |t| ==> t[m..] == t[1..][m - 1..];
    }
  }

  /** End of the leftmost match of `hdr`, anything, then `key` and the
      blanks after it: the first `hdr`, the first `key` after it, and all the
      blanks after that.  Shared by the load and the save pattern. */
  function MatchEnd(text: string, hdr: string, key: string): (r: Option<nat>)
    ensures r.Some? ==> |hdr| + |key| <= r.value <= |text|
  {
    match MatchStart(text, hdr, key)
    case None => None
    case Some((h, p)) => Some(SkipBlanks(text, h + |hdr| + p + |key|))
  }

  /** Where the match's parts were found: the first `hdr` at `h`, and the
      first `key` at `p` characters after the end of that `hdr`. */
  function MatchStart(text: string, hdr: string, key: string): (r: Option<(nat, nat)>)
    ensures r.Some? ==> r.value.0 + |hdr| + r.value.1 + |key| <= |text|
  {
    match Find(text, hdr)
    case None => None
    case Some(h) =>
      match Find(text[h + |hdr|..], key)
      case None => None
      case Some(p) => Some((h, p))
  }

  /** The match exists exactly when `hdr` occurs and `key` occurs after its
      first occurrence. */
  lemma {:induction false} MatchEndSome(text: string, hdr: string, key: string)
    ensures MatchEnd(text, hdr, key).Some? <==>
              Find(text, hdr).Some? && Find(text[Find(text, hdr).value + |hdr|..], key).Some?
  {
  }

  /** End of `[bed_mesh default]`, anything, `points =` and its blanks. */
  function PointsEnd(text: string): (r: Option<nat>)
    ensures r.Some? ==> 0 < r.value <= |text|
  {
    MatchEnd(text, Header, PointsKey)
  }

  /** The match exists exactly when the header occurs and `points =` occurs
      after its first occurrence. */
  lemma {:induction false} PointsEndSome(text: string)
    ensures PointsEnd(text).Some? <==>
              Find(text, Header).Some? && Find(text[Find(text, Header).value + |Header|..], PointsKey).Some?
  {
    MatchEndSome(text, Header, PointsKey);
  }

  /** The text from index `e` up to the first place the boundary lookahead succeeds. */
  function BlockAt(b: Boundary, text: string, e: nat): (r: string)
    requires e <= |text|
    ensures e + |r| <= |text| && r == text[e..e + |r|] && |r| == BlockLength(b, text[e..])
  {
    var t := text[e..];
    t[..BlockLength(b, t)]
  }

  /** Group 1 of the load pattern: the text from the end of `points =\s*`
      up to the block boundary; None when the section is missing. */
  function MeshBlock(b: Boundary, text: string): (r: Option<string>)
    ensures r.Some? <==> PointsEnd(text).Some?
  {
    match PointsEnd(text)
    case None => None
    case Some(e) => Some(BlockAt(b, text, e))
  }

  // ---------------------------------------------------------------------
  // Tokenising the block (the `for line in points_text.split('\n')` loop)
  // ---------------------------------------------------------------------

  /** A stripped, non-empty piece of text: what survives `v.strip()` and `if v.strip()`. */
  predicate Token(t: string) {
    t != [] && !IsSpace(t[0]) && !IsSpace(t[|t| - 1])
  }

  /** `[v.strip() for v in values if v.strip()]`. */
  function KeepTokens(pieces: seq<string>): (r: seq<string>)
    ensures |r| <= |pieces|
    ensures forall i :: 0 <= i < |r| ==> Token(r[i])
  {
    if pieces == [] then []
    else
      var t := Strip(pieces[0]);
      var rest := KeepTokens(pieces[1..]);
      if t == [] then rest else [t] + rest
  }

  /** A first piece that is not blank becomes the first token. */
  lemma {:induction false} KeepTokensCons(p: string, rest: seq<string>)
    requires Strip(p) != []
    ensures KeepTokens([p] + rest) == [Strip(p)] + KeepTokens(rest)
  {
    assert ([p] + rest)[1..] == rest;
  }

  /** Pieces without a comma give tokens without a comma. */
  lemma {:induction false} KeepTokensNoComma(pieces: seq<string>)
    requires forall i :: 0 <= i < |pieces| ==> ',' !in pieces[i]
    ensures forall i :: 0 <= i < |KeepTokens(pieces)| ==> ',' !in KeepTokens(pieces)[i]
  {
    if pieces != [] {
      StripKeepsOut(pieces[0], ',');
      assert forall i :: 1 <= i < |pieces| ==> pieces[i] == pieces[1..][i - 1];
      KeepTokensNoComma(pieces[1..]);
    }
  }

  /** The values of one line when it is a row line, [] when the loop skips it:
      after `strip()` it must start with `#*#` and contain `,`; every `#*#` is
      removed, the rest stripped, split at `,`, the pieces stripped, blank
      pieces dropped. */
  function RowTokens(line: string): seq<string> {
    var l := Strip(line);
    if StartsWith(l, Marker) && ',' in l then
      KeepTokens(Split(Strip(RemoveAll(l, Marker)), ','))
    else []
  }

  /** The values of a line that is already stripped, starts with `#*#` and holds a comma. */
  lemma {:induction false} RowLineTokens(line: string)
    requires Strip(line) == line && StartsWith(line, Marker) && ',' in line
    ensures RowTokens(line) == KeepTokens(Split(Strip(RemoveAll(line, Marker)), ','))
  {
  }

  /** Only a `#*#` line holding a comma gives values, and each value is a
      stripped, comma-free token. */
  lemma {:induction false} RowTokensShape(line: string)
    ensures var r := RowTokens(line);
            forall i :: 0 <= i < |r| ==> Token(r[i]) && ',' !in r[i]
    ensures RowTokens(line) != [] ==> StartsWith(Strip(line), Marker) && ',' in line
  {
    var l := Strip(line);
    StripKeepsOut(line, ',');
    if StartsWith(l, Marker) && ',' in l {
      SplitJoin(Strip(RemoveAll(l, Marker)), ',');
      KeepTokensNoComma(Split(Strip(RemoveAll(l, Marker)), ','));
    }
  }

  /** The rows the load loop appends: `if values: points.append(values)`
      for every line, in line order. */
  function LineRows(lines: seq<string>): (r: seq<seq<string>>)
    ensures forall i :: 0 <= i < |r| ==> r[i] != []
  {
    if lines == [] then []
    else
      var row := RowTokens(lines[0]);
      (if row == [] then [] else [row]) + LineRows(lines[1..])
  }

  /** A row line in front of other lines gives the first row. */
  lemma {:induction false} LineRowsCons(line: string, lines: seq<string>)
    requires RowTokens(line) != []
    ensures LineRows([line] + lines) == [RowTokens(line)] + LineRows(lines)
  {
    assert ([line] + lines)[1..] == lines;
  }

  /** Reading consecutive stretches of lines reads each stretch. */
  lemma {:induction false} LineRowsAppend(a: seq<string>, b: seq<string>)
    ensures LineRows(a + b) == LineRows(a) + LineRows(b)
  {
    if a == [] {
      assert a + b == b;
    } else {
      assert (a + b)[1..] == a[1..] + b;
      LineRowsAppend(a[1..], b);
    }
  }

  /** The token rows of a captured block. */
  function BlockRows(block: string): seq<seq<string>> {
    LineRows(Split(block, '\n'))
  }

  /** `[float(v) for v in row]`: None as soon as one token does not convert. */
  function ParseRow(tokens: seq<string>, parse: string -> Option<real>): (r: Option<seq<real>>)
    ensures r.Some? <==> forall j :: 0 <= j < |tokens| ==> parse(tokens[j]).Some?
    ensures r.Some? ==> |r.value| == |tokens|
    ensures r.Some? ==> forall j :: 0 <= j < |tokens| ==> Some(r.value[j]) == parse(tokens[j])
  {
    if tokens == [] then Some([])
    else
      match parse(tokens[0])
      case None => None
      case Some(v) =>
        match ParseRow(tokens[1..], parse)
        case None =>
          assert forall j :: 1 <= j < |tokens| ==> tokens[j] == tokens[1..][j - 1];
          None
        case Some(vs) =>
          assert forall j :: 1 <= j < |tokens| ==> tokens[j] == tokens[1..][j - 1];
          Some([v] + vs)
  }

  /** Every row converted, or None when some token does not convert. */
  function ParseRows(rows: seq<seq<string>>, parse: string -> Option<real>): Option<seq<seq<real>>> {
    if rows == [] then Some([])
    else
      match (ParseRow(rows[0], parse), ParseRows(rows[1..], parse))
      case (Some(v), Some(vs)) => Some([v] + vs)
      case _ => None
  }

  /** Every token converts with `float()`. */
  predicate AllNumbers(rows: seq<seq<string>>, parse: string -> Option<real>) {
    forall i, j :: 0 <= i < |rows| && 0 <= j < |rows[i]| ==> parse(rows[i][j]).Some?
  }

  /** The conversion fails exactly when a token is not a number, and otherwise
      keeps the shape of the rows and converts every token in place. */
  lemma {:induction false} ParseRowsMeaning(rows: seq<seq<string>>, parse: string -> Option<real>)
    ensures ParseRows(rows, parse).Some? <==> AllNumbers(rows, parse)
    ensures ParseRows(rows, parse).Some? ==>
              var v := ParseRows(rows, parse).value;
              |v| == |rows|
              && (forall i :: 0 <= i < |v| ==> |v[i]| == |rows[i]|)
              && (forall i, j :: 0 <= i < |v| && 0 <= j < |v[i]| ==> Some(v[i][j]) == parse(rows[i][j]))
  {
    if rows != [] {
      ParseRowsMeaning(rows[1..], parse);
      assert forall i :: 1 <= i < |rows| ==> rows[i] == rows[1..][i - 1];
      if ParseRows(rows, parse).Some? {
        var v := ParseRows(rows, parse).value;
        assert forall i :: 1 <= i < |v| ==> v[i] == ParseRows(rows[1..], parse).value[i - 1];
      }
    }
  }

  /** Converting one more row: the conversion so far extended by that row's. */
  lemma {:induction false} ParseRowsSnoc(rows: seq<seq<string>>, row: seq<string>, parse: string -> Option<real>)
    ensures ParseRows(rows + [row], parse) ==
              match (ParseRows(rows, parse), ParseRow(row, parse))
              case (Some(x), Some(v)) => Some(x + [v])
              case _ => None
  {
    if rows == [] {
      assert [] + [row] == [row];
      assert [row][1..] == [];
      if ParseRow(row, parse).Some? {
        var v := ParseRow(row, parse).value;
        assert [v] + [] == [] + [v];
      }
    } else {
      assert (rows + [row])[1..] == rows[1..] + [row];
      ParseRowsSnoc(rows[1..], row, parse);
      match (ParseRows(rows, parse), ParseRow(row, parse))
      case (Some(x), Some(v)) =>
        assert [x[0]] + (x[1..] + [v]) == x + [v];
      case _ =>
    }
  }

  /** Once a row fails to convert, no further rows can rescue the load. */
  lemma {:induction false} ParseRowsFailed(a: seq<seq<string>>, b: seq<seq<string>>, parse: string -> Option<real>)
    requires ParseRows(a, parse).None?
    ensures ParseRows(a + b, parse).None?
  {
    assert a != [];
    assert (a + b)[0] == a[0];
    assert (a + b)[1..] == a[1..] + b;
    if ParseRows(a[1..], parse).None? {
      ParseRowsFailed(a[1..], b, parse);
    }
  }

  /** The rows of the first i + 1 lines. */
  lemma {:induction false} LineRowsStep(lines: seq<string>, i: nat)
    requires i < |lines|
    ensures LineRows(lines[..i + 1]) ==
              LineRows(lines[..i]) + (if RowTokens(lines[i]) == [] then [] else [RowTokens(lines[i])])
  {
    assert lines[..i + 1] == lines[..i] + [lines[i]];
    LineRowsAppend(lines[..i], [lines[i]]);
    assert [lines[i]][1..] == [];
  }

  /** Reading the lines in two stretches, split after line i. */
  lemma {:induction false} LineRowsSplitAt(lines: seq<string>, i: nat)
    requires i < |lines|
    ensures LineRows(lines) == LineRows(lines[..i + 1]) + LineRows(lines[i + 1..])
  {
    assert lines == lines[..i + 1] + lines[i + 1..];
    LineRowsAppend(lines[..i + 1], lines[i + 1..]);
  }

  /** A row line whose values do not all convert fails the load of every prefix ending with it. */
  lemma {:induction false} LinePrefixFails(lines: seq<string>, i: nat, parse: string -> Option<real>)
    requires i < |lines| && ParseRow(RowTokens(lines[i]), parse).None?
    ensures ParseRows(LineRows(lines[..i + 1]), parse).None?
  {
    LineRowsStep(lines, i);
    ParseRowsSnoc(LineRows(lines[..i]), RowTokens(lines[i]), parse);
  }

  /** A row line whose values do not all convert fails the whole load. */
  lemma {:induction false} LineFails(lines: seq<string>, i: nat, parse: string -> Option<real>)
    requires i < |lines| && ParseRow(RowTokens(lines[i]), parse).None?
    ensures ParseRows(LineRows(lines), parse).None?
  {
    LinePrefixFails(lines, i, parse);
    LineRowsSplitAt(lines, i);
    ParseRowsFailed(LineRows(lines[..i + 1]), LineRows(lines[i + 1..]), parse);
  }

  /** The load loop: reads the row lines of `block` in order and converts
      their tokens, failing (the `ValueError` of `float()`) on the first token
      that is not a number. */
  method ReadPoints(block: string, parse: string -> Option<real>) returns (points: Option<seq<seq<real>>>)
    ensures points == ParseRows(BlockRows(block), parse)
  {
    var lines := Split(block, '\n');
    var acc: seq<seq<real>> := [];
    var i := 0;
    while i < |lines|
      invariant 0 <= i <= |lines|
      invariant ParseRows(LineRows(lines[..i]), parse) == Some(acc)
    {
      var tokens := RowTokens(lines[i]);
      var row := ParseRow(tokens, parse);
      if row.None? {
        LineFails(lines, i, parse);
        return None;
      }
      LineRowsStep(lines, i);
      if tokens != [] {
        ParseRowsSnoc(LineRows(lines[..i]), tokens, parse);
        acc := acc + [row.value];
      } else {
        assert LineRows(lines[..i]) + [] == LineRows(lines[..i]);
      }
      i := i + 1;
    }
    assert lines[..i] == lines;
    points := Some(acc);
  }

  // ---------------------------------------------------------------------
  // Serialising the grid (the `points_str` loop in save_mesh_data)
  // ---------------------------------------------------------------------

  /** One saved row line without its newline: `"#*# \t  " + ", ".join(row)`. */
  function RowText(row: seq<string>): string {
    RowPrefix + JoinWith(row, ValueSeparator)
  }

  /** The replacement rows: one newline-terminated line per row, in row order. */
  function Serialise(rows: seq<seq<string>>): string {
    if rows == [] then [] else RowText(rows[0]) + "\n" + Serialise(rows[1..])
  }

  lemma {:induction false} SerialiseAppend(rows: seq<seq<string>>, row: seq<string>)
    ensures Serialise(rows + [row]) == Serialise(rows) + RowText(row) + "\n"
  {
    if rows == [] {
      assert [] + [row] == [row];
    } else {
      assert (rows + [row])[1..] == rows[1..] + [row];
      SerialiseAppend(rows[1..], row);
    }
  }

  /** The cells of a grid, row by row (`mesh_data` iterated as rows). */
  function GridRows(g: array2<real>): (r: seq<seq<real>>)
    reads g
    ensures |r| == g.Length0
    ensures forall y :: 0 <= y < |r| ==> |r[y]| == g.Length1
    ensures forall y, x :: 0 <= y < |r| && 0 <= x < |r[y]| ==> r[y][x] == g[y, x]
  {
    seq(g.Length0, y requires 0 <= y < g.Length0 reads g =>
      seq(g.Length1, x requires 0 <= x < g.Length1 reads g => g[y, x]))
  }

  /** Every value formatted with `f"{val:.6f}"`. */
  function FormatRows(vals: seq<seq<real>>, format: real -> string): (r: seq<seq<string>>)
    ensures |r| == |vals|
    ensures forall y :: 0 <= y < |r| ==> |r[y]| == |vals[y]|
    ensures forall y, x :: 0 <= y < |r| && 0 <= x < |r[y]| ==> r[y][x] == format(vals[y][x])
  {
    seq(|vals|, y requires 0 <= y < |vals| =>
      seq(|vals[y]|, x requires 0 <= x < |vals[y]| => format(vals[y][x])))
  }

  /** Formatting then converting gives the values back, provided `float()`
      reads back what `f"{val:.6f}"` wrote for each of them. */
  lemma {:induction false} ParseFormatted(vals: seq<seq<real>>, format: real -> string, parse: string -> Option<real>)
    requires forall y, x :: 0 <= y < |vals| && 0 <= x < |vals[y]| ==> parse(format(vals[y][x])) == Some(vals[y][x])
    ensures ParseRows(FormatRows(vals, format), parse) == Some(vals)
  {
    var rows := FormatRows(vals, format);
    ParseRowsMeaning(rows, parse);
    var v := ParseRows(rows, parse).value;
    forall y | 0 <= y < |vals|
      ensures v[y] == vals[y]
    {
      assert forall x :: 0 <= x < |vals[y]| ==> Some(v[y][x]) == parse(rows[y][x]);
    }
    assert v == vals;
  }

  /** The save loop: accumulates one formatted line per grid row. */
  method FormatPoints(g: array2<real>, format: real -> string) returns (s: string)
    ensures s == Serialise(FormatRows(GridRows(g), format))
  {
    s := [];
    var y := 0;
    ghost var all := FormatRows(GridRows(g), format);
    while y < g.Length0
      invariant 0 <= y <= g.Length0
      invariant s == Serialise(all[..y])
    {
      var row := seq(g.Length1, x requires 0 <= x < g.Length1 reads g => format(g[y, x]));
      assert row == all[y];
      assert all[..y + 1] == all[..y] + [row];
      SerialiseAppend(all[..y], row);
      s := s + RowText(row) + "\n";
      y := y + 1;
    }
    assert all[..y] == all;
  }

  // ---------------------------------------------------------------------
  // Splicing the rows back in (the `re.sub` in save_mesh_data)
  // ---------------------------------------------------------------------

  /** The marker, blanks and `x_count` at the start of `t`: where the save
      pattern stops dropping the old rows. */
  predicate CountLineAt(t: string) {
    StartsWith(t, Marker) && StartsWith(t[SkipBlanks(t, |Marker|)..], CountKey)
  }

  /** The first index of `t` where the save pattern's lookahead succeeds. */
  function FindCountLine(t: string): (r: Option<nat>)
    ensures r.Some? ==> r.value <= |t|
  {
    if CountLineAt(t) then Some(0)
    else if t == [] then None
    else
      match FindCountLine(t[1..])
      case None => None
      case Some(i) => Some(i + 1)
  }

  /** FindCountLine reports a position where the lookahead succeeds. */
  lemma {:induction false} FindCountLineFound(t: string)
    requires FindCountLine(t).Some?
    ensures CountLineAt(t[FindCountLine(t).value..])
  {
    if !CountLineAt(t) {
      FindCountLineFound(t[1..]);
      DropDrop(t, 1, FindCountLine(t[1..]).value);
    }
  }

  /** No count line starts before the one FindCountLine reports (none at all
      when it reports none). */
  lemma {:induction false} FindCountLineFirst(t: string)
    ensures forall i :: 0 <= i <= |t| && (FindCountLine(t).None? || i < FindCountLine(t).value) ==> !CountLineAt(t[i..])
  {
    if !CountLineAt(t) && t != [] {
      FindCountLineFirst(t[1..]);
      assert forall i :: 1 <= i <= |t| ==> t[i..] == t[1..][i - 1..];
    }
  }

  /** The substitution of save_mesh_data, applied to every match: each match
      keeps its prefix up to the blanks after `points =`, gains one newline
      and the new rows, and loses the old rows up to the next marked
      `x_count` line; the search then resumes after the match. */
  function Splice(text: string, rows: string): (r: string)
    decreases |text|
  {
    match NextMatch(text)
    case None => text
    case Some((e, k)) => text[..e] + ("\n" + (rows + Splice(text[e + k..], rows)))
  }

  /** The next match of the save pattern: where the blanks after `points =`
      end, and how many characters of old rows follow up to the marked
      `x_count` line. */
  function NextMatch(text: string): (r: Option<(nat, nat)>)
    ensures r.Some? ==> 0 < r.value.0 && r.value.0 + r.value.1 <= |text|
  {
    match PointsEnd(text)
    case None => None
    case Some(e) =>
      match FindCountLine(text[e..])
      case None => None
      case Some(k) => Some((e, k))
  }

  /** One match: its prefix, one newline and the rows, then the rest of the
      text after the match, spliced in turn. */
  lemma {:induction false} SpliceStep(text: string, rows: string, e: nat, k: nat)
    requires NextMatch(text) == Some((e, k))
    ensures Splice(text, rows) == text[..e] + ("\n" + (rows + Splice(text[e + k..], rows)))
  {
  }

  /** What the next match is made of: the end of `points =` and its blanks,
      and the distance from there to the marked `x_count` line. */
  lemma {:induction false} NextMatchParts(text: string)
    requires NextMatch(text).Some?
    ensures var e := NextMatch(text).value.0;
            var k := NextMatch(text).value.1;
            PointsEnd(text) == Some(e) && FindCountLine(text[e..]) == Some(k)
  {
  }

  /** Without a match, `re.sub` returns the text unchanged. */
  lemma {:induction false} SpliceNoMatch(text: string, rows: string)
    requires PointsEnd(text).None? || FindCountLine(text[PointsEnd(text).value..]).None?
    ensures Splice(text, rows) == text
  {
  }

  /** A text without the section header, or without `points =` after its
      first header, is saved back unchanged. */
  lemma {:induction false} SpliceWithoutSection(text: string, rows: string)
    requires Find(text, Header).None? || Find(text[Find(text, Header).value + |Header|..], PointsKey).None?
    ensures Splice(text, rows) == text
  {
    PointsEndSome(text);
    SpliceNoMatch(text, rows);
  }

  /** A text whose `points =` is followed by no marked `x_count` line is
      saved back unchanged: the save pattern needs that line to match. */
  lemma {:induction false} SpliceWithoutCountLine(text: string, rows: string, e: nat)
    requires PointsEnd(text) == Some(e)
    requires forall i :: e <= i <= |text| ==> !CountLineAt(text[i..])
    ensures Splice(text, rows) == text
  {
    var t := text[e..];
    if FindCountLine(t).Some? {
      var k := FindCountLine(t).value;
      FindCountLineFound(t);
      DropDrop(text, e, k);
      assert false;
    }
    SpliceNoMatch(text, rows);
  }

  // ---------------------------------------------------------------------
  // Metadata (`#*# x_count = 10` and friends)
  // ---------------------------------------------------------------------

  predicate Digit(c: char) { '0' <= c <= '9' }

  /** The longest run of digits at the start of `s` (`\d+` is greedy). */
  function LeadingDigits(s: string): (r: string)
    ensures StartsWith(s, r) && (forall i :: 0 <= i < |r| ==> Digit(r[i]))
    ensures |r| == |s| || !Digit(s[|r|])
  {
    if s != [] && Digit(s[0]) then
      var r := LeadingDigits(s[1..]);
      assert s[..|r| + 1] == [s[0]] + s[1..][..|r|];
      [s[0]] + r
    else []
  }

  /** `int()` of a run of decimal digits. */
  function DecimalValue(d: string): nat
    requires forall i :: 0 <= i < |d| ==> Digit(d[i])
  {
    if d == [] then 0
    else
      var last := d[|d| - 1];
      assert Digit(last);
      10 * DecimalValue(d[..|d| - 1]) + (last as int - '0' as int)
  }

  /** A metadata line where `t` begins: the marker, blanks, the key, blanks,
      `=`, blanks and a run of digits, whose value is returned. */
  function MetaAt(t: string, key: string): Option<nat> {
    if !StartsWith(t, Marker) then None
    else
      var a := TrimStart(t[|Marker|..]);
      if !StartsWith(a, key) then None
      else
        var b := TrimStart(a[|key|..]);
        if b == [] || b[0] != '=' then None
        else
          var d := LeadingDigits(TrimStart(b[1..]));
          if d == [] then None else Some(DecimalValue(d))
  }

  /** What MetaAt finds at each position of `text`, the end included. */
  function MetaScan(text: string, key: string): (r: seq<Option<nat>>)
    ensures |r| == |text| + 1
    ensures forall i :: 0 <= i <= |text| ==> r[i] == MetaAt(text[i..], key)
  {
    seq(|text| + 1, i requires 0 <= i <= |text| => MetaAt(text[i..], key))
  }

  /** `re.search` for a metadata line anywhere in the file: the first match wins. */
  function FindMeta(text: string, key: string): Option<nat> {
    FirstFound(MetaScan(text, key), 0)
  }

  /** The first entry of `xs` from position `n` on that holds a value. */
  function FirstFound(xs: seq<Option<nat>>, n: nat): Option<nat>
    requires n <= |xs|
    decreases |xs| - n
  {
    if n == |xs| then None
    else if xs[n].Some? then xs[n]
    else FirstFound(xs, n + 1)
  }

  lemma {:induction false} FirstFoundFirst(xs: seq<Option<nat>>, n: nat)
    requires n <= |xs|
    ensures FirstFound(xs, n).None? <==> forall i :: n <= i < |xs| ==> xs[i].None?
    ensures FirstFound(xs, n).Some? ==>
              exists i :: n <= i < |xs| && xs[i] == FirstFound(xs, n)
                          && forall j :: n <= j < i ==> xs[j].None?
    decreases |xs| - n
  {
    if n < |xs| && xs[n].None? {
      FirstFoundFirst(xs, n + 1);
    }
  }

  /** FindMeta answers with the metadata line that begins first in the file,
      and with nothing when no position begins one. */
  lemma {:induction false} FindMetaFirst(text: string, key: string)
    ensures FindMeta(text, key).None? <==> forall i :: 0 <= i <= |text| ==> MetaAt(text[i..], key).None?
    ensures FindMeta(text, key).Some? ==>
              exists i :: 0 <= i <= |text| && MetaAt(text[i..], key) == FindMeta(text, key)
                          && forall j :: 0 <= j < i ==> MetaAt(text[j..], key).None?
  {
    FirstFoundFirst(MetaScan(text, key), 0);
  }
}

=== FILE: colour.dfy ===
/**
  `ModernButton.lighten_color` of the pro editor: a `#rrggbb` colour made
  20% lighter, channel by channel, with each channel clamped at 255.
  Each channel is read with `int(_, 16)`, which also takes surrounding
  whitespace and a sign, so a channel can be negative and is then printed
  with a `-`.
 */
module Colour {
  import opened Wrappers
  import opened TextOps

  /** The value of one hexadecimal digit, in either case. */
  function HexDigitValue(c: char): (r: Option<nat>)
    ensures r.Some? ==> r.value < 16
  {
    if '0' <= c <= '9' then Some(c as int - '0' as int)
    else if 'a' <= c <= 'f' then Some(c as int - 'a' as int + 10)
    else if 'A' <= c <= 'F' then Some(c as int - 'A' as int + 10)
    else None
  }

  /** The lower-case digit for a value below 16, as `:x` prints it. */
  function HexDigit(n: nat): (c: char)
    requires n < 16
    ensures HexDigitValue(c) == Some(n)
    ensures '0' <= c <= '9' || 'a' <= c <= 'f'
  {
    if n < 10 then ('0' as int + n) as char else ('a' as int + n - 10) as char
  }

  /** The value of a run of hexadecimal digits; None for anything else,
      the empty string included. */
  function ParseHex(s: string): (r: Option<nat>)
    decreases |s|
  {
    if s == [] then None
    else
      var last := HexDigitValue(s[|s| - 1]);
      if last.None? then None
      else if |s| == 1 then last
      else
        match ParseHex(s[..|s| - 1])
        case None => None
        case Some(high) => Some(16 * high + last.value)
  }

  /** A sign character as `int()` accepts it in front of the digits. */
  predicate IsSign(c: char) { c == '+' || c == '-' }

  /** An optional sign and one or more hexadecimal digits; None for
      anything else. */
  function ParseSigned(t: string): (r: Option<int>)
  {
    if t != [] && IsSign(t[0]) then
      match ParseHex(t[1..])
      case None => None
      case Some(v) => Some(if t[0] == '-' then -(v as int) else v as int)
    else
      match ParseHex(t)
      case None => None
      case Some(v) => Some(v as int)
  }

  /** `int(s, 16)`: surrounding whitespace is dropped, then an optional sign
      and one or more hexadecimal digits must follow; None where Python
      raises `ValueError`. */
  function ParseInt16(s: string): (r: Option<int>)
  {
    ParseSigned(Strip(s))
  }

  /** Python's `s[i:j]` for `0 <= i <= j`: the indices are clamped to the string. */
  function Slice(s: string, i: nat, j: nat): (r: string)
    requires i <= j
    ensures |r| <= j - i
  {
    if i >= |s| then [] else if j >= |s| then s[i..] else s[i..j]
  }

  /** `s.lstrip('#')`: every leading `#` removed. */
  function LstripHash(s: string): (r: string)
    ensures |r| <= |s| && r == s[|s| - |r|..]
    ensures r == [] || r[0] != '#'
    ensures forall i :: 0 <= i < |s| - |r| ==> s[i] == '#'
  {
    if s != [] && s[0] == '#' then LstripHash(s[1..]) else s
  }

  /** `min(255, int(c * 1.2))`, written in integers: `int()` truncates toward
      zero, and `c * 1.2` truncates to `(c * 6) / 5` (toward zero) for every
      channel value two characters can spell, -15..255. */
  function Scale(c: int): int {
    var p := if c >= 0 then c * 6 / 5 else -((-c) * 6 / 5);
    if p < 255 then p else 255
  }

  /** `f'{n:02x}'` for a value below 256: two lower-case hexadecimal digits. */
  function HexByte(n: nat): (r: string)
    requires n < 256
    ensures |r| == 2
  {
    [HexDigit(n / 16), HexDigit(n % 16)]
  }

  /** `f'{n:x}'` for a natural number: its lower-case digits, no padding. */
  function HexDigits(n: nat): (r: string)
    ensures r != []
    decreases n
  {
    if n < 16 then [HexDigit(n)] else HexDigits(n / 16) + [HexDigit(n % 16)]
  }

  /** `f'{n:02x}'` for any integer: zero-padded to two characters, a negative
      value printed as `-` and its digits (the sign counts toward the width). */
  function Format02x(n: int): (r: string)
  {
    if 0 <= n < 256 then HexByte(n)
    else if n < 0 then "-" + HexDigits(-n)
    else HexDigits(n)
  }

  /** The three channels the source reads: `int(hex[i:i+2], 16)` for i = 0, 2, 4. */
  function Channels(s: string): Option<(int, int, int)> {
    var h := LstripHash(s);
    var r := ParseInt16(Slice(h, 0, 2));
    var g := ParseInt16(Slice(h, 2, 4));
    var b := ParseInt16(Slice(h, 4, 6));
    if r.Some? && g.Some? && b.Some? then Some((r.value, g.value, b.value)) else None
  }

  /** `lighten_color`: None where `int()` would raise `ValueError`. */
  function Lighten(s: string): (out: Option<string>)
    ensures out.Some? <==> Channels(s).Some?
  {
    var c := Channels(s);
    if c.None? then None
    else Some("#" + Format02x(Scale(c.value.0)) + Format02x(Scale(c.value.1)) + Format02x(Scale(c.value.2)))
  }

  // ---------------------------------------------------------------------
  // Properties
  // ---------------------------------------------------------------------

  /** A hexadecimal literal as `int(_, 16)` takes it once stripped: an
      optional sign, then at least one hexadecimal digit. */
  predicate HexLiteral(t: string) {
    var k := if t != [] && IsSign(t[0]) then 1 else 0;
    k < |t| && forall i :: k <= i < |t| ==> HexDigitValue(t[i]).Some?
  }

  /** ParseHex reads exactly the non-empty runs of hexadecimal digits. */
  lemma {:induction false} ParseHexSome(s: string)
    ensures ParseHex(s).Some? <==> s != [] && forall i :: 0 <= i < |s| ==> HexDigitValue(s[i]).Some?
    decreases |s|
  {
    if |s| > 1 {
      var a := s[..|s| - 1];
      ParseHexSome(a);
      assert forall i :: 0 <= i < |a| ==> a[i] == s[i];
    }
  }

  /** `int(s, 16)` succeeds exactly when the stripped text is a hexadecimal
      literal. */
  lemma {:induction false} ParseInt16Some(s: string)
    ensures ParseInt16(s).Some? <==> HexLiteral(Strip(s))
  {
    SignedSome(Strip(s));
  }

  /** ParseSigned reads exactly the hexadecimal literals. */
  lemma {:induction false} SignedSome(t: string)
    ensures ParseSigned(t).Some? <==> HexLiteral(t)
  {
    if t != [] && IsSign(t[0]) {
      ParseHexSome(t[1..]);
      assert forall i :: 1 <= i < |t| ==> t[i] == t[1..][i - 1];
    } else {
      ParseHexSome(t);
    }
  }

  /** `lighten_color` returns a colour exactly when each of the three
      two-character slices after the `#` is a hexadecimal literal. */
  lemma {:induction false} LightenDefined(s: string)
    ensures var h := LstripHash(s);
            Lighten(s).Some? <==>
            HexLiteral(Strip(Slice(h, 0, 2))) && HexLiteral(Strip(Slice(h, 2, 4))) && HexLiteral(Strip(Slice(h, 4, 6)))
  {
    var h := LstripHash(s);
    ParseInt16Some(Slice(h, 0, 2));
    ParseInt16Some(Slice(h, 2, 4));
    ParseInt16Some(Slice(h, 4, 6));
  }

  /** A parsed run of at most two digits is below 256. */
  lemma {:induction false} ChannelBound(s: string)
    requires |s| <= 2 && ParseHex(s).Some?
    ensures ParseHex(s).value < 256
  {
    if |s| == 2 {
      assert ParseHex(s[..1]).Some?;
    }
  }

  /** A channel read from at most two characters lies in -15..255. */
  lemma {:induction false} ChannelRange(s: string)
    requires |s| <= 2 && ParseInt16(s).Some?
    ensures -15 <= ParseInt16(s).value < 256
  {
    var t := Strip(s);
    if t != [] && IsSign(t[0]) {
      assert |t[1..]| <= 1;
    } else {
      ChannelBound(t);
    }
  }

  /** A text with a non-blank at each end is its own `strip()`. */
  lemma {:induction false} StripsTo(s: string)
    requires s != [] && !IsSpace(s[0]) && !IsSpace(s[|s| - 1])
    ensures Strip(s) == s
  {
    assert [] + s == s;
    StripPadded([], s);
  }

  /** Printing a value below 256 and reading it back gives the value. */
  lemma {:induction false} HexByteRoundTrip(n: nat)
    requires n < 256
    ensures ParseInt16(HexByte(n)) == Some(n)
  {
    var s := HexByte(n);
    assert HexDigitValue(s[0]).Some? && HexDigitValue(s[1]).Some?;
    StripsTo(s);
    assert s[..1] == [HexDigit(n / 16)];
    assert ParseHex(s[..1]) == Some(n / 16);
    assert ParseHex(s) == Some(16 * (n / 16) + n % 16);
  }

  /** Reading the unpadded digits of a number gives the number. */
  lemma {:induction false} HexDigitsRoundTrip(n: nat)
    ensures ParseHex(HexDigits(n)) == Some(n)
    decreases n
  {
    if n >= 16 {
      HexDigitsRoundTrip(n / 16);
      var s := HexDigits(n);
      assert s[..|s| - 1] == HexDigits(n / 16);
    }
  }

  /** `int(f'{n:02x}', 16) == n` for every integer, negative ones included. */
  lemma {:induction false} Format02xRoundTrip(n: int)
    ensures ParseInt16(Format02x(n)) == Some(n)
  {
    if 0 <= n < 256 {
      HexByteRoundTrip(n);
    } else if n < 0 {
      NegativeRoundTrip(n);
    } else {
      var d := HexDigits(n);
      HexDigitsRoundTrip(n);
      ParseHexSome(d);
      assert HexDigitValue(d[|d| - 1]).Some? && HexDigitValue(d[0]).Some?;
      StripsTo(d);
    }
  }

  /** A negative value is printed as `-` and its digits, which read back. */
  lemma {:induction false} NegativeRoundTrip(n: int)
    requires n < 0
    ensures ParseInt16(Format02x(n)) == Some(n)
  {
    var d := HexDigits(-n);
    HexDigitsRoundTrip(-n);
    ParseHexSome(d);
    var s := "-" + d;
    assert Format02x(n) == s;
    assert s[|s| - 1] == d[|d| - 1];
    assert HexDigitValue(d[|d| - 1]).Some?;
    StripsTo(s);
    MinusDigits(d, -n);
  }

  /** `-` and digits reading as `v` read as `-v`. */
  lemma {:induction false} MinusDigits(d: string, v: nat)
    requires ParseHex(d) == Some(v)
    ensures ParseSigned("-" + d) == Some(-(v as int))
  {
    assert ("-" + d)[1..] == d;
  }

  /** No channel from 0 to 255 gets darker. */
  lemma {:induction false} ScaleNotDarker(c: int)
    requires 0 <= c < 256
    ensures c <= Scale(c) <= 255
  {
  }

  /** A negative channel stays negative and does not get lighter. */
  lemma {:induction false} ScaleNegative(c: int)
    requires c < 0
    ensures Scale(c) <= c
  {
  }

  /** Lighter input, lighter output. */
  lemma {:induction false} ScaleMonotone(c: int, d: int)
    requires c <= d
    ensures Scale(c) <= Scale(d)
  {
    if c >= 0 {
      assert c * 6 <= d * 6;
    } else if d < 0 {
      assert (-d) * 6 <= (-c) * 6;
    }
  }

  /** Black stays black; a channel from 213 up saturates; below that none does. */
  lemma {:induction false} ScaleEnds(c: int)
    requires c >= 0
    ensures Scale(0) == 0
    ensures c >= 213 ==> Scale(c) == 255
    ensures c < 213 ==> Scale(c) == c * 6 / 5 < 255
  {
  }

  /** Stripping the one leading `#` of a printed colour. */
  lemma {:induction false} StripPrinted(t: string)
    requires t != [] && t[0] != '#'
    ensures LstripHash("#" + t) == t
  {
    assert ("#" + t)[1..] == t;
  }

  /** The channels, given what `int(_, 16)` reads from each slice. */
  lemma {:induction false} ChannelsOf(s: string, t: string, r: int, g: int, b: int)
    requires LstripHash(s) == t
    requires ParseInt16(Slice(t, 0, 2)) == Some(r)
    requires ParseInt16(Slice(t, 2, 4)) == Some(g)
    requires ParseInt16(Slice(t, 4, 6)) == Some(b)
    ensures Channels(s) == Some((r, g, b))
  {
  }

  /** The channels of `#` followed by three two-character slices are what
      `int(_, 16)` reads from each slice. */
  lemma {:induction false} ThreeSlices(x: string, y: string, z: string, r: int, g: int, b: int)
    requires |x| == 2 && |y| == 2 && |z| == 2 && x[0] != '#'
    requires ParseInt16(x) == Some(r) && ParseInt16(y) == Some(g) && ParseInt16(z) == Some(b)
    ensures Channels("#" + (x + y + z)) == Some((r, g, b))
  {
    var t := x + y + z;
    StripPrinted(t);
    assert Slice(t, 0, 2) == x;
    assert Slice(t, 2, 4) == y;
    assert Slice(t, 4, 6) == z;
    ChannelsOf("#" + t, t, r, g, b);
  }

  /** Reading the channels of a printed colour gives them back. */
  lemma {:induction false} PrintedChannels(r: nat, g: nat, b: nat)
    requires r < 256 && g < 256 && b < 256
    ensures Channels("#" + HexByte(r) + HexByte(g) + HexByte(b)) == Some((r, g, b))
  {
    var t := HexByte(r) + HexByte(g) + HexByte(b);
    assert "#" + HexByte(r) + HexByte(g) + HexByte(b) == "#" + t;
    HexByteRoundTrip(r);
    HexByteRoundTrip(g);
    HexByteRoundTrip(b);
    ThreeSlices(HexByte(r), HexByte(g), HexByte(b), r, g, b);
  }

  /** A printed colour is `#` and six lower-case hexadecimal digits. */
  lemma {:induction false} PrintedShape(r: nat, g: nat, b: nat)
    requires r < 256 && g < 256 && b < 256
    ensures var out := "#" + HexByte(r) + HexByte(g) + HexByte(b);
            |out| == 7 && out[0] == '#'
            && forall i :: 1 <= i < 7 ==> '0' <= out[i] <= '9' || 'a' <= out[i] <= 'f'
  {
  }

  /** For channels from 0 up, the result is `#` and six lower-case
      hexadecimal digits, and reading its channels back gives the scaled
      input channels. */
  lemma {:induction false} LightenShape(s: string)
    requires Channels(s).Some?
    requires Channels(s).value.0 >= 0 && Channels(s).value.1 >= 0 && Channels(s).value.2 >= 0
    ensures var out := Lighten(s).value;
            |out| == 7 && out[0] == '#'
            && (forall i :: 1 <= i < 7 ==> '0' <= out[i] <= '9' || 'a' <= out[i] <= 'f')
            && Channels(out) == Some((Scale(Channels(s).value.0), Scale(Channels(s).value.1), Scale(Channels(s).value.2)))
  {
    var c := Channels(s).value;
    var r, g, b := c.0, c.1, c.2;
    ChannelRange(Slice(LstripHash(s), 0, 2));
    ChannelRange(Slice(LstripHash(s), 2, 4));
    ChannelRange(Slice(LstripHash(s), 4, 6));
    ScaleNotDarker(r);
    ScaleNotDarker(g);
    ScaleNotDarker(b);
    assert Lighten(s).value == "#" + HexByte(Scale(r)) + HexByte(Scale(g)) + HexByte(Scale(b));
    PrintedShape(Scale(r), Scale(g), Scale(b));
    PrintedChannels(Scale(r), Scale(g), Scale(b));
  }

  /** Lighten prints the scaled channels it read. */
  lemma {:induction false} LightenOf(s: string, r: int, g: int, b: int)
    requires Channels(s) == Some((r, g, b))
    ensures Lighten(s) == Some("#" + Format02x(Scale(r)) + Format02x(Scale(g)) + Format02x(Scale(b)))
  {
  }

  /** A negative channel is printed with its `-`: `int("-1", 16)` is -1,
      and `int(-1 * 1.2)` is -1 again. */
  lemma {:induction false} LightenNegativeChannel()
    ensures Lighten("#-1ffff") == Some("#-1ffff")
  {
    var m := "-" + [HexDigit(1)];
    var f := HexByte(255);
    SpellNegative();
    NegativeChannels();
    LightenOf("#" + (m + f + f), -1, 255, 255);
    assert Scale(-1) == -1 && Scale(255) == 255;
    assert Format02x(-1) == m;
  }

  /** The channels of `#-1ffff`. */
  lemma {:induction false} NegativeChannels()
    ensures Channels("#" + (("-" + [HexDigit(1)]) + HexByte(255) + HexByte(255))) == Some((-1, 255, 255))
  {
    MinusOne();
    HexByteRoundTrip(255);
    ThreeSlices("-" + [HexDigit(1)], HexByte(255), HexByte(255), -1, 255, 255);
  }

  /** `int("-1", 16)` is -1. */
  lemma {:induction false} MinusOne()
    ensures ParseInt16("-" + [HexDigit(1)]) == Some(-1)
  {
    assert Format02x(-1) == "-" + [HexDigit(1)];
    Format02xRoundTrip(-1);
  }

  /** The pieces of the negative-channel example, spelled out. */
  lemma {:induction false} SpellNegative()
    ensures var m := "-" + [HexDigit(1)];
            "#" + (m + HexByte(255) + HexByte(255)) == "#-1ffff"
            && "#" + m + HexByte(255) + HexByte(255) == "#-1ffff"
  {
    assert HexDigit(1) == '1' && HexDigit(15) == 'f';
    assert HexByte(255) == ['f', 'f'];
  }

  /** A blank-padded channel is read as its digits: `int(" f", 16)` is 15,
      lightened to 18. */
  lemma {:induction false} LightenPaddedChannel()
    ensures Lighten("# f0000") == Some("#120000")
  {
    SpellPadded();
    PaddedChannels();
    LightenOf("#" + ((" " + [HexDigit(15)]) + HexByte(0) + HexByte(0)), 15, 0, 0);
    assert Scale(15) == 18 && Scale(0) == 0;
  }

  /** The channels of `# f0000`. */
  lemma {:induction false} PaddedChannels()
    ensures Channels("#" + ((" " + [HexDigit(15)]) + HexByte(0) + HexByte(0))) == Some((15, 0, 0))
  {
    PaddedChannel();
    HexByteRoundTrip(0);
    ThreeSlices(" " + [HexDigit(15)], HexByte(0), HexByte(0), 15, 0, 0);
  }

  /** The pieces of the padded-channel example, spelled out. */
  lemma {:induction false} SpellPadded()
    ensures "#" + ((" " + [HexDigit(15)]) + HexByte(0) + HexByte(0)) == "# f0000"
            && "#" + HexByte(18) + HexByte(0) + HexByte(0) == "#120000"
  {
    assert HexDigit(1) == '1' && HexDigit(2) == '2' && HexDigit(0) == '0' && HexDigit(15) == 'f';
    assert HexByte(18) == ['1', '2'];
    assert HexByte(0) == ['0', '0'];
  }

  /** `int(" f", 16)` is 15. */
  lemma {:induction false} PaddedChannel()
    ensures ParseInt16(" " + [HexDigit(15)]) == Some(15)
  {
    StripPadded(" ", [HexDigit(15)]);
  }
}

=== FILE: geometry.dfy ===
/**
  Grid geometry shared by the editors: the sample axes of the interpolated
  view (`generate_interpolated_mesh`, sizes and sample positions only) and
  the index-to-millimetre mapping shown when a point is selected.
 */
module Geometry {
  import opened Wrappers

  /** The probed area of the printer, in millimetres (`mesh_min`, `mesh_max`). */
  const MeshMinX: int := 16
  const MeshMinY: int := 10
  const MeshMaxX: int := 786
  const MeshMaxY: int := 767

  /** `segments * pps + 1` with `segments = count - 1`: the number of samples
      along one axis of the interpolated grid. */
  function DenseCount(count: int, pps: int): int {
    (count - 1) * pps + 1
  }

  /** `np.linspace(0, stop, num)`: None where numpy raises (a negative
      `num`); one sample at 0 when `num` is 1; otherwise `num` evenly spaced
      samples from 0 to `stop`. */
  function Linspace(stop: real, num: int): (r: Option<seq<real>>)
    ensures r.Some? <==> num >= 0
    ensures r.Some? ==> |r.value| == num
  {
    if num < 0 then None
    else if num == 1 then Some([0.0])
    else Some(seq(num, i requires 0 <= i < num => i as real * stop / (num - 1) as real))
  }

  /** The two interpolated axes for a `y_count` by `x_count` grid with the
      given points per segment. */
  function DenseAxes(xCount: int, yCount: int, xPps: int, yPps: int): Option<(seq<real>, seq<real>)> {
    match (Linspace((xCount - 1) as real, DenseCount(xCount, xPps)),
           Linspace((yCount - 1) as real, DenseCount(yCount, yPps)))
    case (Some(xs), Some(ys)) => Some((xs, ys))
    case _ => None
  }

  /** The millimetre position of index `i` along an axis from `lo` to `hi`
      with `count` probe points; None where Python raises
      `ZeroDivisionError` (a single probe point). */
  function PhysicalCoord(lo: int, hi: int, i: int, count: int): (r: Option<real>)
    ensures r.None? <==> count == 1
  {
    if count == 1 then None
    else Some(lo as real + (i as real / (count - 1) as real) * (hi - lo) as real)
  }

  // ---------------------------------------------------------------------
  // Properties
  // ---------------------------------------------------------------------

  /** `k * c / m` is `i` when `k == i * p` and `m == c * p`. */
  lemma {:induction false} Cancel(i: real, p: real, c: real, k: real, m: real)
    requires p > 0.0 && c > 0.0 && k == i * p && m == c * p
    ensures k * c / m == i
  {
    assert k * c == i * m;
  }

  /** The integer product cast to a real is the product of the casts. */
  lemma {:induction false} CastMul(i: int, p: int)
    ensures (i * p) as real == i as real * p as real
  {
  }

  /** Sample `i * p` of `p * c + 1` samples from 0 to `c` is `i`. */
  lemma {:induction false} SampleIs(c: int, p: int, i: int, k: int, n: int)
    requires c >= 1 && p >= 1 && k == i * p && n == c * p + 1 && 0 <= k < n
    ensures Linspace(c as real, n).value[k] == i as real
  {
    CastMul(i, p);
    CastMul(c, p);
    Cancel(i as real, p as real, c as real, k as real, (n - 1) as real);
  }

  /** Dividing by a positive number keeps the order. */
  lemma {:induction false} DivOrder(a: real, b: real, d: real)
    requires d > 0.0 && a < b
    ensures a / d < b / d
  {
    assert (b - a) / d > 0.0;
    assert b / d - a / d == (b - a) / d;
  }

  /** A smaller index times the same positive factor stays smaller or equal. */
  lemma {:induction false} MulLe(i: int, m: int, p: int)
    requires 0 <= i <= m && p >= 1
    ensures 0 <= i * p <= m * p
  {
  }

  /** Sample `i * pps` of the interpolated axis is the original index `i`. */
  lemma {:induction false} DenseSample(count: int, pps: int, i: int)
    requires count >= 2 && pps >= 1 && 0 <= i < count
    ensures var n := DenseCount(count, pps);
            n >= 2 && 0 <= i * pps < n
            && Linspace((count - 1) as real, n).value[i * pps] == i as real
  {
    MulLe(1, count - 1, pps);
    MulLe(i, count - 1, pps);
    SampleIs(count - 1, pps, i, i * pps, DenseCount(count, pps));
  }

  /** The interpolated axes have `(count - 1) * pps + 1` samples, run from 0
      to `count - 1`, and hit every original grid index: sample `i * pps` is
      index `i`. */
  lemma {:induction false} DenseAxis(count: int, pps: int)
    requires count >= 2 && pps >= 1
    ensures var s := Linspace((count - 1) as real, DenseCount(count, pps));
            s.Some? && |s.value| == (count - 1) * pps + 1
            && s.value[0] == 0.0 && s.value[|s.value| - 1] == (count - 1) as real
            && forall i :: 0 <= i < count ==> 0 <= i * pps < |s.value| && s.value[i * pps] == i as real
  {
    forall i | 0 <= i < count
      ensures 0 <= i * pps < DenseCount(count, pps)
      ensures Linspace((count - 1) as real, DenseCount(count, pps)).value[i * pps] == i as real
    {
      DenseSample(count, pps, i);
    }
    DenseSample(count, pps, count - 1);
  }

  /** The original axis `np.linspace(0, count - 1, count)` is the indices. */
  lemma {:induction false} OriginalAxis(count: int)
    requires count >= 1
    ensures var s := Linspace((count - 1) as real, count);
            s.Some? && forall i :: 0 <= i < count ==> s.value[i] == i as real
  {
  }

  /** The samples increase along the axis. */
  lemma {:induction false} LinspaceIncreasing(stop: real, num: int, i: int, j: int)
    requires stop > 0.0 && num >= 2 && 0 <= i < j < num
    ensures Linspace(stop, num).value[i] < Linspace(stop, num).value[j]
  {
    assert i as real * stop < j as real * stop;
    DivOrder(i as real * stop, j as real * stop, (num - 1) as real);
  }

  /** Index 0 maps to `lo` and index `count - 1` to `hi`. */
  lemma {:induction false} PhysicalEnds(lo: int, hi: int, count: int)
    requires count >= 2
    ensures PhysicalCoord(lo, hi, 0, count) == Some(lo as real)
    ensures PhysicalCoord(lo, hi, count - 1, count) == Some(hi as real)
  {
    assert (count - 1) as real / (count - 1) as real == 1.0;
  }

  /** Inside the grid the position lies between `lo` and `hi`, and it grows
      with the index. */
  lemma {:induction false} PhysicalWithin(lo: int, hi: int, i: int, j: int, count: int)
    requires count >= 2 && lo <= hi && 0 <= i <= j < count
    ensures lo as real <= PhysicalCoord(lo, hi, i, count).value <= hi as real
    ensures PhysicalCoord(lo, hi, i, count).value <= PhysicalCoord(lo, hi, j, count).value
  {
    var d := (count - 1) as real;
    var w := (hi - lo) as real;
    assert 0.0 <= i as real / d <= j as real / d <= 1.0;
    assert (i as real / d) * w <= (j as real / d) * w;
    assert (j as real / d) * w <= w;
  }
}

=== FILE: grid.dfy ===
/**
  The mesh grid as values: the specifications of the edits the editors make
  to `mesh_data` (set, average, smooth, flatten, offset), the means they
  take, and the array loops that carry them out in place.
 */
module MeshGrid {
  import opened Wrappers
  import opened Selection
  import opened MeshCodec

  /** The cells of a grid, row by row. */
  type Grid = seq<seq<real>>

  /** What `np.array(points)` turns into a two-dimensional array: at least
      one row, no empty row, every row as long as the first. */
  predicate Rectangular(g: Grid) {
    |g| >= 1 && |g[0]| >= 1 && forall y :: 0 <= y < |g| ==> |g[y]| == |g[0]|
  }

  /** `mesh_data[y, x]` exists (indices are never negative here). */
  predicate InGrid(g: Grid, c: Cell) {
    0 <= c.y < |g| && 0 <= c.x < |g[c.y]|
  }

  predicate AllInGrid(g: Grid, cells: seq<Cell>) {
    forall i :: 0 <= i < |cells| ==> InGrid(g, cells[i])
  }

  // ---------------------------------------------------------------------
  // Sums and means
  // ---------------------------------------------------------------------

  function Sum(vs: seq<real>): real {
    if vs == [] then 0.0 else Sum(vs[..|vs| - 1]) + vs[|vs| - 1]
  }

  /** `np.mean` of a non-empty list of values. */
  function Mean(vs: seq<real>): real
    requires vs != []
  {
    Sum(vs) / |vs| as real
  }

  /** The sum of every cell of a grid. */
  function GridSum(g: Grid): real {
    if g == [] then 0.0 else GridSum(g[..|g| - 1]) + Sum(g[|g| - 1])
  }

  /** The number of cells of a grid. */
  function CellCount(g: Grid): nat {
    if g == [] then 0 else CellCount(g[..|g| - 1]) + |g[|g| - 1]|
  }

  /** `np.mean(mesh_data)`: the mean over all cells. */
  function GridMean(g: Grid): real
    requires Rectangular(g)
  {
    CellCountRectangular(g);
    GridSum(g) / CellCount(g) as real
  }

  /** `[mesh_data[y, x] for y, x in cells]`. */
  function RegionValues(g: Grid, cells: seq<Cell>): (r: seq<real>)
    requires AllInGrid(g, cells)
    ensures |r| == |cells|
    ensures forall i :: 0 <= i < |cells| ==> r[i] == g[cells[i].y][cells[i].x]
  {
    seq(|cells|, i requires 0 <= i < |cells| => g[cells[i].y][cells[i].x])
  }

  // ---------------------------------------------------------------------
  // Edits
  // ---------------------------------------------------------------------

  /** `for (y, x), v in zip(cells, vals): mesh_data[y, x] = v`, in order, so
      that a later write to the same cell wins. */
  function Written(g: Grid, cells: seq<Cell>, vals: seq<real>): (r: Grid)
    requires |vals| == |cells| && AllInGrid(g, cells)
    ensures |r| == |g| && forall y :: 0 <= y < |r| ==> |r[y]| == |g[y]|
  {
    if cells == [] then g
    else
      var n := |cells| - 1;
      var c := cells[n];
      var h := Written(g, cells[..n], vals[..n]);
      h[c.y := h[c.y][c.x := vals[n]]]
  }

  /** `n` copies of one value: what a loop writing `new_value` everywhere writes. */
  function Repeat(v: real, n: nat): (r: seq<real>)
    ensures |r| == n && forall i :: 0 <= i < n ==> r[i] == v
  {
    seq(n, i => v)
  }

  /** `mesh_data.fill(v)`. */
  function Filled(g: Grid, v: real): (r: Grid)
    ensures |r| == |g| && forall y :: 0 <= y < |r| ==> |r[y]| == |g[y]|
  {
    seq(|g|, y requires 0 <= y < |g| => Repeat(v, |g[y]|))
  }

  /** `mesh_data += d`. */
  function Shifted(g: Grid, d: real): (r: Grid)
    ensures |r| == |g| && forall y :: 0 <= y < |r| ==> |r[y]| == |g[y]|
    ensures forall y, x :: 0 <= y < |r| && 0 <= x < |r[y]| ==> r[y][x] == g[y][x] + d
  {
    seq(|g|, y requires 0 <= y < |g| => seq(|g[y]|, x requires 0 <= x < |g[y]| => g[y][x] + d))
  }

  /** The 3x3 block around `c`, in the order of the `dy`, `dx` loops. */
  function Around(c: Cell): seq<Cell> {
    [Cell(c.y - 1, c.x - 1), Cell(c.y - 1, c.x), Cell(c.y - 1, c.x + 1),
     Cell(c.y, c.x - 1), c, Cell(c.y, c.x + 1),
     Cell(c.y + 1, c.x - 1), Cell(c.y + 1, c.x), Cell(c.y + 1, c.x + 1)]
  }

  /** The cells of `cs` that pass the bounds check against the counts, in order. */
  function KeepInCount(cs: seq<Cell>, yCount: int, xCount: int): (r: seq<Cell>)
    ensures forall d :: d in r <==> d in cs && InCount(d, yCount, xCount)
  {
    if cs == [] then []
    else (if InCount(cs[0], yCount, xCount) then [cs[0]] else []) + KeepInCount(cs[1..], yCount, xCount)
  }

  /** The neighbours `smooth_region` averages for cell `c`. */
  function Neighbours(c: Cell, yCount: int, xCount: int): seq<Cell> {
    KeepInCount(Around(c), yCount, xCount)
  }

  /** Smoothing can read every cell it needs: the cells of the region and
      all their neighbours exist. */
  predicate SmoothFits(g: Grid, cells: seq<Cell>, yCount: int, xCount: int) {
    AllInGrid(g, cells)
    && forall i :: 0 <= i < |cells| ==> AllInGrid(g, Neighbours(cells[i], yCount, xCount))
  }

  /** Every cell of the region has a neighbour to average. */
  predicate SmoothDefined(cells: seq<Cell>, yCount: int, xCount: int) {
    forall i :: 0 <= i < |cells| ==> |Neighbours(cells[i], yCount, xCount)| > 0
  }

  /** The mean of the neighbourhood of `c`, read from `g`. */
  function SmoothValue(g: Grid, c: Cell, yCount: int, xCount: int): real
    requires AllInGrid(g, Neighbours(c, yCount, xCount)) && |Neighbours(c, yCount, xCount)| > 0
  {
    Mean(RegionValues(g, Neighbours(c, yCount, xCount)))
  }

  /** The `smoothed` values of the region's cells, all read from the grid
      before any of them is written. */
  function SmoothValues(g: Grid, cells: seq<Cell>, yCount: int, xCount: int): (r: seq<real>)
    requires SmoothFits(g, cells, yCount, xCount) && SmoothDefined(cells, yCount, xCount)
    ensures |r| == |cells|
    ensures forall i :: 0 <= i < |cells| ==> r[i] == SmoothValue(g, cells[i], yCount, xCount)
  {
    seq(|cells|, i requires 0 <= i < |cells| => SmoothValue(g, cells[i], yCount, xCount))
  }

  /** The index of the first cell outside the grid: where a loop over
      `cells` indexing `mesh_data` raises `IndexError`; `|cells|` if none is. */
  function FirstMiss(g: Grid, cells: seq<Cell>): (k: nat)
    ensures k <= |cells|
    ensures AllInGrid(g, cells[..k])
    ensures k < |cells| ==> !InGrid(g, cells[k])
  {
    if cells == [] || !InGrid(g, cells[0]) then 0
    else
      var k := FirstMiss(g, cells[1..]);
      assert cells[..k + 1] == [cells[0]] + cells[1..][..k];
      k + 1
  }

  /** One more write extends the written prefix. */
  lemma {:induction false} WrittenStep(g: Grid, cells: seq<Cell>, vals: seq<real>, k: nat)
    requires |vals| == |cells| && k < |cells| && AllInGrid(g, cells[..k]) && InGrid(g, cells[k])
    ensures AllInGrid(g, cells[..k + 1])
    ensures var h := Written(g, cells[..k], vals[..k]);
            var c := cells[k];
            Written(g, cells[..k + 1], vals[..k + 1]) == h[c.y := h[c.y][c.x := vals[k]]]
  {
    assert cells[..k + 1][..k] == cells[..k] && vals[..k + 1][..k] == vals[..k];
  }

  /** The first miss is where the cells stop lying in the grid. */
  lemma {:induction false} FirstMissAt(g: Grid, cells: seq<Cell>, k: nat)
    requires k <= |cells| && AllInGrid(g, cells[..k]) && (k == |cells| || !InGrid(g, cells[k]))
    ensures FirstMiss(g, cells) == k
  {
  }

  /** `for (y, x) in cells: mesh_data[y, x] = v`: every cell up to the first
      one outside the grid gets `v`. */
  function SetCells(g: Grid, cells: seq<Cell>, v: real): (r: Grid)
    ensures |r| == |g| && forall y :: 0 <= y < |r| ==> |r[y]| == |g[y]|
  {
    var k := FirstMiss(g, cells);
    Written(g, cells[..k], Repeat(v, k))
  }

  /** When every cell lies in the grid, the loop writes all of them. */
  lemma {:induction false} SetCellsAll(g: Grid, cells: seq<Cell>, v: real)
    requires AllInGrid(g, cells)
    ensures SetCells(g, cells, v) == Written(g, cells, Repeat(v, |cells|))
  {
    FirstMissAt(g, cells, |cells|);
    assert cells[..|cells|] == cells;
  }

  // ---------------------------------------------------------------------
  // Properties
  // ---------------------------------------------------------------------

  /** A rectangular grid has rows times columns cells. */
  lemma {:induction false} CellCountRectangular(g: Grid)
    requires Rectangular(g)
    ensures CellCount(g) == |g| * |g[0]| > 0
  {
    var n := |g| - 1;
    if n > 0 {
      assert Rectangular(g[..n]);
      CellCountRectangular(g[..n]);
    }
  }

  lemma {:induction false} SumAppend(a: seq<real>, b: seq<real>)
    ensures Sum(a + b) == Sum(a) + Sum(b)
  {
    if b == [] {
      assert a + b == a;
    } else {
      var n := |b| - 1;
      assert (a + b)[..|a + b| - 1] == a + b[..n];
      SumAppend(a, b[..n]);
    }
  }

  /** A sum of equal values. */
  lemma {:induction false} SumRepeat(vs: seq<real>, v: real)
    requires forall i :: 0 <= i < |vs| ==> vs[i] == v
    ensures Sum(vs) == |vs| as real * v
  {
    if vs != [] {
      SumRepeat(vs[..|vs| - 1], v);
    }
  }

  /** Adding `d` to each of `n` values adds `n * d` to their sum. */
  lemma {:induction false} SumShift(vs: seq<real>, ws: seq<real>, d: real)
    requires |ws| == |vs| && forall i :: 0 <= i < |vs| ==> ws[i] == vs[i] + d
    ensures Sum(ws) == Sum(vs) + |vs| as real * d
  {
    if vs != [] {
      var n := |vs| - 1;
      SumShift(vs[..n], ws[..n], d);
    }
  }

  /** The values lie between `lo` and `hi`, and so does their sum divided by
      their number. */
  lemma {:induction false} SumBetween(vs: seq<real>, lo: real, hi: real)
    requires forall i :: 0 <= i < |vs| ==> lo <= vs[i] <= hi
    ensures |vs| as real * lo <= Sum(vs) <= |vs| as real * hi
  {
    if vs != [] {
      SumBetween(vs[..|vs| - 1], lo, hi);
    }
  }

  /** The mean of equal values is that value. */
  lemma {:induction false} MeanRepeat(vs: seq<real>, v: real)
    requires vs != [] && forall i :: 0 <= i < |vs| ==> vs[i] == v
    ensures Mean(vs) == v
  {
    SumRepeat(vs, v);
  }

  /** `n * lo <= s <= n * hi` puts `s / n` between `lo` and `hi`. */
  lemma {:induction false} DivBetween(s: real, n: real, lo: real, hi: real)
    requires n > 0.0 && n * lo <= s <= n * hi
    ensures lo <= s / n <= hi
  {
    var q := s / n;
    assert q * n == s;
  }

  /** A mean lies between the smallest and the largest value. */
  lemma {:induction false} MeanBetween(vs: seq<real>, lo: real, hi: real)
    requires vs != [] && forall i :: 0 <= i < |vs| ==> lo <= vs[i] <= hi
    ensures lo <= Mean(vs) <= hi
  {
    SumBetween(vs, lo, hi);
    DivBetween(Sum(vs), |vs| as real, lo, hi);
  }

  /** Grids of the same shape have the same number of cells. */
  lemma {:induction false} CellCountSameShape(a: Grid, b: Grid)
    requires |a| == |b| && forall y :: 0 <= y < |a| ==> |a[y]| == |b[y]|
    ensures CellCount(a) == CellCount(b)
  {
    if a != [] {
      CellCountSameShape(a[..|a| - 1], b[..|b| - 1]);
    }
  }

  /** `n` times `d`, kept behind a name so that sums over grids stay linear
      for the solver. */
  function Times(n: nat, d: real): real {
    n as real * d
  }

  lemma {:induction false} TimesAdd(a: nat, b: nat, d: real)
    ensures Times(a + b, d) == Times(a, d) + Times(b, d)
  {
  }

  /** A grid whose cells all hold `v` sums to `v` times its cell count. */
  lemma {:induction false} GridSumConst(f: Grid, v: real)
    requires forall y :: 0 <= y < |f| ==> Sum(f[y]) == Times(|f[y]|, v)
    ensures GridSum(f) == Times(CellCount(f), v)
  {
    if f != [] {
      var n := |f| - 1;
      var p := f[..n];
      assert forall y :: 0 <= y < n ==> p[y] == f[y];
      GridSumConst(p, v);
      TimesAdd(CellCount(p), |f[n]|, v);
    }
  }

  /** Adding `d` to every cell adds `d` once per cell to the grid's sum. */
  lemma {:induction false} GridSumShift(g: Grid, s: Grid, d: real)
    requires |s| == |g|
    requires forall y :: 0 <= y < |g| ==> Sum(s[y]) == Sum(g[y]) + Times(|g[y]|, d)
    ensures GridSum(s) == GridSum(g) + Times(CellCount(g), d)
  {
    if g != [] {
      var n := |g| - 1;
      var p, q := g[..n], s[..n];
      assert forall y :: 0 <= y < n ==> p[y] == g[y] && q[y] == s[y];
      GridSumShift(p, q, d);
      TimesAdd(CellCount(p), |g[n]|, d);
    }
  }

  /** `n * m / n` is `m`. */
  lemma {:induction false} TimesDiv(n: nat, m: real)
    requires n > 0
    ensures Times(n, m) / n as real == m
  {
  }

  /** `(a + n * d) / n` is `a / n + d`. */
  lemma {:induction false} DivShift(a: real, n: nat, d: real)
    requires n > 0
    ensures (a + Times(n, d)) / n as real == a / n as real + d
  {
    assert (a / n as real + d) * n as real == a + Times(n, d);
  }

  /** Flattening sets every cell to the mean and keeps the mean. */
  lemma {:induction false} FlattenKeepsMean(g: Grid)
    requires Rectangular(g)
    ensures var f := Filled(g, GridMean(g));
            Rectangular(f) && GridMean(f) == GridMean(g)
            && forall y, x :: 0 <= y < |f| && 0 <= x < |f[y]| ==> f[y][x] == GridMean(g)
  {
    var m := GridMean(g);
    var f := Filled(g, m);
    assert Rectangular(f);
    forall y | 0 <= y < |f|
      ensures Sum(f[y]) == Times(|f[y]|, m)
    {
      SumRepeat(f[y], m);
    }
    GridSumConst(f, m);
    CellCountSameShape(f, g);
    CellCountRectangular(g);
    TimesDiv(CellCount(g), m);
  }

  /** Each row of a shifted grid sums to the old row's sum plus one offset per cell. */
  lemma {:induction false} ShiftedRows(g: Grid, d: real)
    ensures forall y :: 0 <= y < |g| ==> Sum(Shifted(g, d)[y]) == Sum(g[y]) + Times(|g[y]|, d)
  {
    var s := Shifted(g, d);
    forall y | 0 <= y < |g|
      ensures Sum(s[y]) == Sum(g[y]) + Times(|g[y]|, d)
    {
      SumShift(g[y], s[y], d);
    }
  }

  /** Grids of one shape whose rows differ by `d` per cell have means that differ by `d`. */
  lemma {:induction false} MeanShift(g: Grid, s: Grid, d: real)
    requires Rectangular(g) && Rectangular(s) && |s| == |g| && |s[0]| == |g[0]|
    requires forall y :: 0 <= y < |g| ==> Sum(s[y]) == Sum(g[y]) + Times(|g[y]|, d)
    ensures GridMean(s) == GridMean(g) + d
  {
    GridSumShift(g, s, d);
    CellCountRectangular(g);
    CellCountRectangular(s);
    DivShift(GridSum(g), CellCount(g), d);
  }

  /** An offset moves the mean by the offset. */
  lemma {:induction false} OffsetShiftsMean(g: Grid, d: real)
    requires Rectangular(g)
    ensures Rectangular(Shifted(g, d)) && GridMean(Shifted(g, d)) == GridMean(g) + d
  {
    var s := Shifted(g, d);
    assert Rectangular(s);
    ShiftedRows(g, d);
    MeanShift(g, s, d);
  }

  /** The opposite offset undoes an offset. */
  lemma {:induction false} OffsetUndone(g: Grid, d: real)
    ensures Shifted(Shifted(g, d), -d) == g
  {
    var b := Shifted(Shifted(g, d), -d);
    forall y | 0 <= y < |g|
      ensures b[y] == g[y]
    {
    }
  }

  /** Writing cells leaves every other cell as it was. */
  lemma {:induction false} WrittenOutside(g: Grid, cells: seq<Cell>, vals: seq<real>, c: Cell)
    requires |vals| == |cells| && AllInGrid(g, cells) && InGrid(g, c) && c !in cells
    ensures Written(g, cells, vals)[c.y][c.x] == g[c.y][c.x]
  {
    if cells != [] {
      var n := |cells| - 1;
      assert c !in cells[..n];
      WrittenOutside(g, cells[..n], vals[..n], c);
    }
  }

  /** A written cell holds the value of the last write to it. */
  lemma {:induction false} WrittenLast(g: Grid, cells: seq<Cell>, vals: seq<real>, i: nat)
    requires |vals| == |cells| && AllInGrid(g, cells) && i < |cells|
    requires forall j :: i < j < |cells| ==> cells[j] != cells[i]
    ensures Written(g, cells, vals)[cells[i].y][cells[i].x] == vals[i]
  {
    var n := |cells| - 1;
    if i < n {
      WrittenLast(g, cells[..n], vals[..n], i);
    }
  }

  /** Writing one value to a list of cells: each of them holds it afterwards. */
  lemma {:induction false} WrittenRepeat(g: Grid, cells: seq<Cell>, v: real, i: nat)
    requires AllInGrid(g, cells) && i < |cells|
    ensures Written(g, cells, Repeat(v, |cells|))[cells[i].y][cells[i].x] == v
  {
    var n := |cells| - 1;
    if i < n && cells[n] != cells[i] {
      assert Repeat(v, |cells|)[..n] == Repeat(v, n);
      WrittenRepeat(g, cells[..n], v, i);
    }
  }

  /** Writing every cell's own value back changes nothing. */
  lemma {:induction false} WrittenSame(g: Grid, cells: seq<Cell>, vals: seq<real>)
    requires |vals| == |cells| && AllInGrid(g, cells)
    requires forall i :: 0 <= i < |cells| ==> vals[i] == g[cells[i].y][cells[i].x]
    ensures Written(g, cells, vals) == g
  {
    if cells != [] {
      var n := |cells| - 1;
      WrittenSame(g, cells[..n], vals[..n]);
      var c := cells[n];
      assert g[c.y][c.x := vals[n]] == g[c.y];
    }
  }

  /** `update_selection_value`: the cells before the first one outside the
      grid hold the new value, and no other cell changes.  When every cell
      lies in the grid, that is all of them. */
  lemma {:induction false} SetRegion(g: Grid, cells: seq<Cell>, v: real, c: Cell)
    requires InGrid(g, c)
    ensures SetCells(g, cells, v)[c.y][c.x] == if c in cells[..FirstMiss(g, cells)] then v else g[c.y][c.x]
    ensures AllInGrid(g, cells) ==> FirstMiss(g, cells) == |cells| && cells[..FirstMiss(g, cells)] == cells
  {
    var k := FirstMiss(g, cells);
    var done := cells[..k];
    if c in done {
      var i :| 0 <= i < k && done[i] == c;
      WrittenRepeat(g, done, v, i);
    } else {
      WrittenOutside(g, done, Repeat(v, k), c);
    }
    if AllInGrid(g, cells) {
      assert cells[..|cells|] == cells;
      FirstMissAt(g, cells, |cells|);
    }
  }

  /** Writing values that depend only on the cell (the same cell always gets
      the same value): each written cell holds its value, whatever the
      repetitions. */
  lemma {:induction false} WrittenConsistent(g: Grid, cells: seq<Cell>, vals: seq<real>, i: nat)
    requires |vals| == |cells| && AllInGrid(g, cells) && i < |cells|
    requires forall j, k :: 0 <= j < |cells| && 0 <= k < |cells| && cells[j] == cells[k] ==> vals[j] == vals[k]
    ensures Written(g, cells, vals)[cells[i].y][cells[i].x] == vals[i]
  {
    var n := |cells| - 1;
    if i < n && cells[n] != cells[i] {
      WrittenConsistent(g, cells[..n], vals[..n], i);
    }
  }

  /** `average_region`: every selected cell holds the region's prior mean, so
      the region's mean (and sum) are what they were, and the new value lies
      between the smallest and largest prior value. */
  lemma {:induction false} AverageKeepsMean(g: Grid, cells: seq<Cell>, lo: real, hi: real)
    requires cells != [] && AllInGrid(g, cells)
    requires forall i :: 0 <= i < |cells| ==> lo <= g[cells[i].y][cells[i].x] <= hi
    ensures var m := Mean(RegionValues(g, cells));
            var a := Written(g, cells, Repeat(m, |cells|));
            AllInGrid(a, cells) && Mean(RegionValues(a, cells)) == m
            && Sum(RegionValues(a, cells)) == Sum(RegionValues(g, cells))
            && lo <= m <= hi
  {
    var m := Mean(RegionValues(g, cells));
    var a := Written(g, cells, Repeat(m, |cells|));
    RegionRepeat(g, cells, m);
    MeanRepeat(RegionValues(a, cells), m);
    SumRepeat(RegionValues(a, cells), m);
    MeanTimes(RegionValues(g, cells));
    MeanBetween(RegionValues(g, cells), lo, hi);
  }

  /** After writing `v` to every cell of a region, the region reads `v`
      everywhere. */
  lemma {:induction false} RegionRepeat(g: Grid, cells: seq<Cell>, v: real)
    requires AllInGrid(g, cells)
    ensures var a := Written(g, cells, Repeat(v, |cells|));
            AllInGrid(a, cells) && forall i :: 0 <= i < |cells| ==> RegionValues(a, cells)[i] == v
  {
    var a := Written(g, cells, Repeat(v, |cells|));
    forall i | 0 <= i < |cells|
      ensures a[cells[i].y][cells[i].x] == v
    {
      WrittenRepeat(g, cells, v, i);
    }
  }

  /** A mean times the number of values is their sum. */
  lemma {:induction false} MeanTimes(vs: seq<real>)
    requires vs != []
    ensures |vs| as real * Mean(vs) == Sum(vs)
  {
  }

  /** A cell inside the counts is its own neighbour. */
  lemma {:induction false} NeighboursHasSelf(c: Cell, yCount: int, xCount: int)
    requires InCount(c, yCount, xCount)
    ensures c in Neighbours(c, yCount, xCount)
  {
    assert c in Around(c);
  }

  lemma {:induction false} NeighboursNear(c: Cell, yCount: int, xCount: int, d: Cell)
    requires d in Neighbours(c, yCount, xCount)
    ensures InCount(d, yCount, xCount)
    ensures c.y - 1 <= d.y <= c.y + 1 && c.x - 1 <= d.x <= c.x + 1
  {
  }

  /** Each smoothed value lies between the smallest and the largest value
      of the grid before smoothing. */
  lemma {:induction false} SmoothBetween(g: Grid, c: Cell, yCount: int, xCount: int, lo: real, hi: real)
    requires AllInGrid(g, Neighbours(c, yCount, xCount)) && |Neighbours(c, yCount, xCount)| > 0
    requires forall y, x :: 0 <= y < |g| && 0 <= x < |g[y]| ==> lo <= g[y][x] <= hi
    ensures lo <= SmoothValue(g, c, yCount, xCount) <= hi
  {
    var ns := Neighbours(c, yCount, xCount);
    MeanBetween(RegionValues(g, ns), lo, hi);
  }

  /** Smoothing a flat grid changes nothing. */
  lemma {:induction false} SmoothFlat(g: Grid, cells: seq<Cell>, yCount: int, xCount: int, v: real)
    requires SmoothFits(g, cells, yCount, xCount) && SmoothDefined(cells, yCount, xCount)
    requires forall y, x :: 0 <= y < |g| && 0 <= x < |g[y]| ==> g[y][x] == v
    ensures Written(g, cells, SmoothValues(g, cells, yCount, xCount)) == g
  {
    var vals := SmoothValues(g, cells, yCount, xCount);
    forall i | 0 <= i < |cells|
      ensures vals[i] == g[cells[i].y][cells[i].x]
    {
      var ns := Neighbours(cells[i], yCount, xCount);
      MeanRepeat(RegionValues(g, ns), v);
    }
    WrittenSame(g, cells, vals);
  }

  /** Two grids with the same shape and the same cells are equal. */
  lemma {:induction false} SameGrid(a: Grid, b: Grid)
    requires |a| == |b| && forall y :: 0 <= y < |a| ==> |a[y]| == |b[y]|
    requires forall y, x :: 0 <= y < |a| && 0 <= x < |a[y]| ==> a[y][x] == b[y][x]
    ensures a == b
  {
    forall y | 0 <= y < |a|
      ensures a[y] == b[y]
    {
    }
  }

  // ---------------------------------------------------------------------
  // The array loops
  // ---------------------------------------------------------------------

  /** `np.array(points)` for rectangular rows. */
  method NewGrid(rows: Grid) returns (a: array2<real>)
    requires Rectangular(rows)
    ensures fresh(a) && GridRows(a) == rows
  {
    a := new real[|rows|, |rows[0]|];
    var y := 0;
    while y < |rows|
      invariant 0 <= y <= |rows|
      invariant forall i, j :: 0 <= i < y && 0 <= j < a.Length1 ==> a[i, j] == rows[i][j]
    {
      var x := 0;
      while x < |rows[0]|
        invariant 0 <= x <= |rows[0]|
        invariant forall i, j :: 0 <= i < y && 0 <= j < a.Length1 ==> a[i, j] == rows[i][j]
        invariant forall j :: 0 <= j < x ==> a[y, j] == rows[y][j]
      {
        a[y, x] := rows[y][x];
        x := x + 1;
      }
      y := y + 1;
    }
    SameGrid(GridRows(a), rows);
  }

  /** `np.mean([mesh_data[y, x] for y, x in cells])`: None where a cell is
      outside the array (`IndexError`). */
  method MeanOf(g: array2<real>, cells: seq<Cell>) returns (m: Option<real>)
    requires cells != []
    ensures m.Some? <==> AllInGrid(GridRows(g), cells)
    ensures m.Some? ==> m.value == Mean(RegionValues(GridRows(g), cells))
  {
    ghost var rows := GridRows(g);
    var s := 0.0;
    var i := 0;
    while i < |cells|
      invariant 0 <= i <= |cells|
      invariant AllInGrid(rows, cells[..i])
      invariant s == Sum(RegionValues(rows, cells[..i]))
    {
      var c := cells[i];
      if !(0 <= c.y < g.Length0 && 0 <= c.x < g.Length1) {
        return None;
      }
      assert RegionValues(rows, cells[..i + 1]) == RegionValues(rows, cells[..i]) + [rows[c.y][c.x]];
      s := s + g[c.y, c.x];
      i := i + 1;
    }
    assert cells[..i] == cells;
    m := Some(s / |cells| as real);
  }

  /** One pass of the first loop of `smooth_region`: the mean of the
      neighbours of `c` inside the counts (0.0 when there are none); `ok` is
      false where reading a neighbour or writing the cell raises `IndexError`. */
  method SmoothCell(g: array2<real>, c: Cell, yCount: int, xCount: int) returns (ok: bool, m: real)
    ensures ok <==> InGrid(GridRows(g), c) && AllInGrid(GridRows(g), Neighbours(c, yCount, xCount))
    ensures ok && |Neighbours(c, yCount, xCount)| > 0 ==> m == SmoothValue(GridRows(g), c, yCount, xCount)
  {
    var ns := Neighbours(c, yCount, xCount);
    ok := 0 <= c.y < g.Length0 && 0 <= c.x < g.Length1;
    m := 0.0;
    if |ns| > 0 {
      var mean := MeanOf(g, ns);
      if mean.None? {
        ok := false;
      } else {
        m := mean.value;
      }
    }
  }

  // What the first loop of `smooth_region` knows after its first `i` cells,
  // in three parts, each with its step.

  /** Each of the cells and its neighbours exist. */
  ghost predicate FitsUpTo(g: Grid, cells: seq<Cell>, i: nat, yCount: int, xCount: int)
    requires i <= |cells|
  {
    forall j :: 0 <= j < i ==>
      InGrid(g, cells[j]) && AllInGrid(g, Neighbours(cells[j], yCount, xCount))
  }

  /** `defined` says whether every one of the cells has a neighbour. */
  ghost predicate DefinedUpTo(cells: seq<Cell>, i: nat, yCount: int, xCount: int, defined: bool)
    requires i <= |cells|
  {
    defined <==> forall j :: 0 <= j < i ==> |Neighbours(cells[j], yCount, xCount)| > 0
  }

  /** `vals` holds the smoothed value of each of the cells. */
  ghost predicate ValuesUpTo(g: Grid, cells: seq<Cell>, i: nat, yCount: int, xCount: int, vals: seq<real>)
    requires i <= |cells|
  {
    |vals| == i
    && forall j :: 0 <= j < i && AllInGrid(g, Neighbours(cells[j], yCount, xCount))
                    && |Neighbours(cells[j], yCount, xCount)| > 0 ==>
         vals[j] == SmoothValue(g, cells[j], yCount, xCount)
  }

  lemma {:induction false} FitsStep(g: Grid, cells: seq<Cell>, i: nat, yCount: int, xCount: int)
    requires i < |cells| && FitsUpTo(g, cells, i, yCount, xCount)
    requires InGrid(g, cells[i]) && AllInGrid(g, Neighbours(cells[i], yCount, xCount))
    ensures FitsUpTo(g, cells, i + 1, yCount, xCount)
  {
  }

  lemma {:induction false} DefinedStep(cells: seq<Cell>, i: nat, yCount: int, xCount: int, defined: bool)
    requires i < |cells| && DefinedUpTo(cells, i, yCount, xCount, defined)
    ensures DefinedUpTo(cells, i + 1, yCount, xCount, defined && |Neighbours(cells[i], yCount, xCount)| > 0)
  {
  }

  lemma {:induction false} ValuesStep(g: Grid, cells: seq<Cell>, i: nat, yCount: int, xCount: int, vals: seq<real>, m: real)
    requires i < |cells| && ValuesUpTo(g, cells, i, yCount, xCount, vals)
    requires AllInGrid(g, Neighbours(cells[i], yCount, xCount)) && |Neighbours(cells[i], yCount, xCount)| > 0 ==>
             m == SmoothValue(g, cells[i], yCount, xCount)
    ensures ValuesUpTo(g, cells, i + 1, yCount, xCount, vals + [m])
  {
  }

  lemma {:induction false} SmoothPrefixDone(g: Grid, cells: seq<Cell>, yCount: int, xCount: int,
                         defined: bool, vals: seq<real>)
    requires FitsUpTo(g, cells, |cells|, yCount, xCount)
    requires DefinedUpTo(cells, |cells|, yCount, xCount, defined)
    requires ValuesUpTo(g, cells, |cells|, yCount, xCount, vals)
    ensures SmoothFits(g, cells, yCount, xCount)
    ensures defined <==> SmoothDefined(cells, yCount, xCount)
    ensures defined ==> vals == SmoothValues(g, cells, yCount, xCount)
  {
  }

  /** The first loop of `smooth_region`: the smoothed value of every cell,
      all read from `g`.  `fits` is false where that loop raises
      `IndexError`, `defined` is false where a neighbourhood is empty. */
  method SmoothOf(g: array2<real>, cells: seq<Cell>, yCount: int, xCount: int)
    returns (fits: bool, defined: bool, vals: seq<real>)
    ensures fits <==> SmoothFits(GridRows(g), cells, yCount, xCount)
    ensures fits ==> (defined <==> SmoothDefined(cells, yCount, xCount))
    ensures fits && defined ==> vals == SmoothValues(GridRows(g), cells, yCount, xCount)
  {
    vals, defined := [], true;
    var i := 0;
    while i < |cells|
      invariant 0 <= i <= |cells|
      invariant FitsUpTo(GridRows(g), cells, i, yCount, xCount)
      invariant DefinedUpTo(cells, i, yCount, xCount, defined)
      invariant ValuesUpTo(GridRows(g), cells, i, yCount, xCount, vals)
    {
      var ok, m := SmoothCell(g, cells[i], yCount, xCount);
      if !ok {
        return false, defined, vals;
      }
      FitsStep(GridRows(g), cells, i, yCount, xCount);
      DefinedStep(cells, i, yCount, xCount, defined);
      ValuesStep(GridRows(g), cells, i, yCount, xCount, vals, m);
      defined := defined && |Neighbours(cells[i], yCount, xCount)| > 0;
      vals := vals + [m];
      i := i + 1;
    }
    SmoothPrefixDone(GridRows(g), cells, yCount, xCount, defined, vals);
    fits := true;
  }

  /** The sum of row `y` of an array. */
  method RowSum(g: array2<real>, y: nat) returns (r: real)
    requires y < g.Length0
    ensures r == Sum(GridRows(g)[y])
  {
    ghost var row := GridRows(g)[y];
    r := 0.0;
    var x := 0;
    while x < g.Length1
      invariant 0 <= x <= g.Length1
      invariant r == Sum(row[..x])
    {
      assert row[..x + 1][..x] == row[..x];
      r := r + g[y, x];
      x := x + 1;
    }
    assert row[..x] == row;
  }

  /** The mean over all cells of an array (`np.mean(mesh_data)`). */
  method GridMeanOf(g: array2<real>) returns (m: real)
    requires g.Length0 >= 1 && g.Length1 >= 1
    ensures Rectangular(GridRows(g)) && m == GridMean(GridRows(g))
  {
    ghost var rows := GridRows(g);
    var s := 0.0;
    var y := 0;
    while y < g.Length0
      invariant 0 <= y <= g.Length0
      invariant s == GridSum(rows[..y])
    {
      var r := RowSum(g, y);
      assert rows[..y + 1][..y] == rows[..y];
      s := s + r;
      y := y + 1;
    }
    assert rows[..y] == rows;
    CellCountRectangular(rows);
    m := s / (g.Length0 * g.Length1) as real;
  }

  /** The write loop: `mesh_data[y, x] = vals[i]` for each cell in turn,
      stopping at the first cell outside the array, where Python raises
      `IndexError` after the earlier writes are done.  Returns how many
      cells were written. */
  method WriteCells(g: array2<real>, cells: seq<Cell>, vals: seq<real>) returns (k: nat)
    requires |vals| == |cells|
    modifies g
    ensures k == FirstMiss(old(GridRows(g)), cells)
    ensures GridRows(g) == Written(old(GridRows(g)), cells[..k], vals[..k])
    ensures AllInGrid(old(GridRows(g)), cells) ==>
              k == |cells| && GridRows(g) == Written(old(GridRows(g)), cells, vals)
  {
    ghost var before := GridRows(g);
    k := 0;
    while k < |cells| && 0 <= cells[k].y < g.Length0 && 0 <= cells[k].x < g.Length1
      invariant 0 <= k <= |cells|
      invariant AllInGrid(before, cells[..k])
      invariant GridRows(g) == Written(before, cells[..k], vals[..k])
    {
      var c := cells[k];
      ghost var now := GridRows(g);
      g[c.y, c.x] := vals[k];
      WrittenStep(before, cells, vals, k);
      SameGrid(GridRows(g), now[c.y := now[c.y][c.x := vals[k]]]);
      k := k + 1;
    }
    FirstMissAt(before, cells, k);
    if AllInGrid(before, cells) {
      assert k == |cells|;
      assert cells[..k] == cells && vals[..k] == vals;
    }
  }

  /** The write loop when every cell is inside the array. */
  method WriteAll(g: array2<real>, cells: seq<Cell>, vals: seq<real>, ghost rows: Grid)
    requires |vals| == |cells| && GridRows(g) == rows && AllInGrid(rows, cells)
    modifies g
    ensures GridRows(g) == Written(rows, cells, vals)
  {
    var k := WriteCells(g, cells, vals);
  }

  /** The write loop with one value for every cell. */
  method SetAll(g: array2<real>, cells: seq<Cell>, v: real, ghost rows: Grid) returns (k: nat)
    requires GridRows(g) == rows
    modifies g
    ensures k == FirstMiss(rows, cells)
    ensures GridRows(g) == SetCells(rows, cells, v)
  {
    k := WriteCells(g, cells, Repeat(v, |cells|));
    assert Repeat(v, |cells|)[..k] == Repeat(v, k);
  }

  /** `mesh_data.fill(v)`. */
  method FillAll(g: array2<real>, v: real)
    modifies g
    ensures GridRows(g) == Filled(old(GridRows(g)), v)
  {
    ghost var before := GridRows(g);
    var y := 0;
    while y < g.Length0
      invariant 0 <= y <= g.Length0
      invariant forall i, j :: 0 <= i < g.Length0 && 0 <= j < g.Length1 ==> g[i, j] == if i < y then v else before[i][j]
    {
      var x := 0;
      while x < g.Length1
        invariant 0 <= x <= g.Length1
        invariant forall i, j :: 0 <= i < g.Length0 && 0 <= j < g.Length1 ==>
                    g[i, j] == if i < y || (i == y && j < x) then v else before[i][j]
      {
        g[y, x] := v;
        x := x + 1;
      }
      y := y + 1;
    }
    SameGrid(GridRows(g), Filled(before, v));
  }

  /** `mesh_data += d`. */
  method AddAll(g: array2<real>, d: real)
    modifies g
    ensures GridRows(g) == Shifted(old(GridRows(g)), d)
  {
    ghost var before := GridRows(g);
    var y := 0;
    while y < g.Length0
      invariant 0 <= y <= g.Length0
      invariant forall i, j :: 0 <= i < g.Length0 && 0 <= j < g.Length1 ==>
                  g[i, j] == if i < y then before[i][j] + d else before[i][j]
    {
      var x := 0;
      while x < g.Length1
        invariant 0 <= x <= g.Length1
        invariant forall i, j :: 0 <= i < g.Length0 && 0 <= j < g.Length1 ==>
                    g[i, j] == if i < y || (i == y && j < x) then before[i][j] + d else before[i][j]
      {
        g[y, x] := g[y, x] + d;
        x := x + 1;
      }
      y := y + 1;
    }
    SameGrid(GridRows(g), Shifted(before, d));
  }
}

=== FILE: roundtrip.dfy ===
/**
  Saving then loading.  The save path writes each grid row as one `#*#` line
  and splices those lines over the old block; the load path of the enhanced
  and pro editors reads exactly those rows back.  The basic editor's block
  boundary reads only the first of them.
 */
module MeshRoundTrip {
  import opened Wrappers
  import opened TextOps
  import opened MeshCodec

  // ---------------------------------------------------------------------
  // What the save loop writes
  // ---------------------------------------------------------------------

  predicate NumeralChar(c: char) {
    '0' <= c <= '9' || c == '-' || c == '.'
  }

  /** What `f"{val:.6f}"` gives for a finite value: digits, a sign and a point. */
  predicate Numeral(t: string) {
    t != [] && forall i :: 0 <= i < |t| ==> NumeralChar(t[i])
  }

  /** A saved row that the load loop can read back: its values are numerals,
      and there are at least two of them, so that its line holds a comma. */
  predicate SavedRow(row: seq<string>) {
    |row| >= 2 && forall j :: 0 <= j < |row| ==> Numeral(row[j])
  }

  predicate SavedRows(rows: seq<seq<string>>) {
    forall i :: 0 <= i < |rows| ==> SavedRow(rows[i])
  }

  /** A character of `", ".join(...)` over numerals. */
  predicate JoinedChar(c: char) {
    NumeralChar(c) || c == ',' || c == ' '
  }

  /** `", ".join(row)` over numerals starts and ends with a numeral character
      and holds nothing but numerals, commas and blanks. */
  lemma {:induction false} JoinedNumerals(row: seq<string>)
    requires |row| >= 1 && forall j :: 0 <= j < |row| ==> Numeral(row[j])
    ensures var s := JoinWith(row, ValueSeparator);
            s != [] && NumeralChar(s[0]) && NumeralChar(s[|s| - 1])
            && forall i :: 0 <= i < |s| ==> JoinedChar(s[i])
  {
    if |row| > 1 {
      JoinedNumerals(row[1..]);
      var rest := JoinWith(row[1..], ValueSeparator);
      var s := row[0] + ValueSeparator + rest;
      assert JoinWith(row, ValueSeparator) == s;
      forall i | 0 <= i < |s|
        ensures JoinedChar(s[i])
      {
        if i < |row[0]| {
          assert s[i] == row[0][i];
        } else if i >= |row[0]| + 2 {
          assert s[i] == rest[i - |row[0]| - 2];
        }
      }
      assert s[|s| - 1] == rest[|rest| - 1];
    }
  }

  /** A numeral holds no comma, no `#`, no newline, and has no blank end. */
  lemma {:induction false} NumeralFacts(t: string)
    requires Numeral(t)
    ensures ',' !in t && '#' !in t && '\n' !in t
    ensures !IsSpace(t[0]) && !IsSpace(t[|t| - 1])
  {
    assert NumeralChar(t[0]) && NumeralChar(t[|t| - 1]);
  }

  /** Blanks hold no comma. */
  lemma {:induction false} BlankNoComma(w: string)
    requires AllSpace(w)
    ensures ',' !in w
  {
  }

  /** `w + ", ".join(row)` cut at its first comma. */
  lemma {:induction false} JoinFirst(w: string, row: seq<string>)
    requires |row| >= 2
    ensures w + JoinWith(row, ValueSeparator)
            == (w + row[0]) + [','] + (" " + JoinWith(row[1..], ValueSeparator))
  {
    var rest := JoinWith(row[1..], ValueSeparator);
    assert JoinWith(row, ValueSeparator) == row[0] + ValueSeparator + rest;
    assert ValueSeparator == [','] + " ";
    assert w + (row[0] + ([','] + " ") + rest) == (w + row[0]) + [','] + (" " + rest);
  }

  /** A padded numeral is one piece that strips to the numeral. */
  lemma {:induction false} PaddedNumeral(w: string, t: string)
    requires AllSpace(w) && Numeral(t)
    ensures ',' !in w + t && Strip(w + t) == t
  {
    NumeralFacts(t);
    BlankNoComma(w);
    StripPadded(w, t);
  }

  /** The last value of a joined row is the one remaining piece. */
  lemma {:induction false} KeepSplitLast(w: string, t: string)
    requires AllSpace(w) && Numeral(t)
    ensures KeepTokens(Split(w + t, ',')) == [t]
  {
    PaddedNumeral(w, t);
    SplitNoSep(w + t, ',');
    KeepTokensCons(w + t, []);
    assert [w + t] + [] == [w + t];
  }

  /** Cutting off the first value of a joined row. */
  lemma {:induction false} KeepSplitFirst(w: string, row: seq<string>)
    requires AllSpace(w) && |row| >= 2 && Numeral(row[0])
    ensures KeepTokens(Split(w + JoinWith(row, ValueSeparator), ','))
            == [row[0]] + KeepTokens(Split(" " + JoinWith(row[1..], ValueSeparator), ','))
  {
    var rest := JoinWith(row[1..], ValueSeparator);
    PaddedNumeral(w, row[0]);
    JoinFirst(w, row);
    SplitAtFirst(w + row[0], " " + rest, ',');
    KeepTokensCons(w + row[0], Split(" " + rest, ','));
  }

  /** One step of the round trip: the first value, then the rest. */
  lemma {:induction false} KeepSplitStep(w: string, row: seq<string>)
    requires AllSpace(w) && |row| >= 2 && Numeral(row[0])
    requires KeepTokens(Split(" " + JoinWith(row[1..], ValueSeparator), ',')) == row[1..]
    ensures KeepTokens(Split(w + JoinWith(row, ValueSeparator), ',')) == row
  {
    KeepSplitFirst(w, row);
    assert row == [row[0]] + row[1..];
  }

  /** Each comma-separated piece of `w + ", ".join(row)` strips to its value. */
  lemma {:induction false} KeepSplitJoin(w: string, row: seq<string>)
    requires AllSpace(w)
    requires |row| >= 1 && forall j :: 0 <= j < |row| ==> Numeral(row[j])
    ensures KeepTokens(Split(w + JoinWith(row, ValueSeparator), ',')) == row
    decreases |row|
  {
    if |row| == 1 {
      KeepSplitLast(w, row[0]);
      assert row == [row[0]];
    } else {
      assert forall j :: 0 <= j < |row| - 1 ==> row[1..][j] == row[j + 1];
      KeepSplitJoin(" ", row[1..]);
      KeepSplitStep(w, row);
    }
  }

  /** Splitting the joined values at commas and stripping gives the values back. */
  lemma {:induction false} KeepSplitJoined(row: seq<string>)
    requires |row| >= 1 && forall j :: 0 <= j < |row| ==> Numeral(row[j])
    ensures KeepTokens(Split(JoinWith(row, ValueSeparator), ',')) == row
  {
    KeepSplitJoin([], row);
    assert [] + JoinWith(row, ValueSeparator) == JoinWith(row, ValueSeparator);
  }

  /** The blanks a saved row line puts between `#*#` and its values. */
  const RowPad: string := " \t  "

  lemma {:induction false} RowTextShape(row: seq<string>)
    ensures RowText(row) == Marker + (RowPad + JoinWith(row, ValueSeparator))
  {
  }

  lemma {:induction false} RowTextMarked(row: seq<string>)
    ensures StartsWith(RowText(row), Marker)
  {
    assert RowText(row)[..|Marker|] == Marker;
  }

  /** A saved row line has no blank at either end, so `strip()` keeps it whole. */
  lemma {:induction false} RowTextStripped(row: seq<string>)
    requires SavedRow(row)
    ensures Strip(RowText(row)) == RowText(row)
  {
    var j := JoinWith(row, ValueSeparator);
    JoinedNumerals(row);
    var line := RowText(row);
    assert line[0] == '#' && line[|line| - 1] == j[|j| - 1];
    StripPadded([], line);
    assert [] + line == line;
  }

  /** A saved row line of two or more values holds a comma. */
  lemma {:induction false} RowTextComma(row: seq<string>)
    requires SavedRow(row)
    ensures ',' in RowText(row)
  {
    var j := JoinWith(row, ValueSeparator);
    assert j == row[0] + ValueSeparator + JoinWith(row[1..], ValueSeparator);
    assert j[|row[0]|] == ',';
    assert RowText(row)[|RowPrefix| + |row[0]|] == ',';
  }

  /** Removing every `#*#` from a saved row line leaves the pad and the values. */
  lemma {:induction false} RowTextUnmarked(row: seq<string>)
    requires SavedRow(row)
    ensures RemoveAll(RowText(row), Marker) == RowPad + JoinWith(row, ValueSeparator)
  {
    var j := JoinWith(row, ValueSeparator);
    var line := RowText(row);
    RowTextShape(row);
    JoinedNumerals(row);
    assert line[..|Marker|] == Marker;
    assert line[|Marker|..] == RowPad + j;
    assert '#' !in RowPad + j;
    RemoveAllAbsent(RowPad + j, Marker);
  }

  /** The values part of a saved row line, once stripped, is the joined values. */
  lemma {:induction false} RowTextValues(row: seq<string>)
    requires SavedRow(row)
    ensures Strip(RemoveAll(RowText(row), Marker)) == JoinWith(row, ValueSeparator)
  {
    RowTextUnmarked(row);
    JoinedNumerals(row);
    StripPadded(RowPad, JoinWith(row, ValueSeparator));
  }

  /** A saved row line is a row line to the load loop. */
  lemma {:induction false} RowTextIsRowLine(row: seq<string>)
    requires SavedRow(row)
    ensures Strip(RowText(row)) == RowText(row) && StartsWith(RowText(row), Marker) && ',' in RowText(row)
  {
    RowTextStripped(row);
    RowTextMarked(row);
    RowTextComma(row);
  }

  /** The load loop's reading of a saved row line, down to the comma split. */
  lemma {:induction false} RowTextTokens(row: seq<string>)
    requires SavedRow(row)
    ensures RowTokens(RowText(row)) == KeepTokens(Split(JoinWith(row, ValueSeparator), ','))
  {
    RowTextIsRowLine(row);
    RowLineTokens(RowText(row));
    RowTextValues(row);
  }

  /** Re-tokenising a saved row line gives back the same tokens. */
  lemma {:induction false} RowRoundTrip(row: seq<string>)
    requires SavedRow(row)
    ensures RowTokens(RowText(row)) == row
  {
    RowTextTokens(row);
    KeepSplitJoined(row);
  }

  /** A row written with a single value has no comma, so the load loop skips it. */
  lemma {:induction false} SingleValueRowSkipped(t: string)
    requires Numeral(t)
    ensures RowTokens(RowText([t])) == []
  {
    var line := RowText([t]);
    assert line == RowPrefix + t;
    assert ',' !in line;
    StripKeepsOut(line, ',');
  }
}

module MeshReload {
  import opened Wrappers
  import opened TextOps
  import opened MeshCodec
  import opened MeshRoundTrip

  // ---------------------------------------------------------------------
  // Where the captured block ends in freshly saved rows
  // ---------------------------------------------------------------------

  /** Skipping m positions at which the lookahead fails. */
  lemma {:induction false} BlockSkip(b: Boundary, t: string, m: nat)
    requires m <= |t|
    requires forall j :: 0 <= j < m ==> !StopsAt(b, t[j..])
    ensures BlockLength(b, t) == m + BlockLength(b, t[m..])
  {
    if m > 0 {
      assert t[0..] == t;
      assert forall j :: 0 <= j < m - 1 ==> t[1..][j..] == t[j + 1..];
      BlockSkip(b, t[1..], m - 1);
      assert t[1..][m - 1..] == t[m..];
    }
  }

  /** Inside a line the block cannot end: the lookahead needs a newline. */
  lemma {:induction false} NoStopWithin(b: Boundary, line: string, u: string)
    requires '\n' !in line && u != []
    ensures forall j :: 0 <= j < |line| ==> !StopsAt(b, (line + u)[j..])
  {
    forall j | 0 <= j < |line|
      ensures !StopsAt(b, (line + u)[j..])
    {
      var t := (line + u)[j..];
      assert t[0] == line[j] && |t| >= 2;
    }
  }

  lemma {:induction false} StartsWithHead(s: string, p: string)
    requires StartsWith(s, p) && p != []
    ensures s[0] == p[0]
  {
    assert s[..|p|][0] == s[0];
  }

  /** No keyword begins with a numeral character or with `#`. */
  lemma {:induction false} NotKeywordStart(u: string)
    requires u != [] && (NumeralChar(u[0]) || u[0] == '#')
    ensures !StartsWithKeyword(u)
  {
    if StartsWith(u, "x_count") { StartsWithHead(u, "x_count"); }
    if StartsWith(u, "mesh_x_pps") { StartsWithHead(u, "mesh_x_pps"); }
    if StartsWith(u, "mesh_y_pps") { StartsWithHead(u, "mesh_y_pps"); }
    if StartsWith(u, "algo") { StartsWithHead(u, "algo"); }
    if StartsWith(u, "min_x") { StartsWithHead(u, "min_x"); }
    if StartsWith(u, "max_x") { StartsWithHead(u, "max_x"); }
    if StartsWith(u, "min_y") { StartsWithHead(u, "min_y"); }
    if StartsWith(u, "max_y") { StartsWithHead(u, "max_y"); }
  }

  /** A saved row line is never a metadata keyword line. */
  lemma {:induction false} RowTextNotKeyword(row: seq<string>, x: string)
    requires SavedRow(row)
    ensures !KeywordLineAt(RowText(row) + x)
  {
    var j := JoinWith(row, ValueSeparator);
    JoinedNumerals(row);
    var u := RowText(row) + x;
    RowTextShape(row);
    assert u == Marker + (RowPad + (j + x));
    assert u[0] == '#';
    NotKeywordStart(u);
    assert u[|Marker|..] == RowPad + (j + x);
    TrimStartPadded(RowPad, j + x);
    assert (j + x)[0] == j[0];
    NotKeywordStart(j + x);
  }

  /** The `#*# x_count` line that ends the old block is a keyword line. */
  lemma {:induction false} CountLineIsKeyword(r: string)
    requires CountLineAt(r)
    ensures KeywordLineAt(r)
  {
    TrimStartSkip(r, |Marker|);
  }

  /** Numerals joined by `", "` hold no newline. */
  lemma {:induction false} JoinedNoNewline(j: string)
    requires forall i :: 0 <= i < |j| ==> JoinedChar(j[i])
    ensures '\n' !in j
  {
  }

  /** A saved row line holds no newline. */
  lemma {:induction false} RowTextNoNewline(row: seq<string>)
    requires SavedRow(row)
    ensures '\n' !in RowText(row)
  {
    var j := JoinWith(row, ValueSeparator);
    JoinedNumerals(row);
    JoinedNoNewline(j);
    assert '\n' !in RowPrefix;
    assert RowText(row) == RowPrefix + j;
  }

  /** The saved text taken apart at its first line. */
  lemma {:induction false} SerialiseCons(rows: seq<seq<string>>, rest: string)
    requires rows != []
    ensures Serialise(rows) + rest == RowText(rows[0]) + ("\n" + Serialise(rows[1..]) + rest)
  {
  }

  /** The block cannot end inside the first saved row line. */
  lemma {:induction false} FirstLineSkip(b: Boundary, rows: seq<seq<string>>, rest: string)
    requires rows != [] && SavedRow(rows[0])
    ensures BlockLength(b, Serialise(rows) + rest)
            == |RowText(rows[0])| + BlockLength(b, "\n" + Serialise(rows[1..]) + rest)
  {
    var line := RowText(rows[0]);
    var tail := "\n" + Serialise(rows[1..]) + rest;
    var t := Serialise(rows) + rest;
    SerialiseCons(rows, rest);
    RowTextNoNewline(rows[0]);
    NoStopWithin(b, line, tail);
    BlockSkip(b, t, |line|);
    assert t[|line|..] == tail;
  }

  /** A newline before a keyword line ends the block at once. */
  lemma {:induction false} LastLineStops(rest: string)
    requires KeywordLineAt(rest)
    ensures BlockLength(KeywordLine, "\n" + Serialise([]) + rest) == 0
  {
    assert "\n" + Serialise([]) + rest == "\n" + rest;
    assert ("\n" + rest)[1..] == rest;
  }

  /** A newline before another saved row line does not end the block. */
  lemma {:induction false} NextLineContinues(rows: seq<seq<string>>, rest: string)
    requires rows != [] && SavedRow(rows[0])
    ensures BlockLength(KeywordLine, "\n" + Serialise(rows) + rest)
            == 1 + BlockLength(KeywordLine, Serialise(rows) + rest)
  {
    var u := Serialise(rows) + rest;
    SerialiseCons(rows, rest);
    RowTextNotKeyword(rows[0], "\n" + Serialise(rows[1..]) + rest);
    assert !KeywordLineAt(u);
    var tail := "\n" + Serialise(rows) + rest;
    assert tail == "\n" + u;
    assert tail[1..] == u && u != [];
    assert !StopsAt(KeywordLine, tail);
  }

  /** With the enhanced and pro boundary, the block read back from freshly
      saved rows ends right before the newline of the last row line, provided
      a keyword line follows. */
  lemma {:induction false} ScanRows(rows: seq<seq<string>>, rest: string)
    requires rows != [] && SavedRows(rows)
    requires KeywordLineAt(rest)
    ensures BlockLength(KeywordLine, Serialise(rows) + rest) == |Serialise(rows)| - 1
  {
    FirstLineSkip(KeywordLine, rows, rest);
    assert |Serialise(rows)| == |RowText(rows[0])| + 1 + |Serialise(rows[1..])|;
    if |rows| == 1 {
      assert rows[1..] == [];
      LastLineStops(rest);
    } else {
      NextLineContinues(rows[1..], rest);
      ScanRows(rows[1..], rest);
    }
  }

  /** A newline followed by `#*#` ends the basic editor's block. */
  lemma {:induction false} MarkerLineStops(u: string)
    requires StartsWith(u, Marker)
    ensures BlockLength(AnyMarkerLine, "\n" + u) == 0
  {
    assert ("\n" + u)[..4] == "\n" + u[..3];
  }

  /** Saved text always starts with `#*#`. */
  lemma {:induction false} SavedTextMarked(rows: seq<seq<string>>, rest: string)
    requires rows != []
    ensures StartsWith(Serialise(rows) + rest, Marker)
  {
    RowTextMarked(rows[0]);
    SerialiseCons(rows, rest);
    var u := Serialise(rows) + rest;
    assert u[..|Marker|] == RowText(rows[0])[..|Marker|];
  }

  /** The newline before a second saved row line ends the basic editor's block. */
  lemma {:induction false} NextRowStops(rows: seq<seq<string>>, rest: string)
    requires rows != []
    ensures BlockLength(AnyMarkerLine, "\n" + Serialise(rows) + rest) == 0
  {
    SavedTextMarked(rows, rest);
    assert "\n" + Serialise(rows) + rest == "\n" + (Serialise(rows) + rest);
    MarkerLineStops(Serialise(rows) + rest);
  }

  /** With the basic editor's boundary the block ends after the first row line:
      the next line starts with `#*#`. */
  lemma {:induction false} ScanFirstRow(rows: seq<seq<string>>, rest: string)
    requires rows != [] && SavedRows(rows)
    requires StartsWith(rest, Marker)
    ensures BlockLength(AnyMarkerLine, Serialise(rows) + rest) == |RowText(rows[0])|
  {
    FirstLineSkip(AnyMarkerLine, rows, rest);
    if |rows| == 1 {
      assert "\n" + Serialise(rows[1..]) + rest == "\n" + rest;
      MarkerLineStops(rest);
    } else {
      NextRowStops(rows[1..], rest);
    }
  }

  // ---------------------------------------------------------------------
  // The lines of freshly saved rows
  // ---------------------------------------------------------------------

  /** The saved row lines without their newlines. */
  function RowTexts(rows: seq<seq<string>>): (r: seq<string>)
    ensures |r| == |rows|
    ensures forall i :: 0 <= i < |rows| ==> r[i] == RowText(rows[i])
  {
    if rows == [] then []
    else
      var rest := RowTexts(rows[1..]);
      assert forall i :: 1 <= i < |rows| ==> rows[i] == rows[1..][i - 1];
      [RowText(rows[0])] + rest
  }

  lemma {:induction false} RowTextsCons(rows: seq<seq<string>>)
    requires rows != []
    ensures RowTexts(rows) == [RowText(rows[0])] + RowTexts(rows[1..])
  {
  }

  /** The saved text is the row lines joined by newlines, plus a final newline. */
  lemma {:induction false} SerialiseJoin(rows: seq<seq<string>>)
    requires rows != []
    ensures Serialise(rows) == JoinWith(RowTexts(rows), "\n") + "\n"
  {
    if |rows| > 1 {
      SerialiseJoin(rows[1..]);
      var texts := RowTexts(rows);
      assert texts[1..] == RowTexts(rows[1..]);
      assert JoinWith(texts, "\n") == RowText(rows[0]) + "\n" + JoinWith(RowTexts(rows[1..]), "\n");
    }
  }

  /** Splitting the saved lines at newlines gives one piece per row line. */
  lemma {:induction false} SplitSavedLines(rows: seq<seq<string>>)
    requires rows != [] && SavedRows(rows)
    ensures Split(JoinWith(RowTexts(rows), "\n"), '\n') == RowTexts(rows)
  {
    var texts := RowTexts(rows);
    forall i | 0 <= i < |texts|
      ensures '\n' !in texts[i]
    {
      RowTextNoNewline(rows[i]);
    }
    assert "\n" == ['\n'];
    SplitOfJoin(texts, '\n');
  }

  /** Reading saved row lines gives the saved rows, in order. */
  lemma {:induction false} LineRowsOfSaved(rows: seq<seq<string>>)
    requires SavedRows(rows)
    ensures LineRows(RowTexts(rows)) == rows
  {
    if rows != [] {
      RowTextsCons(rows);
      RowRoundTrip(rows[0]);
      LineRowsCons(RowText(rows[0]), RowTexts(rows[1..]));
      LineRowsOfSaved(rows[1..]);
      assert rows == [rows[0]] + rows[1..];
    }
  }

  /** The block text that the enhanced and pro editors capture from saved rows
      reads back as exactly those rows. */
  lemma {:induction false} ReadSavedLines(rows: seq<seq<string>>)
    requires rows != [] && SavedRows(rows)
    ensures BlockRows(JoinWith(RowTexts(rows), "\n")) == rows
  {
    SplitSavedLines(rows);
    LineRowsOfSaved(rows);
  }

  // ---------------------------------------------------------------------
  // The splice
  // ---------------------------------------------------------------------

  /** A file with one mesh section whose row block is followed by its
      `#*# x_count` line. */
  predicate SingleSection(text: string) {
    NextMatch(text).Some? && Find(text[NextMatch(text).value.0..], Header).None?
  }

  /** The match ends at a `#*# x_count` line. */
  lemma {:induction false} MatchEndsAtCountLine(text: string, e: nat, k: nat)
    requires NextMatch(text) == Some((e, k))
    ensures CountLineAt(text[e + k..])
  {
    NextMatchParts(text);
    FindCountLineFound(text[e..]);
    DropDrop(text, e, k);
  }

  /** No header after the match means no second match. */
  lemma {:induction false} NoSecondMatch(text: string, e: nat, k: nat)
    requires e + k <= |text| && Find(text[e..], Header).None?
    ensures PointsEnd(text[e + k..]).None?
  {
    DropDrop(text, e, k);
    FindNoneSuffix(text[e..], Header, k);
    PointsEndSome(text[e + k..]);
  }

  /** A single match is replaced once. */
  lemma {:induction false} SpliceOnce(text: string, rows: string, e: nat, k: nat)
    requires NextMatch(text) == Some((e, k)) && PointsEnd(text[e + k..]).None?
    ensures Splice(text, rows) == text[..e] + ("\n" + (rows + text[e + k..]))
  {
    SpliceStep(text, rows, e, k);
    SpliceNoMatch(text[e + k..], rows);
  }

  /** The old rows are replaced and the rest of the file is kept: the text up
      to and including `points =` and its blanks, one newline, the new rows,
      then the original text from the `#*# x_count` line on. */
  lemma {:induction false} SpliceSingle(text: string, rows: string)
    requires SingleSection(text)
    ensures var e := NextMatch(text).value.0;
            var k := NextMatch(text).value.1;
            Splice(text, rows) == text[..e] + ("\n" + (rows + text[e + k..]))
  {
    var e := NextMatch(text).value.0;
    var k := NextMatch(text).value.1;
    NoSecondMatch(text, e, k);
    SpliceOnce(text, rows, e, k);
  }

  // ---------------------------------------------------------------------
  // Finding the block again after the splice
  // ---------------------------------------------------------------------

  /** The first occurrence of `pat` stays first when the text after `e` is
      replaced, as long as that occurrence ends by `e`. */
  lemma {:induction false} FirstKept(text: string, pat: string, e: nat, x: string)
    requires Find(text, pat).Some? && Find(text, pat).value + |pat| <= e <= |text|
    ensures Find(text[..e] + x, pat) == Find(text, pat)
  {
    FindTruncate(text, pat, e);
    FindExtend(text[..e], x, pat);
  }

  /** Likewise for the first occurrence of `key` after index `a`. */
  lemma {:induction false} KeyKept(text: string, key: string, a: nat, e: nat, x: string)
    requires a <= e <= |text|
    requires Find(text[a..], key).Some? && a + Find(text[a..], key).value + |key| <= e
    ensures Find((text[..e] + x)[a..], key) == Find(text[a..], key)
  {
    FindTruncate(text[a..], key, e - a);
    DropTake(text, a, e);
    FindExtend(text[a..e], x, key);
    DropAppend(text, a, e, x);
  }

  /** The blanks after the key run on through inserted blanks `w` up to `u`. */
  lemma {:induction false} BlanksKept(text: string, b: nat, e: nat, w: string, u: string)
    requires b <= |text| && e == SkipBlanks(text, b)
    requires AllSpace(w) && (u == [] || !IsSpace(u[0]))
    ensures SkipBlanks(text[..e] + (w + u), b) == e + |w|
  {
    SkipBlanksRun(text, b);
    var t := text[..e] + (w + u);
    assert forall k :: b <= k < e ==> t[k] == text[k];
    assert forall k :: e <= k < e + |w| ==> t[k] == w[k - e];
    assert e + |w| < |t| ==> t[e + |w|] == u[0];
    SkipBlanksTo(t, b, e + |w|);
  }

  /** After the insertion, `hdr` and `key` are found where they were. */
  lemma {:induction false} MatchStartKept(text: string, hdr: string, key: string, h: nat, p: nat, e: nat, x: string)
    requires MatchStart(text, hdr, key) == Some((h, p)) && h + |hdr| + p + |key| <= e <= |text|
    ensures MatchStart(text[..e] + x, hdr, key) == Some((h, p))
  {
    FirstKept(text, hdr, e, x);
    KeyKept(text, key, h + |hdr|, e, x);
  }

  /** Inserting blanks right after `key\s*`, before a non-blank, moves the
      end of the match by their length. */
  lemma {:induction false} MatchEndMoves(text: string, hdr: string, key: string, w: string, u: string)
    requires MatchEnd(text, hdr, key).Some?
    requires AllSpace(w) && (u == [] || !IsSpace(u[0]))
    ensures var e := MatchEnd(text, hdr, key).value;
            MatchEnd(text[..e] + (w + u), hdr, key) == Some(e + |w|)
  {
    var h := MatchStart(text, hdr, key).value.0;
    var p := MatchStart(text, hdr, key).value.1;
    var b := h + |hdr| + p + |key|;
    var e := SkipBlanks(text, b);
    assert MatchEnd(text, hdr, key) == Some(e);
    MatchStartKept(text, hdr, key, h, p, e, w + u);
    BlanksKept(text, b, e, w, u);
  }

  /** Inserting blanks right after `points =\s*`, before a non-blank, moves
      the end of the match by their length. */
  lemma {:induction false} PointsEndMoves(text: string, w: string, u: string)
    requires PointsEnd(text).Some?
    requires AllSpace(w) && (u == [] || !IsSpace(u[0]))
    ensures PointsEnd(text[..PointsEnd(text).value] + (w + u)) == Some(PointsEnd(text).value + |w|)
  {
    MatchEndMoves(text, Header, PointsKey, w, u);
  }

  /** Saved rows start with a non-blank. */
  lemma {:induction false} MarkedNotBlank(rows: seq<seq<string>>, rest: string)
    requires rows != []
    ensures Serialise(rows) + rest != [] && !IsSpace((Serialise(rows) + rest)[0])
  {
    SavedTextMarked(rows, rest);
    assert (Serialise(rows) + rest)[0] == Marker[0];
  }

  /** A newline inserted at the match end, before a non-blank, moves the
      match end past it. */
  lemma {:induction false} NewlineMoves(text: string, e: nat, x: string, saved: string)
    requires PointsEnd(text) == Some(e)
    requires x != [] && !IsSpace(x[0])
    requires saved == text[..e] + ("\n" + x)
    ensures PointsEnd(saved) == Some(e + 1) && e + 1 <= |saved| && saved[e + 1..] == x
  {
    PointsEndMoves(text, "\n", x);
    DropAfterPrefix(text, e, '\n', x);
  }

  /** After saving, the match ends one newline later and is followed by the
      saved rows and the original `#*# x_count` line. */
  lemma {:induction false} SavedText(text: string, rows: seq<seq<string>>, e: nat, k: nat)
    requires SingleSection(text) && rows != [] && NextMatch(text) == Some((e, k))
    ensures var saved := Splice(text, Serialise(rows));
            PointsEnd(saved) == Some(e + 1) && e + 1 <= |saved|
            && saved[e + 1..] == Serialise(rows) + text[e + k..]
  {
    NextMatchParts(text);
    SpliceSingle(text, Serialise(rows));
    MarkedNotBlank(rows, text[e + k..]);
    NewlineMoves(text, e, Serialise(rows) + text[e + k..], Splice(text, Serialise(rows)));
  }

  /** After saving, the match ends at `m`, followed by the saved rows and
      then `r`, which starts with the original `#*# x_count` line. */
  lemma {:induction false} SavedLayout(text: string, rows: seq<seq<string>>) returns (m: nat, r: string)
    requires SingleSection(text) && rows != []
    ensures var saved := Splice(text, Serialise(rows));
            PointsEnd(saved) == Some(m) && m <= |saved| && saved[m..] == Serialise(rows) + r && CountLineAt(r)
  {
    var e := NextMatch(text).value.0;
    var k := NextMatch(text).value.1;
    MatchEndsAtCountLine(text, e, k);
    SavedText(text, rows, e, k);
    m, r := e + 1, text[e + k..];
  }

  /** Group 1 of the load pattern, given where the match ends, the text after
      it and how far the block runs. */
  lemma {:induction false} BlockAfter(b: Boundary, text: string, e: nat, v: string, n: nat)
    requires PointsEnd(text) == Some(e) && text[e..] == v && BlockLength(b, v) == n
    ensures MeshBlock(b, text) == Some(v[..n])
  {
  }

  /** Saved rows right after the match end, then a keyword line: the enhanced
      and pro editors' group 1 is the row lines. */
  lemma {:induction false} KeywordBlock(saved: string, m: nat, rows: seq<seq<string>>, r: string)
    requires PointsEnd(saved) == Some(m) && saved[m..] == Serialise(rows) + r
    requires rows != [] && SavedRows(rows) && KeywordLineAt(r)
    ensures MeshBlock(KeywordLine, saved) == Some(JoinWith(RowTexts(rows), "\n"))
  {
    var s := Serialise(rows);
    ScanRows(rows, r);
    BlockAfter(KeywordLine, saved, m, s + r, |s| - 1);
    SerialiseJoin(rows);
    assert (s + r)[..|s| - 1] == JoinWith(RowTexts(rows), "\n");
  }

  /** After saving, the load pattern of the enhanced and pro editors captures
      exactly the new row lines. */
  lemma {:induction false} SavedBlock(text: string, rows: seq<seq<string>>)
    requires SingleSection(text) && rows != [] && SavedRows(rows)
    ensures MeshBlock(KeywordLine, Splice(text, Serialise(rows))) == Some(JoinWith(RowTexts(rows), "\n"))
  {
    var m, r := SavedLayout(text, rows);
    CountLineIsKeyword(r);
    KeywordBlock(Splice(text, Serialise(rows)), m, rows, r);
  }

  /** Save then load, token level: in a file with one mesh section, the rows
      the enhanced and pro editors read back are the rows just saved. */
  lemma {:induction false} SaveThenLoad(text: string, rows: seq<seq<string>>)
    requires SingleSection(text) && rows != [] && SavedRows(rows)
    ensures var saved := Splice(text, Serialise(rows));
            MeshBlock(KeywordLine, saved).Some? && BlockRows(MeshBlock(KeywordLine, saved).value) == rows
  {
    SavedBlock(text, rows);
    ReadSavedLines(rows);
  }

  /** Saved rows right after the match end, then a `#*#` line: the basic
      editor's group 1 is the first row line only. */
  lemma {:induction false} MarkerBlock(saved: string, m: nat, rows: seq<seq<string>>, r: string)
    requires PointsEnd(saved) == Some(m) && saved[m..] == Serialise(rows) + r
    requires rows != [] && SavedRows(rows) && StartsWith(r, Marker)
    ensures MeshBlock(AnyMarkerLine, saved) == Some(RowText(rows[0]))
  {
    var s := Serialise(rows);
    ScanFirstRow(rows, r);
    BlockAfter(AnyMarkerLine, saved, m, s + r, |RowText(rows[0])|);
    SerialiseCons(rows, r);
    assert (s + r)[..|RowText(rows[0])|] == RowText(rows[0]);
  }

  /** Save then load, value level: the enhanced and pro editors read back the
      grid just saved, provided every row has at least two values, every value
      prints as a numeral and `float()` reads each printed value back. */
  lemma {:induction false} SaveThenLoadValues(text: string, vals: seq<seq<real>>, format: real -> string, parse: string -> Option<real>)
    requires SingleSection(text) && vals != []
    requires forall y :: 0 <= y < |vals| ==> |vals[y]| >= 2
    requires forall y, x :: 0 <= y < |vals| && 0 <= x < |vals[y]| ==>
               Numeral(format(vals[y][x])) && parse(format(vals[y][x])) == Some(vals[y][x])
    ensures var saved := Splice(text, Serialise(FormatRows(vals, format)));
            MeshBlock(KeywordLine, saved).Some?
            && ParseRows(BlockRows(MeshBlock(KeywordLine, saved).value), parse) == Some(vals)
  {
    var rows := FormatRows(vals, format);
    assert SavedRows(rows);
    SaveThenLoad(text, rows);
    ParseFormatted(vals, format, parse);
  }

  /** After saving, the basic editor's load pattern captures only the first
      row line. */
  lemma {:induction false} BasicSavedBlock(text: string, rows: seq<seq<string>>)
    requires SingleSection(text) && rows != [] && SavedRows(rows)
    ensures MeshBlock(AnyMarkerLine, Splice(text, Serialise(rows))) == Some(RowText(rows[0]))
  {
    var m, r := SavedLayout(text, rows);
    MarkerBlock(Splice(text, Serialise(rows)), m, rows, r);
  }

  /** The basic editor reads a single saved row line as one row. */
  lemma {:induction false} ReadOneLine(row: seq<string>)
    requires SavedRow(row)
    ensures BlockRows(RowText(row)) == [row]
  {
    var line := RowText(row);
    RowTextNoNewline(row);
    SplitNoSep(line, '\n');
    RowRoundTrip(row);
    LineRowsCons(line, []);
    assert [line] + [] == [line];
  }

  /** Save then load in the basic editor: of the rows just saved it reads back
      only the first, whatever their number. */
  lemma {:induction false} BasicReadsFirstRowOnly(text: string, rows: seq<seq<string>>)
    requires SingleSection(text) && rows != [] && SavedRows(rows)
    ensures var saved := Splice(text, Serialise(rows));
            MeshBlock(AnyMarkerLine, saved).Some? && BlockRows(MeshBlock(AnyMarkerLine, saved).value) == [rows[0]]
  {
    BasicSavedBlock(text, rows);
    ReadOneLine(rows[0]);
  }

  /** Save then load, value level, in the basic editor: of the grid just
      saved it reads back the first row alone. */
  lemma {:induction false} BasicSaveThenLoadValues(text: string, vals: seq<seq<real>>, format: real -> string,
                                parse: string -> Option<real>)
    requires SingleSection(text) && vals != []
    requires forall y :: 0 <= y < |vals| ==> |vals[y]| >= 2
    requires forall y, x :: 0 <= y < |vals| && 0 <= x < |vals[y]| ==>
               Numeral(format(vals[y][x])) && parse(format(vals[y][x])) == Some(vals[y][x])
    ensures var saved := Splice(text, Serialise(FormatRows(vals, format)));
            MeshBlock(AnyMarkerLine, saved).Some?
            && ParseRows(BlockRows(MeshBlock(AnyMarkerLine, saved).value), parse) == Some([vals[0]])
  {
    var rows := FormatRows(vals, format);
    assert SavedRows(rows);
    BasicReadsFirstRowOnly(text, rows);
    var first := [vals[0]];
    assert [rows[0]] == FormatRows(first, format);
    ParseFormatted(first, format, parse);
  }
}

=== FILE: selection.dfy ===
/**
  Point and rectangle selection on the grid: a drag from `region_start` to
  the cell under the cursor selects every cell of the rectangle they span,
  listed row by row, left to right within a row.
 */
module Selection {

  /** A grid cell as the editors store it: `(y, x)`, row first. */
  datatype Cell = Cell(y: int, x: int)

  /** The bounds check of the mouse handlers: both indices non-negative and
      below the counts (the counts, not the array's shape). */
  predicate InCount(c: Cell, yCount: int, xCount: int) {
    0 <= c.x < xCount && 0 <= c.y < yCount
  }

  function Min(a: int, b: int): int { if a <= b then a else b }
  function Max(a: int, b: int): int { if a <= b then b else a }

  /** The rectangle spanned by two corners, in row-major order: entry `k`
      lies in row `k / w` and column `k % w` of the rectangle, `w` being its
      width. */
  function Rectangle(s: Cell, e: Cell): (r: seq<Cell>)
    ensures |r| == (Max(s.y, e.y) - Min(s.y, e.y) + 1) * (Max(s.x, e.x) - Min(s.x, e.x) + 1)
  {
    var y0 := Min(s.y, e.y);
    var x0 := Min(s.x, e.x);
    var h := Max(s.y, e.y) - y0 + 1;
    var w := Max(s.x, e.x) - x0 + 1;
    assert h * w >= 0 by { assert h >= 1 && w >= 1; }
    seq(h * w, k requires 0 <= k < h * w => Cell(y0 + k / w, x0 + k % w))
  }

  /** Row-major order: `a` comes strictly before `b`. */
  predicate Before(a: Cell, b: Cell) {
    a.y < b.y || (a.y == b.y && a.x < b.x)
  }

  // ---------------------------------------------------------------------
  // Properties
  // ---------------------------------------------------------------------

  /** The rectangle holds `(|dy| + 1) * (|dx| + 1)` cells. */
  lemma {:induction false} RectangleSize(s: Cell, e: Cell)
    ensures var dy := e.y - s.y;
            var dx := e.x - s.x;
            |Rectangle(s, e)| == ((if dy < 0 then -dy else dy) + 1) * ((if dx < 0 then -dx else dx) + 1)
  {
  }

  /** Multiplying by a non-negative factor keeps the order. */
  lemma {:induction false} MulMono(a: int, b: int, w: int)
    requires a <= b && w >= 0
    ensures a * w <= b * w
  {
    assert b * w - a * w == (b - a) * w;
  }

  /** Quotient and remainder by a positive width are the row and column. */
  lemma {:induction false} DivModOf(q: int, r: int, w: int)
    requires 0 <= q && 0 <= r < w
    ensures (q * w + r) / w == q && (q * w + r) % w == r
  {
    var n := q * w + r;
    var d := n / w - q;
    assert d * w == (n / w) * w - q * w;
    assert d * w == r - n % w;
    if d > 0 {
      MulMono(1, d, w);
    } else if d < 0 {
      MulMono(d, -1, w);
    }
  }

  /** Integer division by a positive width keeps the order. */
  lemma {:induction false} DivMono(k: int, m: int, w: int)
    requires 0 <= k <= m && w >= 1
    ensures k / w <= m / w
  {
    var a, b := k / w, m / w;
    assert (b + 1) * w == b * w + w;
    if a > b {
      MulMono(b + 1, a, w);
    }
  }

  /** A later entry of a rectangle of width `w` lies in a later row, or
      further right in the same row. */
  lemma {:induction false} DivModOrder(k: int, m: int, w: int)
    requires 0 <= k < m && w >= 1
    ensures k / w < m / w || (k / w == m / w && k % w < m % w)
  {
    DivMono(k, m, w);
  }

  /** An entry below `h * w` lies in one of the `h` rows of width `w`. */
  lemma {:induction false} RowBelow(k: int, h: int, w: int)
    requires w >= 1 && 0 <= k < h * w
    ensures 0 <= k / w < h
  {
    if k / w >= h {
      MulMono(h, k / w, w);
    }
  }

  /** A selected cell lies between the corners on both axes. */
  lemma {:induction false} RectangleWithin(s: Cell, e: Cell, k: int)
    requires 0 <= k < |Rectangle(s, e)|
    ensures var c := Rectangle(s, e)[k];
            Min(s.y, e.y) <= c.y <= Max(s.y, e.y) && Min(s.x, e.x) <= c.x <= Max(s.x, e.x)
  {
    var y0 := Min(s.y, e.y);
    var x0 := Min(s.x, e.x);
    var h := Max(s.y, e.y) - y0 + 1;
    var w := Max(s.x, e.x) - x0 + 1;
    RowBelow(k, h, w);
    assert Rectangle(s, e)[k] == Cell(y0 + k / w, x0 + k % w);
  }

  /** Every cell between the corners is selected, at its row-major place. */
  lemma {:induction false} RectangleCovers(s: Cell, e: Cell, c: Cell)
    requires Min(s.y, e.y) <= c.y <= Max(s.y, e.y) && Min(s.x, e.x) <= c.x <= Max(s.x, e.x)
    ensures var w := Max(s.x, e.x) - Min(s.x, e.x) + 1;
            var k := (c.y - Min(s.y, e.y)) * w + (c.x - Min(s.x, e.x));
            0 <= k < |Rectangle(s, e)| && Rectangle(s, e)[k] == c
  {
    var y0 := Min(s.y, e.y);
    var x0 := Min(s.x, e.x);
    var h := Max(s.y, e.y) - y0 + 1;
    var w := Max(s.x, e.x) - x0 + 1;
    var k := (c.y - y0) * w + (c.x - x0);
    DivModOf(c.y - y0, c.x - x0, w);
    MulMono(0, c.y - y0, w);
    MulMono(c.y - y0, h - 1, w);
    assert (h - 1) * w + w == h * w;
  }

  /** A cell is selected exactly when it lies between the corners on both axes. */
  lemma {:induction false} RectangleHas(s: Cell, e: Cell, c: Cell)
    ensures c in Rectangle(s, e) <==>
              Min(s.y, e.y) <= c.y <= Max(s.y, e.y) && Min(s.x, e.x) <= c.x <= Max(s.x, e.x)
  {
    var r := Rectangle(s, e);
    if c in r {
      var k :| 0 <= k < |r| && r[k] == c;
      RectangleWithin(s, e, k);
    }
    if Min(s.y, e.y) <= c.y <= Max(s.y, e.y) && Min(s.x, e.x) <= c.x <= Max(s.x, e.x) {
      RectangleCovers(s, e, c);
    }
  }

  /** The cells come row by row, left to right, each once. */
  lemma {:induction false} RectangleOrdered(s: Cell, e: Cell, i: int, j: int)
    requires 0 <= i < j < |Rectangle(s, e)|
    ensures Before(Rectangle(s, e)[i], Rectangle(s, e)[j])
  {
    DivModOrder(i, j, Max(s.x, e.x) - Min(s.x, e.x) + 1);
  }

  /** Its first cell is the top-left corner and its last the bottom-right one. */
  lemma {:induction false} RectangleCorners(s: Cell, e: Cell)
    ensures var r := Rectangle(s, e);
            r[0] == Cell(Min(s.y, e.y), Min(s.x, e.x))
            && r[|r| - 1] == Cell(Max(s.y, e.y), Max(s.x, e.x))
  {
    var h := Max(s.y, e.y) - Min(s.y, e.y) + 1;
    var w := Max(s.x, e.x) - Min(s.x, e.x) + 1;
    RectangleCovers(s, e, Cell(Max(s.y, e.y), Max(s.x, e.x)));
    assert (h - 1) * w + (w - 1) == h * w - 1;
  }

  /** When both corners pass the bounds check, so does every selected cell. */
  lemma {:induction false} RectangleInCount(s: Cell, e: Cell, yCount: int, xCount: int)
    requires InCount(s, yCount, xCount) && InCount(e, yCount, xCount)
    ensures forall c :: c in Rectangle(s, e) ==> InCount(c, yCount, xCount)
  {
    forall c | c in Rectangle(s, e)
      ensures InCount(c, yCount, xCount)
    {
      RectangleHas(s, e, c);
    }
  }
}

=== FILE: session.dfy ===
/**
  The editor object itself.  `mesh_data` is a two-dimensional array that the
  edit buttons and the loader write cell by cell; the other attributes that
  `load_mesh_data`, the mouse handlers and the buttons update (the counts,
  the selection, the entry, the flags and `original_mesh_data`, which is
  only ever replaced by a fresh copy) are grouped in one Session record held
  in a field and reassigned in place, with `state.mesh` mirroring the array.
  Each method leaves the object in the state the matching EditorSpec
  function computes from the state before the call, so every law proved of
  EditorSpec holds of the object; `Valid` is the invariant every method
  keeps.
 */
module Editor {
  import opened Wrappers
  import opened TextOps
  import opened Selection
  import opened MeshCodec
  import opened MeshGrid
  import opened Geometry
  import opened Storage
  import opened EditorSpec
  import opened EditorLaws

  /** The reading steps of load_mesh_data on the file's text: cut out the
      mesh block, convert its rows, and check there are rows of one width. */
  method ReadMeshFrom(v: Variant, text: string, parse: string -> Option<real>) returns (r: LoadOutcome)
    ensures r == ReadMesh(v, text, parse)
  {
    var block := MeshBlock(BoundaryOf(v), text);
    if block.None? {
      return LoadFailed(NoSection);
    }
    var points := ReadPoints(block.value, parse);
    if points.None? {
      return LoadFailed(BadNumber);
    }
    var rows := points.value;
    if rows == [] {
      return LoadFailed(NoPoints);
    }
    if !EqualWidths(rows) {
      return LoadFailed(Ragged);
    }
    ParseRowsMeaning(BlockRows(block.value), parse);
    r := Loaded(rows);
  }

  class EditorSession {
    /** Which of the three editors this is. */
    const variant: Variant
    /** The files, and `config_file` among them. */
    const store: FileStore
    const configPath: string
    /** `float()` on the entry's text, and `f"{value:.6f}"`. */
    const parse: string -> Option<real>
    const format: real -> string

    /** `mesh_data`, updated cell by cell. */
    var grid: array2<real>
    /** The other attributes, and in `state.mesh` the cells of `grid` as a value. */
    var state: Session

    /** `state.mesh` mirrors the array, and the session keeps the invariant
        of EditorSpec. */
    ghost predicate Valid()
      reads this, grid
    {
      state.mesh == GridRows(grid) && Invariant(variant, state)
    }

    constructor (variant: Variant, store: FileStore, configPath: string,
                 parse: string -> Option<real>, format: real -> string)
      ensures this.variant == variant && this.store == store && this.configPath == configPath
      ensures this.parse == parse && this.format == format
      ensures Valid() && state == AfterLoad(variant, Initial(), store.files, configPath, parse).next
    {
      this.variant := variant;
      this.store := store;
      this.configPath := configPath;
      this.parse := parse;
      this.format := format;
      grid := new real[0, 0];
      state := Initial();
      new;
      // `__init__` ends by loading the config file; a failure leaves the
      // empty session and only changes the status line.
      var _ := Load();
    }

    /** load_mesh_data. */
    method Load() returns (st: Status)
      requires Valid()
      modifies this
      ensures Valid()
      ensures var r := AfterLoad(variant, old(state), store.files, configPath, parse);
              state == r.next && st == r.status
    {
      var content := store.Read(configPath);
      if content.None? {
        return FileMissing;
      }
      st := LoadFrom(content.value);
    }

    /** The rest of load_mesh_data, once the file's text is read. */
    method LoadFrom(text: string) returns (st: Status)
      requires Valid()
      modifies this
      ensures Valid()
      ensures var r := LoadText(variant, old(state), text, parse);
              state == r.next && st == r.status
    {
      var outcome := ReadMeshFrom(variant, text, parse);
      if outcome.LoadFailed? {
        return outcome.why;
      }
      var rows := outcome.rows;
      LoadTextKeepsInvariant(variant, state, text, parse);
      Install(state.(loaded := true, mesh := rows, baseline := rows,
                     xCount := CountAfterLoad(text, CountKey, |rows[0]|),
                     yCount := CountAfterLoad(text, YCountKey, |rows|),
                     pps := PpsAfterLoad(variant, text, state.pps),
                     modified := false));
      st := Done;
    }

    /** Takes on the session `next`, with a fresh array holding its mesh. */
    method Install(next: Session)
      requires next.loaded && Invariant(variant, next)
      modifies this
      ensures Valid() && state == next
    {
      state := next;
      grid := NewGrid(next.mesh);
    }

    /** save_mesh_data: the backup is written first, then the config. */
    method Save() returns (st: Status)
      requires Valid()
      modifies this, store
      ensures Valid() && grid == old(grid) && store.failing == old(store.failing)
      ensures var r := AfterSave(old(state), old(store.files), old(store.failing), configPath, format);
              state == r.next && store.files == r.files && st == r.status
    {
      if !state.loaded {
        return NoData;
      }
      var content := store.Read(configPath);
      if content.None? {
        return FileMissing;
      }
      var text := content.value;
      var rows := FormatPoints(grid, format);
      var updated := Splice(text, rows);
      var ok := store.Write(configPath + BackupSuffix, text);
      if !ok {
        return WriteFailed;
      }
      ok := store.Write(configPath, updated);
      if !ok {
        return WriteFailed;
      }
      state := state.(baseline := state.mesh, modified := false);
      st := Done;
    }

    /** clear_region. */
    method ClearRegion()
      requires variant != Basic
      modifies this
      ensures grid == old(grid)
      ensures state == Cleared(variant, old(state))
      ensures old(Valid()) ==> Valid()
    {
      state := state.(region := [], start := None);
      if variant == Pro {
        state := state.(point := None);
      }
    }

    /** change_selection_mode. */
    method SetRegionMode(on: bool)
      requires Valid() && variant != Basic
      modifies this
      ensures Valid() && grid == old(grid)
      ensures state == AfterModeChange(variant, old(state), on)
    {
      state := state.(regionMode := on);
      ClearRegion();
    }

    /** reset_mesh_data, after the dialog answered `confirm`. */
    method Reset(confirm: bool) returns (st: Status)
      requires Valid()
      modifies this
      ensures Valid()
      ensures var r := AfterReset(variant, old(state), confirm);
              state == r.next && st == r.status
    {
      if !state.loaded || !confirm {
        return Ignored;
      }
      ResetKeepsInvariant(variant, state, confirm);
      var kept := if variant == Basic then state else Cleared(variant, state);
      Install(kept.(mesh := state.baseline, modified := false));
      st := Done;
    }

    /** on_mouse_press (on_click in the basic editor) on cell `c`; `position`
        is the millimetre position shown for a selected point. */
    method Press(c: Cell) returns (st: Status, position: Option<(real, real)>)
      requires Valid()
      modifies this
      ensures Valid() && grid == old(grid)
      ensures var r := AfterPress(old(state), c, format);
              state == r.next && st == r.status
      ensures position == if st == Done && !state.regionMode then PointPosition(c, state.yCount, state.xCount) else None
    {
      PressKeepsInvariant(variant, state, c, format);
      position := None;
      if !state.loaded || !InCount(c, state.yCount, state.xCount) {
        return Ignored, position;
      }
      if state.regionMode {
        state := state.(start := Some(c), region := [c]);
        return Done, position;
      }
      if !(c.y < grid.Length0 && c.x < grid.Length1) {
        state := state.(point := Some(c));
        return IndexError, position;
      }
      state := state.(point := Some(c), entry := format(grid[c.y, c.x]));
      var px := PhysicalCoord(MeshMinX, MeshMaxX, c.x, state.xCount);
      var py := PhysicalCoord(MeshMinY, MeshMaxY, c.y, state.yCount);
      if px.None? || py.None? {
        return ZeroDivision, position;
      }
      position := Some((px.value, py.value));
      st := Done;
    }

    /** on_mouse_move to cell `c`. */
    method Move(c: Cell) returns (st: Status)
      requires Valid() && variant != Basic
      modifies this
      ensures Valid() && grid == old(grid)
      ensures var r := AfterMove(old(state), c);
              state == r.next && st == r.status
    {
      MoveKeepsInvariant(variant, state, c);
      if !(state.regionMode && state.start.Some? && state.loaded && InCount(c, state.yCount, state.xCount)) {
        return Ignored;
      }
      state := state.(region := Rectangle(state.start.value, c));
      st := Done;
    }

    /** on_mouse_release. */
    method Release() returns (st: Status)
      requires Valid() && variant != Basic
      modifies this
      ensures Valid() && grid == old(grid)
      ensures var r := AfterRelease(old(state), format);
              state == r.next && st == r.status
    {
      ReleaseKeepsInvariant(variant, state, format);
      if !state.regionMode || state.start.None? {
        return Ignored;
      }
      if state.region != [] {
        var m := MeanOf(grid, state.region);
        if m.None? {
          return IndexError;
        }
        state := state.(entry := format(m.value));
      }
      state := state.(start := None);
      st := Done;
    }

    /** update_selection_value (update_point_value in the basic editor). */
    method UpdateSelectionValue() returns (st: Status)
      requires Valid()
      modifies this, grid
      ensures Valid() && grid == old(grid)
      ensures var r := AfterUpdate(variant, old(state), parse);
              state == r.next && st == r.status
    {
      var targets := Targets(state.regionMode, state.region, state.point);
      var value := parse(state.entry);
      if targets == [] && (variant == Basic || value.Some?) {
        return NoSelection;
      }
      if value.None? {
        return InvalidValue;
      }
      UpdateKeepsInvariant(variant, state, parse);
      var rows := state.mesh;
      state := state.(mesh := SetCells(rows, targets, value.value));
      var k := SetAll(grid, targets, value.value, rows);
      if k < |targets| {
        return IndexError;
      }
      state := state.(modified := Touched(variant, state));
      st := Done;
    }

    /** quick_adjust: move the entry by `delta`, then update. */
    method QuickAdjust(delta: real) returns (st: Status)
      requires Valid()
      modifies this, grid
      ensures Valid() && grid == old(grid)
      ensures var r := AfterQuickAdjust(variant, old(state), delta, parse, format);
              state == r.next && st == r.status
    {
      if state.point.None? && state.region == [] {
        return NoSelection;
      }
      var cur := parse(state.entry);
      if cur.None? {
        return Ignored;
      }
      ghost var before := state;
      state := state.(entry := format(cur.value + delta));
      assert AfterQuickAdjust(variant, before, delta, parse, format) == AfterUpdate(variant, state, parse);
      assert Invariant(variant, state);
      st := UpdateSelectionValue();
    }

    /** average_region. */
    method AverageRegion() returns (st: Status)
      requires Valid() && variant != Basic
      modifies this, grid
      ensures Valid() && grid == old(grid)
      ensures var r := AfterAverage(variant, old(state), format);
              state == r.next && st == r.status
    {
      if state.region == [] {
        return NoSelection;
      }
      var m := MeanOf(grid, state.region);
      if m.None? {
        return IndexError;
      }
      AverageKeepsInvariant(variant, state, format);
      SetCellsAll(state.mesh, state.region, m.value);
      var rows := state.mesh;
      state := state.(mesh := SetCells(rows, state.region, m.value), entry := format(m.value),
                      modified := Touched(variant, state));
      var k := SetAll(grid, state.region, m.value, rows);
      st := Done;
    }

    /** smooth_region: the smoothed values are all computed from the mesh
        before any of them is written. */
    method SmoothRegion() returns (st: Status)
      requires Valid() && variant != Basic
      modifies this, grid
      ensures Valid() && grid == old(grid)
      ensures var r := AfterSmooth(variant, old(state));
              state == r.next && st == r.status
    {
      if state.region == [] {
        return NoSelection;
      }
      var fits, defined, vals := SmoothOf(grid, state.region, state.yCount, state.xCount);
      if !fits {
        return IndexError;
      }
      if !defined {
        return NoNeighbours;
      }
      SmoothKeepsInvariant(variant, state);
      var rows := state.mesh;
      state := state.(mesh := Written(rows, state.region, vals), modified := Touched(variant, state));
      WriteAll(grid, state.region, vals, rows);
      st := Done;
    }

    /** flatten_mesh, after the dialog answered `confirm`. */
    method Flatten(confirm: bool) returns (st: Status)
      requires Valid()
      modifies this, grid
      ensures Valid() && grid == old(grid)
      ensures var r := AfterFlatten(variant, old(state), confirm);
              state == r.next && st == r.status
    {
      if !state.loaded || !confirm {
        return Ignored;
      }
      FlattenKeepsInvariant(variant, state, confirm);
      var m := GridMeanOf(grid);
      state := state.(mesh := Filled(state.mesh, m), modified := Touched(variant, state));
      FillAll(grid, m);
      st := Done;
    }

    /** apply_offset with the dialog's text. */
    method ApplyOffset(text: string) returns (st: Status)
      requires Valid()
      modifies this, grid
      ensures Valid() && grid == old(grid)
      ensures var r := AfterOffset(variant, old(state), text, parse);
              state == r.next && st == r.status
    {
      if !state.loaded {
        return Ignored;
      }
      var d := parse(text);
      if d.None? {
        return InvalidValue;
      }
      OffsetKeepsInvariant(variant, state, text, parse);
      state := state.(mesh := Shifted(state.mesh, d.value), modified := Touched(variant, state));
      AddAll(grid, d.value);
      st := Done;
    }
  }
}

=== FILE: session_laws.dfy ===
/**
  What the editors promise about their events, proved of the state machine
  in EditorSpec: loads are all-or-nothing, saves write the backup before the
  config and read back what they wrote, edits touch only the selected cells,
  reset brings back the baseline, and every event keeps the invariant.
 */
module EditorLaws {
  import opened Wrappers
  import opened Selection
  import opened MeshCodec
  import opened MeshRoundTrip
  import opened MeshReload
  import opened MeshGrid
  import opened Geometry
  import opened EditorSpec

  // ---------------------------------------------------------------------
  // Shapes
  // ---------------------------------------------------------------------

  /** A grid of the same shape as a rectangular one is rectangular. */
  lemma {:induction false} ShapeKeepsRectangular(a: Grid, b: Grid)
    requires Rectangular(a) && SameShape(b, a)
    ensures Rectangular(b) && SameShape(a, b)
  {
    assert |b[0]| == |a[0]|;
  }

  /** Having the same shape is transitive. */
  lemma {:induction false} SameShapeTrans(a: Grid, b: Grid, c: Grid)
    requires SameShape(a, b) && SameShape(b, c)
    ensures SameShape(a, c)
  {
  }

  /** An edit that keeps the mesh's shape and the selection keeps the invariant. */
  lemma {:induction false} EditKeepsInvariant(v: Variant, s: Session, t: Session)
    requires Invariant(v, s) && s.loaded
    requires t == s.(mesh := t.mesh, entry := t.entry, modified := t.modified)
    requires SameShape(t.mesh, s.mesh) && (v != Pro ==> !t.modified)
    ensures Invariant(v, t)
  {
    ShapeKeepsRectangular(s.mesh, t.mesh);
    SameShapeTrans(t.mesh, s.mesh, s.baseline);
  }

  // ---------------------------------------------------------------------
  // Loading
  // ---------------------------------------------------------------------

  /** The load pattern's outcome: a grid exactly when the block is there, holds
      rows, every token is a number and the rows have one length; the grid is
      the converted tokens, row for row. */
  lemma {:induction false} ReadMeshMeaning(v: Variant, text: string, parse: string -> Option<real>)
    ensures var b := MeshBlock(BoundaryOf(v), text);
            ReadMesh(v, text, parse).Loaded? <==>
              b.Some? && BlockRows(b.value) != [] && AllNumbers(BlockRows(b.value), parse)
              && EqualWidths(BlockRows(b.value))
    ensures ReadMesh(v, text, parse).Loaded? ==>
              var tokens := BlockRows(MeshBlock(BoundaryOf(v), text).value);
              var rows := ReadMesh(v, text, parse).rows;
              |rows| == |tokens|
              && (forall i :: 0 <= i < |rows| ==> |rows[i]| == |tokens[i]|)
              && (forall i, j :: 0 <= i < |rows| && 0 <= j < |rows[i]| ==> Some(rows[i][j]) == parse(tokens[i][j]))
  {
    var b := MeshBlock(BoundaryOf(v), text);
    if b.Some? {
      ParseRowsMeaning(BlockRows(b.value), parse);
    }
  }

  /** Loading is all or nothing: a failed load leaves the session as it was;
      a load that succeeds sets mesh and baseline to the rows read, clears the
      modified flag, and keeps the selection and the entry. */
  lemma {:induction false} LoadAtomic(v: Variant, s: Session, files: map<string, string>, path: string, parse: string -> Option<real>)
    ensures var r := AfterLoad(v, s, files, path, parse);
            (r.status == Done <==> path in files && ReadMesh(v, files[path], parse).Loaded?)
            && (r.status != Done ==> r.next == s)
            && (r.status == Done ==>
                  var rows := ReadMesh(v, files[path], parse).rows;
                  r.next.loaded && r.next.mesh == rows && r.next.baseline == rows && !r.next.modified
                  && r.next.point == s.point && r.next.region == s.region && r.next.start == s.start
                  && r.next.regionMode == s.regionMode && r.next.entry == s.entry)
  {
  }

  /** The counts are the metadata values where the file has them and the
      array's shape otherwise; the density changes only when both pps values
      are present (and never in the basic editor). */
  lemma {:induction false} LoadCounts(v: Variant, s: Session, files: map<string, string>, path: string, parse: string -> Option<real>)
    requires AfterLoad(v, s, files, path, parse).status == Done
    ensures path in files
    ensures var text := files[path];
            var t := AfterLoad(v, s, files, path, parse).next;
            (FindMeta(text, CountKey).Some? ==> t.xCount == FindMeta(text, CountKey).value)
            && (FindMeta(text, CountKey).None? ==> t.xCount == |t.mesh[0]|)
            && (FindMeta(text, YCountKey).Some? ==> t.yCount == FindMeta(text, YCountKey).value)
            && (FindMeta(text, YCountKey).None? ==> t.yCount == |t.mesh|)
            && (v != Basic && FindMeta(text, XPpsKey).Some? && FindMeta(text, YPpsKey).Some? ==>
                  t.pps == (FindMeta(text, XPpsKey).value, FindMeta(text, YPpsKey).value))
            && (v == Basic || FindMeta(text, XPpsKey).None? || FindMeta(text, YPpsKey).None? ==> t.pps == s.pps)
  {
  }

  lemma {:induction false} LoadKeepsInvariant(v: Variant, s: Session, files: map<string, string>, path: string, parse: string -> Option<real>)
    requires Invariant(v, s)
    ensures Invariant(v, AfterLoad(v, s, files, path, parse).next)
  {
    if path in files {
      LoadTextKeepsInvariant(v, s, files[path], parse);
    }
  }

  lemma {:induction false} LoadTextKeepsInvariant(v: Variant, s: Session, text: string, parse: string -> Option<real>)
    requires Invariant(v, s)
    ensures Invariant(v, LoadText(v, s, text, parse).next)
  {
  }

  // ---------------------------------------------------------------------
  // Saving
  // ---------------------------------------------------------------------

  /** The backup is written before the config: the config's content changes
      only in a save that went through, and then the backup holds the text
      the config had.  No other file changes, and a failed save leaves the
      session as it was. */
  lemma {:induction false} SaveOrder(s: Session, files: map<string, string>, failing: set<string>, path: string, format: real -> string)
    ensures var r := AfterSave(s, files, failing, path, format);
            var backup := path + BackupSuffix;
            (r.status == Done <==> s.loaded && path in files && backup !in failing && path !in failing)
            && (r.status != Done ==> r.next == s)
            && (path in r.files && (path !in files || r.files[path] != files[path]) ==>
                  r.status == Done && backup in r.files && r.files[backup] == files[path])
            && (forall p :: p != path && p != backup ==>
                  (p in r.files <==> p in files) && (p in files ==> r.files[p] == files[p]))
            && (r.status == Done ==>
                  r.files[backup] == files[path] && r.files[path] == ConfigAfterSave(s, files[path], format)
                  && r.next.baseline == s.mesh && r.next.mesh == s.mesh && !r.next.modified)
  {
    var backup := path + BackupSuffix;
    assert |backup| > |path|;
  }

  lemma {:induction false} SaveKeepsInvariant(v: Variant, s: Session, files: map<string, string>, failing: set<string>, path: string,
                           format: real -> string)
    requires Invariant(v, s)
    ensures Invariant(v, AfterSave(s, files, failing, path, format).next)
  {
  }

  /** A text whose mesh block converts to rectangular rows reads as them. */
  lemma {:induction false} ReadsRows(v: Variant, text: string, parse: string -> Option<real>, rows: Grid)
    requires MeshBlock(BoundaryOf(v), text).Some?
    requires ParseRows(BlockRows(MeshBlock(BoundaryOf(v), text).value), parse) == Some(rows)
    requires Rectangular(rows)
    ensures ReadMesh(v, text, parse) == Loaded(rows)
  {
  }

  /** A file whose mesh block converts to rectangular rows loads them as both
      mesh and baseline. */
  lemma {:induction false} LoadsRows(v: Variant, s: Session, files: map<string, string>, path: string,
                  parse: string -> Option<real>, rows: Grid)
    requires path in files && ReadMesh(v, files[path], parse) == Loaded(rows)
    ensures var back := AfterLoad(v, s, files, path, parse);
            back.status == Done && back.next.mesh == rows && back.next.baseline == rows
  {
  }

  /** Saving then loading in the enhanced and pro editors gives back the mesh
      just saved, as both mesh and baseline, in a file with one mesh section,
      provided rows hold at least two values, values print as numerals and
      `float()` reads each printed value back. */
  lemma {:induction false} SaveThenReload(v: Variant, s: Session, files: map<string, string>, failing: set<string>, path: string,
                       format: real -> string, parse: string -> Option<real>)
    requires v != Basic && Invariant(v, s)
    requires AfterSave(s, files, failing, path, format).status == Done
    requires path in files && SingleSection(files[path])
    requires s.loaded && |s.mesh[0]| >= 2
    requires forall y, x :: 0 <= y < |s.mesh| && 0 <= x < |s.mesh[y]| ==>
               Numeral(format(s.mesh[y][x])) && parse(format(s.mesh[y][x])) == Some(s.mesh[y][x])
    ensures var saved := AfterSave(s, files, failing, path, format);
            var back := AfterLoad(v, saved.next, saved.files, path, parse);
            back.status == Done && back.next.mesh == s.mesh && back.next.baseline == s.mesh
  {
    var saved := AfterSave(s, files, failing, path, format);
    var text := files[path];
    var written := ConfigAfterSave(s, text, format);
    assert saved.files == files[path + BackupSuffix := text][path := written];
    SaveThenLoadValues(text, s.mesh, format, parse);
    assert BoundaryOf(v) == KeywordLine;
    ReadsRows(v, written, parse, s.mesh);
    LoadsRows(v, saved.next, saved.files, path, parse, s.mesh);
  }

  /** The same in the basic editor reads back only the first row of the mesh
      just saved, however many rows it has. */
  lemma {:induction false} BasicSaveThenReload(s: Session, files: map<string, string>, failing: set<string>, path: string,
                            format: real -> string, parse: string -> Option<real>)
    requires Invariant(Basic, s)
    requires AfterSave(s, files, failing, path, format).status == Done
    requires path in files && SingleSection(files[path])
    requires s.loaded && |s.mesh[0]| >= 2
    requires forall y, x :: 0 <= y < |s.mesh| && 0 <= x < |s.mesh[y]| ==>
               Numeral(format(s.mesh[y][x])) && parse(format(s.mesh[y][x])) == Some(s.mesh[y][x])
    ensures var saved := AfterSave(s, files, failing, path, format);
            var back := AfterLoad(Basic, saved.next, saved.files, path, parse);
            back.status == Done && back.next.mesh == [s.mesh[0]]
  {
    var saved := AfterSave(s, files, failing, path, format);
    var text := files[path];
    assert saved.files == files[path + BackupSuffix := text][path := ConfigAfterSave(s, text, format)];
    BasicReadsSaved(text, s.mesh, format, parse);
    LoadsRows(Basic, saved.next, saved.files, path, parse, [s.mesh[0]]);
  }

  /** The basic editor's reading of a text the save wrote: the first row only. */
  lemma {:induction false} BasicReadsSaved(text: string, mesh: Grid, format: real -> string, parse: string -> Option<real>)
    requires SingleSection(text) && Rectangular(mesh) && |mesh[0]| >= 2
    requires forall y, x :: 0 <= y < |mesh| && 0 <= x < |mesh[y]| ==>
               Numeral(format(mesh[y][x])) && parse(format(mesh[y][x])) == Some(mesh[y][x])
    ensures ReadMesh(Basic, Splice(text, Serialise(FormatRows(mesh, format))), parse) == Loaded([mesh[0]])
  {
    var written := Splice(text, Serialise(FormatRows(mesh, format)));
    assert forall y :: 0 <= y < |mesh| ==> |mesh[y]| >= 2;
    BasicSaveThenLoadValues(text, mesh, format, parse);
    assert BoundaryOf(Basic) == AnyMarkerLine;
    assert Rectangular([mesh[0]]);
    ReadsRows(Basic, written, parse, [mesh[0]]);
  }

  // ---------------------------------------------------------------------
  // Reset and selection
  // ---------------------------------------------------------------------

  /** Reset brings back the baseline and leaves the baseline alone; the pro
      editor also drops the whole selection, the enhanced editor the region
      only, the basic editor nothing. */
  lemma {:induction false} ResetRestores(v: Variant, s: Session, confirm: bool)
    requires Invariant(v, s)
    ensures var r := AfterReset(v, s, confirm);
            (r.status == Done <==> s.loaded && confirm)
            && (r.status != Done ==> r.next == s)
            && (r.status == Done ==>
                  r.next.mesh == s.baseline && r.next.baseline == s.baseline && !r.next.modified
                  && r.next.region == [] && r.next.start.None?
                  && r.next.point == (if v == Pro then None else s.point))
  {
  }

  /** clear_region empties the region and ends any drag; the enhanced editor
      keeps the selected point, the pro editor drops it. */
  lemma {:induction false} ClearDropsSelection(v: Variant, s: Session)
    requires Invariant(v, s)
    ensures var t := Cleared(v, s);
            t.region == [] && t.start.None? && t.point == (if v == Pro then None else s.point)
            && t == s.(region := [], start := None, point := t.point)
  {
  }

  /** Changing mode empties the region and ends any drag; the enhanced editor
      keeps the selected point, the pro editor drops it. */
  lemma {:induction false} ModeChangeClears(v: Variant, s: Session, on: bool)
    requires Invariant(v, s) && v != Basic
    ensures var t := AfterModeChange(v, s, on);
            t.regionMode == on && t.region == [] && t.start.None?
            && t.point == (if v == Pro then None else s.point)
            && t.mesh == s.mesh && t.baseline == s.baseline && t.entry == s.entry
  {
  }

  /** A press outside the counts, or before a load, changes nothing; inside,
      it starts a drag in region mode or selects the point otherwise, and
      leaves the mesh alone.  A selected point shows its value and a position
      between the probed area's corners. */
  lemma {:induction false} PressSelects(v: Variant, s: Session, c: Cell, format: real -> string)
    requires Invariant(v, s)
    ensures var r := AfterPress(s, c, format);
            (r.status == Ignored <==> !s.loaded || !InCount(c, s.yCount, s.xCount))
            && (r.status == Ignored ==> r.next == s)
            && r.next.mesh == s.mesh && r.next.baseline == s.baseline
            && (r.status != Ignored && s.regionMode ==>
                  r.next.region == [c] && r.next.start == Some(c) && r.next.point == s.point)
            && (r.status != Ignored && !s.regionMode ==> r.next.point == Some(c) && r.next.region == s.region)
            && (r.status == Done && !s.regionMode ==>
                  InGrid(s.mesh, c) && r.next.entry == format(s.mesh[c.y][c.x])
                  && PointPosition(c, s.yCount, s.xCount).Some?
                  && MeshMinX as real <= PointPosition(c, s.yCount, s.xCount).value.0 <= MeshMaxX as real
                  && MeshMinY as real <= PointPosition(c, s.yCount, s.xCount).value.1 <= MeshMaxY as real)
            && (r.status == IndexError ==> !InGrid(s.mesh, c) && r.next == s.(point := Some(c)))
            && (r.status == ZeroDivision ==>
                  InGrid(s.mesh, c) && r.next.entry == format(s.mesh[c.y][c.x])
                  && PointPosition(c, s.yCount, s.xCount).None?)
  {
    var r := AfterPress(s, c, format);
    if r.status == Done && !s.regionMode {
      PhysicalWithin(MeshMinX, MeshMaxX, c.x, c.x, s.xCount);
      PhysicalWithin(MeshMinY, MeshMaxY, c.y, c.y, s.yCount);
    }
  }

  /** A drag to a cell inside the counts selects the rectangle between the
      drag's start and that cell, `(|dy| + 1) * (|dx| + 1)` cells, and only
      the cells between the two corners; anything else changes nothing. */
  lemma {:induction false} MoveSelectsRectangle(v: Variant, s: Session, c: Cell)
    requires Invariant(v, s)
    ensures var r := AfterMove(s, c);
            (r.status == Done <==> s.regionMode && s.start.Some? && s.loaded && InCount(c, s.yCount, s.xCount))
            && (r.status != Done ==> r.next == s)
            && (r.status == Done ==>
                  var a := s.start.value;
                  r.next == s.(region := r.next.region)
                  && |r.next.region| == (Max(a.y, c.y) - Min(a.y, c.y) + 1) * (Max(a.x, c.x) - Min(a.x, c.x) + 1)
                  && (forall d :: d in r.next.region <==>
                        Min(a.y, c.y) <= d.y <= Max(a.y, c.y) && Min(a.x, c.x) <= d.x <= Max(a.x, c.x)))
  {
    var r := AfterMove(s, c);
    if r.status == Done {
      var a := s.start.value;
      forall d
        ensures d in r.next.region <==>
                  Min(a.y, c.y) <= d.y <= Max(a.y, c.y) && Min(a.x, c.x) <= d.x <= Max(a.x, c.x)
      {
        RectangleHas(a, c, d);
      }
    }
  }

  /** Releasing ends the drag and shows the region's mean in the entry; the
      mesh is not touched, and an out-of-range cell leaves everything as it was. */
  lemma {:induction false} ReleaseShowsMean(v: Variant, s: Session, format: real -> string)
    requires Invariant(v, s)
    ensures var r := AfterRelease(s, format);
            (r.status == Ignored <==> !s.regionMode || s.start.None?)
            && (r.status != Done ==> r.next == s)
            && r.next.mesh == s.mesh && r.next.region == s.region
            && (r.status == Done ==> r.next.start.None?)
            && (r.status == Done && s.region != [] ==>
                  AllInGrid(s.mesh, s.region) && r.next.entry == format(Mean(RegionValues(s.mesh, s.region))))
  {
  }

  // ---------------------------------------------------------------------
  // Edits
  // ---------------------------------------------------------------------

  /** The cells an update writes: the region in region mode, else the point. */
  lemma {:induction false} TargetsMeaning(v: Variant, s: Session)
    requires Invariant(v, s)
    ensures var t := Targets(s.regionMode, s.region, s.point);
            (t == [] <==> s.point.None? && s.region == [])
            && (s.region != [] ==> t == s.region)
            && (s.region == [] && s.point.Some? ==> t == [s.point.value])
            && forall c :: c in t ==> NonNegative(c)
  {
  }

  /** update_selection_value: with no selection (in the basic editor, checked
      first) or an entry that is not a number, nothing changes.  Otherwise
      every selected cell up to the first one outside the mesh gets the
      value and no other cell changes; when all of them are inside, the
      update goes through and sets all of them. */
  lemma {:induction false} UpdateSetsSelection(v: Variant, s: Session, parse: string -> Option<real>)
    requires Invariant(v, s)
    ensures var r := AfterUpdate(v, s, parse);
            var t := Targets(s.regionMode, s.region, s.point);
            (r.status == NoSelection <==> t == [] && (v == Basic || parse(s.entry).Some?))
            && (r.status == InvalidValue <==> parse(s.entry).None? && (t != [] || v != Basic))
            && (r.status == NoSelection || r.status == InvalidValue ==> r.next == s)
            && (r.status == Done || r.status == IndexError ==>
                  var value := parse(s.entry).value;
                  var k := FirstMiss(s.mesh, t);
                  r.next == s.(mesh := r.next.mesh, modified := r.next.modified)
                  && SameShape(r.next.mesh, s.mesh)
                  && (r.status == Done <==> k == |t|)
                  && (forall c :: InGrid(s.mesh, c) ==>
                        r.next.mesh[c.y][c.x] == if c in t[..k] then value else s.mesh[c.y][c.x]))
            && (r.status == Done ==> AllInGrid(s.mesh, t) && t[..FirstMiss(s.mesh, t)] == t)
  {
    var r := AfterUpdate(v, s, parse);
    var t := Targets(s.regionMode, s.region, s.point);
    if r.status == Done || r.status == IndexError {
      var value := parse(s.entry).value;
      forall c | InGrid(s.mesh, c)
        ensures SetCells(s.mesh, t, value)[c.y][c.x] == if c in t[..FirstMiss(s.mesh, t)] then value else s.mesh[c.y][c.x]
      {
        SetRegion(s.mesh, t, value, c);
      }
      if r.status == Done {
        assert t[..|t|] == t;
      }
    }
  }

  /** A quick adjustment of a selection lying in the mesh, with an entry that
      reads back what it shows, moves every selected cell (and the entry) to
      the entry's value plus `delta` and leaves every other cell alone. */
  lemma {:induction false} QuickAdjustMoves(v: Variant, s: Session, delta: real, parse: string -> Option<real>,
                         format: real -> string, c: Cell)
    requires Invariant(v, s) && (s.point.Some? || s.region != [])
    requires parse(s.entry).Some?
    requires parse(format(parse(s.entry).value + delta)) == Some(parse(s.entry).value + delta)
    requires AllInGrid(s.mesh, Targets(s.regionMode, s.region, s.point)) && InGrid(s.mesh, c)
    ensures var r := AfterQuickAdjust(v, s, delta, parse, format);
            var nv := parse(s.entry).value + delta;
            r.status == Done && r.next.entry == format(nv)
            && r.next.mesh[c.y][c.x] == if c in Targets(s.regionMode, s.region, s.point) then nv else s.mesh[c.y][c.x]
  {
    var nv := parse(s.entry).value + delta;
    var s1 := s.(entry := format(nv));
    var t := Targets(s.regionMode, s.region, s.point);
    assert t != [];
    SetRegion(s.mesh, t, nv, c);
    assert AfterQuickAdjust(v, s, delta, parse, format) == AfterUpdate(v, s1, parse);
    assert AfterUpdate(v, s1, parse).next.mesh == SetCells(s.mesh, t, nv);
  }

  /** average_region: every selected cell gets the region's prior mean, shown
      in the entry; no other cell changes, and the region's mean is what it
      was.  An empty region or one reaching outside the mesh changes nothing. */
  lemma {:induction false} AverageSetsMean(v: Variant, s: Session, format: real -> string)
    requires Invariant(v, s)
    ensures var r := AfterAverage(v, s, format);
            (r.status == Done <==> s.region != [] && AllInGrid(s.mesh, s.region))
            && (r.status != Done ==> r.next == s)
            && (r.status == Done ==>
                  var m := Mean(RegionValues(s.mesh, s.region));
                  r.next == s.(mesh := r.next.mesh, entry := format(m), modified := r.next.modified)
                  && SameShape(r.next.mesh, s.mesh)
                  && (forall c :: InGrid(s.mesh, c) ==>
                        r.next.mesh[c.y][c.x] == if c in s.region then m else s.mesh[c.y][c.x])
                  && AllInGrid(r.next.mesh, s.region) && Mean(RegionValues(r.next.mesh, s.region)) == m)
  {
    var r := AfterAverage(v, s, format);
    if r.status == Done {
      var m := Mean(RegionValues(s.mesh, s.region));
      var g := Written(s.mesh, s.region, Repeat(m, |s.region|));
      forall c | InGrid(s.mesh, c)
        ensures g[c.y][c.x] == if c in s.region then m else s.mesh[c.y][c.x]
      {
        if c in s.region {
          var i :| 0 <= i < |s.region| && s.region[i] == c;
          WrittenRepeat(s.mesh, s.region, m, i);
        } else {
          WrittenOutside(s.mesh, s.region, Repeat(m, |s.region|), c);
        }
      }
      forall i | 0 <= i < |s.region|
        ensures g[s.region[i].y][s.region[i].x] == m
      {
        WrittenRepeat(s.mesh, s.region, m, i);
      }
      MeanRepeat(RegionValues(g, s.region), m);
    }
  }

  /** smooth_region: every selected cell gets the mean of its neighbours
      inside the counts, read from the mesh before the edit; no other cell
      changes.  An empty region, a neighbourhood reaching outside the mesh,
      or a cell without neighbours changes nothing. */
  lemma {:induction false} SmoothAverages(v: Variant, s: Session)
    requires Invariant(v, s)
    ensures var r := AfterSmooth(v, s);
            (r.status == Done <==>
               s.region != [] && SmoothFits(s.mesh, s.region, s.yCount, s.xCount)
               && SmoothDefined(s.region, s.yCount, s.xCount))
            && (r.status != Done ==> r.next == s)
            && (r.status == Done ==>
                  r.next == s.(mesh := r.next.mesh, modified := r.next.modified)
                  && SameShape(r.next.mesh, s.mesh)
                  && (forall i :: 0 <= i < |s.region| ==>
                        r.next.mesh[s.region[i].y][s.region[i].x] == SmoothValue(s.mesh, s.region[i], s.yCount, s.xCount))
                  && (forall c :: InGrid(s.mesh, c) && c !in s.region ==> r.next.mesh[c.y][c.x] == s.mesh[c.y][c.x]))
  {
    var r := AfterSmooth(v, s);
    if r.status == Done {
      var vals := SmoothValues(s.mesh, s.region, s.yCount, s.xCount);
      forall i | 0 <= i < |s.region|
        ensures r.next.mesh[s.region[i].y][s.region[i].x] == vals[i]
      {
        WrittenConsistent(s.mesh, s.region, vals, i);
      }
      forall c | InGrid(s.mesh, c) && c !in s.region
        ensures r.next.mesh[c.y][c.x] == s.mesh[c.y][c.x]
      {
        WrittenOutside(s.mesh, s.region, vals, c);
      }
    }
  }

  /** Every smoothed value lies between the smallest and the largest value
      of the mesh before smoothing. */
  lemma {:induction false} SmoothStaysWithin(v: Variant, s: Session, lo: real, hi: real)
    requires Invariant(v, s) && AfterSmooth(v, s).status == Done
    requires forall y, x :: 0 <= y < |s.mesh| && 0 <= x < |s.mesh[y]| ==> lo <= s.mesh[y][x] <= hi
    ensures var m := AfterSmooth(v, s).next.mesh;
            forall y, x :: 0 <= y < |m| && 0 <= x < |m[y]| ==> lo <= m[y][x] <= hi
  {
    var m := AfterSmooth(v, s).next.mesh;
    forall y, x | 0 <= y < |m| && 0 <= x < |m[y]|
      ensures lo <= m[y][x] <= hi
    {
      SmoothCellWithin(s.mesh, s.region, s.yCount, s.xCount, lo, hi, Cell(y, x));
    }
  }

  lemma {:induction false} SmoothCellWithin(g: Grid, cells: seq<Cell>, yCount: nat, xCount: nat, lo: real, hi: real, c: Cell)
    requires SmoothFits(g, cells, yCount, xCount) && SmoothDefined(cells, yCount, xCount) && InGrid(g, c)
    requires forall y, x :: 0 <= y < |g| && 0 <= x < |g[y]| ==> lo <= g[y][x] <= hi
    ensures lo <= Written(g, cells, SmoothValues(g, cells, yCount, xCount))[c.y][c.x] <= hi
  {
    var vals := SmoothValues(g, cells, yCount, xCount);
    if c in cells {
      var i :| 0 <= i < |cells| && cells[i] == c;
      WrittenConsistent(g, cells, vals, i);
      SmoothBetween(g, c, yCount, xCount, lo, hi);
    } else {
      WrittenOutside(g, cells, vals, c);
    }
  }

  /** flatten_mesh: once confirmed, every cell holds the mesh's mean, so the
      mean is what it was; declined, nothing changes. */
  lemma {:induction false} FlattenSetsMean(v: Variant, s: Session, confirm: bool)
    requires Invariant(v, s)
    ensures var r := AfterFlatten(v, s, confirm);
            (r.status == Done <==> s.loaded && confirm)
            && (r.status != Done ==> r.next == s)
            && (r.status == Done ==>
                  var m := GridMean(s.mesh);
                  r.next == s.(mesh := r.next.mesh, modified := r.next.modified)
                  && Rectangular(r.next.mesh) && SameShape(r.next.mesh, s.mesh)
                  && GridMean(r.next.mesh) == m
                  && forall y, x :: 0 <= y < |r.next.mesh| && 0 <= x < |r.next.mesh[y]| ==> r.next.mesh[y][x] == m)
  {
    var r := AfterFlatten(v, s, confirm);
    if r.status == Done {
      FlattenKeepsMean(s.mesh);
    }
  }

  /** apply_offset: every cell moves by the offset, so the mean does too; a
      text that is not a number changes nothing. */
  lemma {:induction false} OffsetShifts(v: Variant, s: Session, text: string, parse: string -> Option<real>)
    requires Invariant(v, s)
    ensures var r := AfterOffset(v, s, text, parse);
            (r.status == Done <==> s.loaded && parse(text).Some?)
            && (r.status != Done ==> r.next == s)
            && (r.status == Done ==>
                  var d := parse(text).value;
                  r.next == s.(mesh := r.next.mesh, modified := r.next.modified)
                  && SameShape(r.next.mesh, s.mesh)
                  && (forall y, x :: 0 <= y < |s.mesh| && 0 <= x < |s.mesh[y]| ==> r.next.mesh[y][x] == s.mesh[y][x] + d)
                  && GridMean(r.next.mesh) == GridMean(s.mesh) + d)
  {
    var r := AfterOffset(v, s, text, parse);
    if r.status == Done {
      OffsetShiftsMean(s.mesh, parse(text).value);
    }
  }

  /** An offset followed by the opposite offset gives back the mesh. */
  lemma {:induction false} OffsetThenBack(v: Variant, s: Session, text: string, back: string, parse: string -> Option<real>)
    requires Invariant(v, s) && AfterOffset(v, s, text, parse).status == Done
    requires parse(back).Some? && parse(back).value == -parse(text).value
    ensures var t := AfterOffset(v, s, text, parse).next;
            AfterOffset(v, t, back, parse).status == Done && AfterOffset(v, t, back, parse).next.mesh == s.mesh
  {
    OffsetUndone(s.mesh, parse(text).value);
  }

  // ---------------------------------------------------------------------
  // Every event keeps the invariant
  // ---------------------------------------------------------------------

  lemma {:induction false} ClearKeepsInvariant(v: Variant, s: Session)
    requires Invariant(v, s)
    ensures Invariant(v, Cleared(v, s))
  {
  }

  lemma {:induction false} ModeChangeKeepsInvariant(v: Variant, s: Session, on: bool)
    requires Invariant(v, s) && v != Basic
    ensures Invariant(v, AfterModeChange(v, s, on))
  {
  }

  lemma {:induction false} ResetKeepsInvariant(v: Variant, s: Session, confirm: bool)
    requires Invariant(v, s)
    ensures Invariant(v, AfterReset(v, s, confirm).next)
  {
    if s.loaded && confirm {
      ShapeKeepsRectangular(s.mesh, s.baseline);
    }
  }

  lemma {:induction false} PressKeepsInvariant(v: Variant, s: Session, c: Cell, format: real -> string)
    requires Invariant(v, s)
    ensures Invariant(v, AfterPress(s, c, format).next)
  {
  }

  lemma {:induction false} MoveKeepsInvariant(v: Variant, s: Session, c: Cell)
    requires Invariant(v, s)
    ensures Invariant(v, AfterMove(s, c).next)
  {
    var r := AfterMove(s, c);
    if r.status == Done {
      forall d | d in r.next.region
        ensures NonNegative(d)
      {
        RectangleHas(s.start.value, c, d);
      }
    }
  }

  lemma {:induction false} ReleaseKeepsInvariant(v: Variant, s: Session, format: real -> string)
    requires Invariant(v, s)
    ensures Invariant(v, AfterRelease(s, format).next)
  {
  }

  lemma {:induction false} UpdateKeepsInvariant(v: Variant, s: Session, parse: string -> Option<real>)
    requires Invariant(v, s)
    ensures Invariant(v, AfterUpdate(v, s, parse).next)
  {
    var r := AfterUpdate(v, s, parse);
    if r.status == Done || r.status == IndexError {
      EditKeepsInvariant(v, s, r.next);
    }
  }

  lemma {:induction false} QuickAdjustKeepsInvariant(v: Variant, s: Session, delta: real, parse: string -> Option<real>,
                                  format: real -> string)
    requires Invariant(v, s)
    ensures Invariant(v, AfterQuickAdjust(v, s, delta, parse, format).next)
  {
    if (s.point.Some? || s.region != []) && parse(s.entry).Some? {
      var s1 := s.(entry := format(parse(s.entry).value + delta));
      assert Invariant(v, s1);
      UpdateKeepsInvariant(v, s1, parse);
      assert AfterQuickAdjust(v, s, delta, parse, format) == AfterUpdate(v, s1, parse);
    }
  }

  lemma {:induction false} AverageKeepsInvariant(v: Variant, s: Session, format: real -> string)
    requires Invariant(v, s)
    ensures Invariant(v, AfterAverage(v, s, format).next)
  {
    var r := AfterAverage(v, s, format);
    if r.status == Done {
      EditKeepsInvariant(v, s, r.next);
    }
  }

  lemma {:induction false} SmoothKeepsInvariant(v: Variant, s: Session)
    requires Invariant(v, s)
    ensures Invariant(v, AfterSmooth(v, s).next)
  {
    var r := AfterSmooth(v, s);
    if r.status == Done {
      EditKeepsInvariant(v, s, r.next);
    }
  }

  lemma {:induction false} FlattenKeepsInvariant(v: Variant, s: Session, confirm: bool)
    requires Invariant(v, s)
    ensures Invariant(v, AfterFlatten(v, s, confirm).next)
  {
    var r := AfterFlatten(v, s, confirm);
    if r.status == Done {
      EditKeepsInvariant(v, s, r.next);
    }
  }

  lemma {:induction false} OffsetKeepsInvariant(v: Variant, s: Session, text: string, parse: string -> Option<real>)
    requires Invariant(v, s)
    ensures Invariant(v, AfterOffset(v, s, text, parse).next)
  {
    var r := AfterOffset(v, s, text, parse);
    if r.status == Done {
      EditKeepsInvariant(v, s, r.next);
    }
  }
}

=== FILE: session_spec.dfy ===
/**
  The editing session of the three editors as a state machine over values.
  A `Session` holds what the editor objects keep between events: the mesh
  and its baseline copy (`mesh_data`, `original_mesh_data`), the probe
  counts, the interpolation density, the selection, the region mode, the
  modified flag and the text of the value entry.  Each event is a function
  from the session before it to the session after it and a status naming
  the outcome (the message box or exception the editor ends in).  The three
  editors differ in a few places, selected by `Variant`.
 */
module EditorSpec {
  import opened Wrappers
  import opened Selection
  import opened TextOps
  import opened MeshCodec
  import opened MeshRoundTrip
  import opened MeshReload
  import opened MeshGrid
  import opened Geometry

  /** bed_level_editor.py, bed_level_editor_enhanced.py, bed_level_editor_pro.py. */
  datatype Variant = Basic | Enhanced | Pro

  /** How an event ends. */
  datatype Status =
    | Done
    | Ignored       // the handler returns early and changes nothing
    | NoSelection   // "Please make a selection first"
    | InvalidValue  // `float()` rejected the entry text
    | IndexError    // a cell lies outside `mesh_data`
    | ZeroDivision  // the millimetre position of a single-point axis
    | FileMissing   // the config file does not exist
    | NoSection     // no `[bed_mesh default] ... points =` in the file
    | BadNumber     // a row token is not a number
    | NoPoints      // the block holds no rows
    | Ragged        // rows of different lengths: `np.array` refuses them
    | WriteFailed   // writing the backup or the config raised
    | NoData        // nothing loaded to save
    | NoNeighbours  // a smoothed cell has no neighbour inside the counts

  const YCountKey: string := "y_count"
  const XPpsKey: string := "mesh_x_pps"
  const YPpsKey: string := "mesh_y_pps"
  const BackupSuffix: string := ".backup"

  datatype Session = Session(
    loaded: bool,             // `mesh_data is not None`
    mesh: Grid,               // `mesh_data`
    baseline: Grid,           // `original_mesh_data`
    xCount: nat,
    yCount: nat,
    pps: (nat, nat),          // `mesh_pps`
    point: Option<Cell>,      // `selected_point`
    region: seq<Cell>,        // `selected_region`
    start: Option<Cell>,      // `region_start`
    regionMode: bool,
    modified: bool,           // `is_modified` (pro editor only)
    entry: string)            // the text of `value_var`

  /** The session when the window opens. */
  function Initial(): Session {
    Session(false, [], [], 10, 10, (4, 4), None, [], None, false, false, "0.000")
  }

  predicate NonNegative(c: Cell) { c.y >= 0 && c.x >= 0 }

  predicate SameShape(a: Grid, b: Grid) {
    |a| == |b| && forall y :: 0 <= y < |a| ==> |a[y]| == |b[y]|
  }

  /** What every event keeps true. */
  predicate Invariant(v: Variant, s: Session) {
    (s.loaded ==> Rectangular(s.mesh) && SameShape(s.mesh, s.baseline))
    && (!s.loaded ==> s.mesh == [] && s.baseline == [] && s.point.None? && s.region == [] && s.start.None?)
    && (v == Basic ==> !s.regionMode)
    && (s.region != [] ==> s.regionMode)
    && (s.start.Some? ==> s.regionMode)
    && (v != Pro ==> !s.modified)
    && (s.point.Some? ==> NonNegative(s.point.value))
    && (s.start.Some? ==> NonNegative(s.start.value))
    && (forall c :: c in s.region ==> NonNegative(c))
  }

  /** An event's result: the session after it and how it ended. */
  datatype Step = Step(next: Session, status: Status)

  // ---------------------------------------------------------------------
  // Loading
  // ---------------------------------------------------------------------

  /** The basic editor ends the row block at the next marker line; the
      others at the next keyword line. */
  function BoundaryOf(v: Variant): Boundary {
    if v == Basic then AnyMarkerLine else KeywordLine
  }

  datatype LoadOutcome = Loaded(rows: Grid) | LoadFailed(why: Status)

  predicate EqualWidths<T>(rows: seq<seq<T>>) {
    forall y :: 0 <= y < |rows| ==> |rows[y]| == |rows[0]|
  }

  /** Everything load_mesh_data does with the file's text before it assigns
      anything: find the block, convert its rows, build the array. */
  function ReadMesh(v: Variant, text: string, parse: string -> Option<real>): (r: LoadOutcome)
    ensures r.Loaded? ==> Rectangular(r.rows)
    ensures r.LoadFailed? ==> r.why in {NoSection, BadNumber, NoPoints, Ragged}
  {
    match MeshBlock(BoundaryOf(v), text)
    case None => LoadFailed(NoSection)
    case Some(block) =>
      var tokens := BlockRows(block);
      match ParseRows(tokens, parse)
      case None => LoadFailed(BadNumber)
      case Some(points) =>
        if points == [] then LoadFailed(NoPoints)
        else if !EqualWidths(points) then LoadFailed(Ragged)
        else
          ParseRowsMeaning(tokens, parse);
          Loaded(points)
  }

  /** A count: the metadata value when the file has one, else the array's. */
  function CountAfterLoad(text: string, key: string, shape: nat): nat {
    match FindMeta(text, key)
    case Some(n) => n
    case None => shape
  }

  /** The interpolation density: both pps values from the metadata when both
      are there, otherwise the previous one (the basic editor reads none). */
  function PpsAfterLoad(v: Variant, text: string, prev: (nat, nat)): (nat, nat) {
    if v == Basic then prev
    else
      match (FindMeta(text, XPpsKey), FindMeta(text, YPpsKey))
      case (Some(x), Some(y)) => (x, y)
      case _ => prev
  }

  /** load_mesh_data on the file at `path`. */
  function AfterLoad(v: Variant, s: Session, files: map<string, string>, path: string,
                     parse: string -> Option<real>): Step
  {
    if path !in files then Step(s, FileMissing)
    else LoadText(v, s, files[path], parse)
  }

  /** load_mesh_data once the file's text has been read. */
  function LoadText(v: Variant, s: Session, text: string, parse: string -> Option<real>): Step {
    match ReadMesh(v, text, parse)
    case LoadFailed(why) => Step(s, why)
    case Loaded(rows) =>
      Step(s.(loaded := true, mesh := rows, baseline := rows,
              xCount := CountAfterLoad(text, CountKey, |rows[0]|),
              yCount := CountAfterLoad(text, YCountKey, |rows|),
              pps := PpsAfterLoad(v, text, s.pps),
              modified := false),
           Done)
  }

  // ---------------------------------------------------------------------
  // Saving
  // ---------------------------------------------------------------------

  /** A save's result: the session, the files afterwards, the outcome. */
  datatype Saved = Saved(next: Session, files: map<string, string>, status: Status)

  /** The text save_mesh_data writes over the config. */
  function ConfigAfterSave(s: Session, text: string, format: real -> string): string {
    Splice(text, Serialise(FormatRows(s.mesh, format)))
  }

  /** save_mesh_data: read the config, write the old text to the backup, then
      the spliced text to the config; the baseline becomes the mesh only once
      both writes went through. */
  function AfterSave(s: Session, files: map<string, string>, failing: set<string>, path: string,
                     format: real -> string): Saved
  {
    if !s.loaded then Saved(s, files, NoData)
    else if path !in files then Saved(s, files, FileMissing)
    else
      var text := files[path];
      var backup := path + BackupSuffix;
      if backup in failing then Saved(s, files, WriteFailed)
      else if path in failing then Saved(s, files[backup := text], WriteFailed)
      else
        Saved(s.(baseline := s.mesh, modified := false),
              files[backup := text][path := ConfigAfterSave(s, text, format)], Done)
  }

  // ---------------------------------------------------------------------
  // Selection
  // ---------------------------------------------------------------------

  /** clear_region: the pro editor also drops the selected point. */
  function Cleared(v: Variant, s: Session): Session {
    s.(region := [], start := None, point := if v == Pro then None else s.point)
  }

  /** change_selection_mode. */
  function AfterModeChange(v: Variant, s: Session, on: bool): Session {
    Cleared(v, s.(regionMode := on))
  }

  /** on_mouse_press (on_click in the basic editor) on cell `c`. */
  function AfterPress(s: Session, c: Cell, format: real -> string): Step {
    if !s.loaded || !InCount(c, s.yCount, s.xCount) then Step(s, Ignored)
    else if s.regionMode then Step(s.(start := Some(c), region := [c]), Done)
    else if !InGrid(s.mesh, c) then Step(s.(point := Some(c)), IndexError)
    else
      var t := s.(point := Some(c), entry := format(s.mesh[c.y][c.x]));
      if s.xCount == 1 || s.yCount == 1 then Step(t, ZeroDivision) else Step(t, Done)
  }

  /** The millimetre position shown for a selected point; None where the
      division by `count - 1` fails. */
  function PointPosition(c: Cell, yCount: nat, xCount: nat): Option<(real, real)> {
    match (PhysicalCoord(MeshMinX, MeshMaxX, c.x, xCount), PhysicalCoord(MeshMinY, MeshMaxY, c.y, yCount))
    case (Some(x), Some(y)) => Some((x, y))
    case _ => None
  }

  /** on_mouse_move to cell `c`. */
  function AfterMove(s: Session, c: Cell): Step {
    if s.regionMode && s.start.Some? && s.loaded && InCount(c, s.yCount, s.xCount) then
      Step(s.(region := Rectangle(s.start.value, c)), Done)
    else Step(s, Ignored)
  }

  /** on_mouse_release: shows the region's mean in the entry and ends the drag. */
  function AfterRelease(s: Session, format: real -> string): Step {
    if !(s.regionMode && s.start.Some?) then Step(s, Ignored)
    else if s.region == [] then Step(s.(start := None), Done)
    else if !AllInGrid(s.mesh, s.region) then Step(s, IndexError)
    else Step(s.(start := None, entry := format(Mean(RegionValues(s.mesh, s.region)))), Done)
  }

  // ---------------------------------------------------------------------
  // Edits
  // ---------------------------------------------------------------------

  /** The cells update_selection_value writes: the region in region mode when
      there is one, else the selected point, else none. */
  function Targets(regionMode: bool, region: seq<Cell>, point: Option<Cell>): seq<Cell> {
    if regionMode && region != [] then region
    else if point.Some? then [point.value]
    else []
  }

  /** The modified flag after an edit that went through. */
  function Touched(v: Variant, s: Session): bool {
    v == Pro || s.modified
  }

  /** update_selection_value (update_point_value in the basic editor, which
      looks at the selection before the entry). */
  function AfterUpdate(v: Variant, s: Session, parse: string -> Option<real>): Step {
    var targets := Targets(s.regionMode, s.region, s.point);
    var value := parse(s.entry);
    if targets == [] && (v == Basic || value.Some?) then Step(s, NoSelection)
    else if value.None? then Step(s, InvalidValue)
    else
      var g := SetCells(s.mesh, targets, value.value);
      if FirstMiss(s.mesh, targets) < |targets| then Step(s.(mesh := g), IndexError)
      else Step(s.(mesh := g, modified := Touched(v, s)), Done)
  }

  /** quick_adjust: the entry moves by `delta`, then the update runs.  The
      basic editor tests only the point (bed_level_editor.py:337); the
      region test agrees with it there because the basic editor's session
      invariant keeps the region empty. */
  function AfterQuickAdjust(v: Variant, s: Session, delta: real,
                            parse: string -> Option<real>, format: real -> string): Step
  {
    if s.point.None? && s.region == [] then Step(s, NoSelection)
    else
      match parse(s.entry)
      case None => Step(s, Ignored)
      case Some(cur) => AfterUpdate(v, s.(entry := format(cur + delta)), parse)
  }

  /** average_region. */
  function AfterAverage(v: Variant, s: Session, format: real -> string): Step {
    if s.region == [] then Step(s, NoSelection)
    else if !AllInGrid(s.mesh, s.region) then Step(s, IndexError)
    else
      var m := Mean(RegionValues(s.mesh, s.region));
      Step(s.(mesh := Written(s.mesh, s.region, Repeat(m, |s.region|)), entry := format(m),
              modified := Touched(v, s)),
           Done)
  }

  /** smooth_region: every value is computed from the grid before the edit. */
  function AfterSmooth(v: Variant, s: Session): Step {
    if s.region == [] then Step(s, NoSelection)
    else if !SmoothFits(s.mesh, s.region, s.yCount, s.xCount) then Step(s, IndexError)
    else if !SmoothDefined(s.region, s.yCount, s.xCount) then Step(s, NoNeighbours)
    else
      Step(s.(mesh := Written(s.mesh, s.region, SmoothValues(s.mesh, s.region, s.yCount, s.xCount)),
              modified := Touched(v, s)),
           Done)
  }

  /** flatten_mesh, after the confirmation dialog answered `confirm`. */
  function AfterFlatten(v: Variant, s: Session, confirm: bool): Step
    requires Invariant(v, s)
  {
    if !s.loaded || !confirm then Step(s, Ignored)
    else Step(s.(mesh := Filled(s.mesh, GridMean(s.mesh)), modified := Touched(v, s)), Done)
  }

  /** apply_offset with the dialog's text. */
  function AfterOffset(v: Variant, s: Session, text: string, parse: string -> Option<real>): Step {
    if !s.loaded then Step(s, Ignored)
    else
      match parse(text)
      case None => Step(s, InvalidValue)
      case Some(d) => Step(s.(mesh := Shifted(s.mesh, d), modified := Touched(v, s)), Done)
  }

  /** reset_mesh_data, after the confirmation dialog answered `confirm`. */
  function AfterReset(v: Variant, s: Session, confirm: bool): Step {
    if !s.loaded || !confirm then Step(s, Ignored)
    else Step((if v == Basic then s else Cleared(v, s)).(mesh := s.baseline, modified := false), Done)
  }

  /** The axes of the interpolated preview (generate_interpolated_mesh). */
  function PreviewAxes(s: Session): (r: Option<(seq<real>, seq<real>)>)
    ensures r.Some? ==> |r.value.0| == DenseCount(s.xCount, s.pps.0) && |r.value.1| == DenseCount(s.yCount, s.pps.1)
    ensures s.loaded && s.xCount >= 1 && s.yCount >= 1 ==> r.Some?
  {
    if !s.loaded then None else DenseAxes(s.xCount, s.yCount, s.pps.0, s.pps.1)
  }
}

=== FILE: store.dfy ===
/**
  The files the editors touch, as a store from path to content.  Reading a
  path that is not there is the editors' "file not found"; a write to a
  path listed as failing raises, as `open(path, 'w')` does on a read-only
  or missing directory, and leaves that file as it was.
 */
module Storage {
  import opened Wrappers

  class FileStore {
    /** The content of every existing file, by path. */
    var files: map<string, string>
    /** The paths a write to fails. */
    var failing: set<string>

    constructor (files: map<string, string>, failing: set<string>)
      ensures this.files == files && this.failing == failing
    {
      this.files := files;
      this.failing := failing;
    }

    /** Reading a whole file: None when it does not exist. */
    method Read(path: string) returns (content: Option<string>)
      ensures content.Some? <==> path in files
      ensures content.Some? ==> content.value == files[path]
    {
      if path in files {
        content := Some(files[path]);
      } else {
        content := None;
      }
    }

    /** Writing a whole file: the file holds `content` afterwards unless the
        write fails, and no other file changes either way. */
    method Write(path: string, content: string) returns (ok: bool)
      modifies this
      ensures ok <==> path !in old(failing)
      ensures failing == old(failing)
      ensures files == if ok then old(files)[path := content] else old(files)
    {
      ok := path !in failing;
      if ok {
        files := files[path := content];
      }
    }
  }
}

=== FILE: text.dfy ===
/**
  The Python string operations the mesh codec is built from (`str.isspace`,
  `str.strip`, `str.split`, `str.join`, `str.startswith`, `str.replace`,
  `str.find`), over `string` (= `seq<char>`).
 */
module TextOps {
  import opened Wrappers

  /** Python's `str.isspace()` for one character; it also decides what `\s`
      in a `re` pattern and what `str.strip()` treat as blank. */
  predicate IsSpace(c: char) {
    c == ' ' || ('\t' <= c <= '\r') || ('\U{1C}' <= c <= '\U{1F}')
    || c == '\U{85}' || c == '\U{A0}' || c == '\U{1680}'
    || ('\U{2000}' <= c <= '\U{200A}') || c == '\U{2028}' || c == '\U{2029}'
    || c == '\U{202F}' || c == '\U{205F}' || c == '\U{3000}'
  }

  predicate AllSpace(s: string) {
    forall i :: 0 <= i < |s| ==> IsSpace(s[i])
  }

  predicate StartsWith(s: string, prefix: string) {
    |prefix| <= |s| && s[..|prefix|] == prefix
  }

  /** `s.lstrip()`; also what a greedy `\s*` consumes at the start of `s`. */
  function TrimStart(s: string): (r: string)
    ensures |r| <= |s|
    ensures r == [] || !IsSpace(r[0])
  {
    if |s| > 0 && IsSpace(s[0]) then TrimStart(s[1..]) else s
  }

  /** TrimStart drops exactly the blanks at the start: what it keeps is a
      suffix of `s`, and everything before that suffix is blank. */
  lemma {:induction false} TrimStartDropsBlanks(s: string)
    ensures var r := TrimStart(s);
            r == s[|s| - |r|..] && AllSpace(s[..|s| - |r|])
  {
    if |s| > 0 && IsSpace(s[0]) {
      var r := TrimStart(s[1..]);
      TrimStartDropsBlanks(s[1..]);
      assert s[1..][|s[1..]| - |r|..] == s[|s| - |r|..];
      assert s[..|s| - |r|] == [s[0]] + s[1..][..|s[1..]| - |r|];
    }
  }

  /** The end of the run of blanks that starts at index `i`: where a greedy
      `\s*` matched at `i` stops. */
  function SkipBlanks(s: string, i: nat): (r: nat)
    requires i <= |s|
    ensures i <= r <= |s|
    decreases |s| - i
  {
    if i < |s| && IsSpace(s[i]) then SkipBlanks(s, i + 1) else i
  }

  /** `s.rstrip()`. */
  function TrimEnd(s: string): (r: string)
    ensures |r| <= |s|
    ensures r == [] || (r[0] == s[0] && !IsSpace(r[|r| - 1]))
  {
    if |s| > 0 && IsSpace(s[|s| - 1]) then TrimEnd(s[..|s| - 1]) else s
  }

  /** TrimEnd drops exactly the blanks at the end: what it keeps is a
      prefix of `s`, and everything after that prefix is blank. */
  lemma {:induction false} TrimEndDropsBlanks(s: string)
    ensures var r := TrimEnd(s);
            r == s[..|r|] && AllSpace(s[|r|..])
  {
    if |s| > 0 && IsSpace(s[|s| - 1]) {
      var r := TrimEnd(s[..|s| - 1]);
      TrimEndDropsBlanks(s[..|s| - 1]);
      assert s[..|s| - 1][..|r|] == s[..|r|];
      assert s[|r|..] == s[..|s| - 1][|r|..] + [s[|s| - 1]];
    }
  }

  /** `s.strip()`: the blank-free middle of `s`. */
  function Strip(s: string): (r: string)
    ensures r == [] || (!IsSpace(r[0]) && !IsSpace(r[|r| - 1]))
    ensures |r| <= |s|
  {
    TrimEnd(TrimStart(s))
  }

  /** Stripping never brings in a character the text did not have. */
  lemma {:induction false} StripKeepsOut(s: string, c: char)
    ensures c !in s ==> c !in Strip(s)
  {
    var t := TrimStart(s);
    var r := TrimEnd(t);
    TrimStartDropsBlanks(s);
    TrimEndDropsBlanks(t);
    if c in r {
      var j :| 0 <= j < |r| && r[j] == c;
      assert r[j] == t[j];
      assert t[j] == s[|s| - |t| + j];
    }
  }

  /** `s.split(sep)` for a one-character separator: the pieces between the
      separators (see SplitJoin). */
  function Split(s: string, sep: char): (r: seq<string>)
    ensures |r| >= 1
  {
    if s == [] then [[]]
    else
      var rest := Split(s[1..], sep);
      if s[0] == sep then [[]] + rest
      else [[s[0]] + rest[0]] + rest[1..]
  }

  /** The pieces hold no separator, and joining them back with it gives the text again. */
  lemma {:induction false} SplitJoin(s: string, sep: char)
    ensures forall i :: 0 <= i < |Split(s, sep)| ==> sep !in Split(s, sep)[i]
    ensures JoinWith(Split(s, sep), [sep]) == s
  {
    if s != [] {
      var rest := Split(s[1..], sep);
      SplitJoin(s[1..], sep);
      var r := Split(s, sep);
      if s[0] == sep {
        assert r[1..] == rest;
      } else {
        assert |rest| > 1 ==> JoinWith(rest, [sep]) == rest[0] + [sep] + JoinWith(rest[1..], [sep]);
        assert r[1..] == rest[1..];
        assert sep !in [s[0]] + rest[0];
        assert s == [s[0]] + s[1..];
      }
    }
  }

  /** `sep.join(parts)`. */
  function JoinWith(parts: seq<string>, sep: string): string {
    if |parts| == 0 then []
    else if |parts| == 1 then parts[0]
    else parts[0] + sep + JoinWith(parts[1..], sep)
  }

  /** The first index at which `pat` occurs in `s` (`s.find(pat)`, None for -1). */
  function Find(s: string, pat: string): (r: Option<nat>)
    ensures r.Some? ==> r.value + |pat| <= |s|
  {
    if StartsWith(s, pat) then Some(0)
    else if s == [] then None
    else
      match Find(s[1..], pat)
      case None => None
      case Some(i) => Some(i + 1)
  }

  /** Find reports a position where `pat` occurs. */
  lemma {:induction false} FindFound(s: string, pat: string)
    requires Find(s, pat).Some?
    ensures StartsWith(s[Find(s, pat).value..], pat)
  {
    if !StartsWith(s, pat) {
      FindFound(s[1..], pat);
      DropDrop(s, 1, Find(s[1..], pat).value);
    }
  }

  /** No occurrence of `pat` starts before the one Find reports (anywhere, when it reports none). */
  lemma {:induction false} FindIsFirst(s: string, pat: string)
    ensures forall i :: 0 <= i <= |s| && (Find(s, pat).None? || i < Find(s, pat).value) ==> !StartsWith(s[i..], pat)
  {
    if !StartsWith(s, pat) && s != [] {
      FindIsFirst(s[1..], pat);
      assert forall i :: 1 <= i <= |s| ==> s[i..] == s[1..][i - 1..];
    }
  }

  /** `s.replace(pat, "")`: occurrences removed left to right, never overlapping. */
  function RemoveAll(s: string, pat: string): (r: string)
    requires |pat| > 0
    ensures |r| <= |s|
  {
    if |s| < |pat| then s
    else if s[..|pat|] == pat then RemoveAll(s[|pat|..], pat)
    else [s[0]] + RemoveAll(s[1..], pat)
  }

  // ---- Facts about the operations, used by the codec's round-trip proofs ----

  /** Slicing twice from the front is slicing once. */
  lemma {:induction false} DropDrop(s: string, i: nat, j: nat)
    requires i + j <= |s|
    ensures s[i..][j..] == s[i + j..]
  {
  }

  /** A slice of a slice taken from the front. */
  lemma {:induction false} DropTake(s: string, a: nat, e: nat)
    requires a <= e <= |s|
    ensures s[a..][..e - a] == s[a..e]
  {
  }

  /** Slicing off the front of a prefix with something appended. */
  lemma {:induction false} DropAppend(s: string, a: nat, e: nat, x: string)
    requires a <= e <= |s|
    ensures (s[..e] + x)[a..] == s[a..e] + x
  {
  }

  /** A prefix of length `e` followed by `c` and `x`: dropping `e + 1` leaves `x`. */
  lemma {:induction false} DropAfterPrefix(s: string, e: nat, c: char, x: string)
    requires e <= |s|
    ensures e + 1 <= |s[..e] + ([c] + x)| && (s[..e] + ([c] + x))[e + 1..] == x
  {
  }

  /** SkipBlanks stops at the first non-blank, having passed only blanks. */
  lemma {:induction false} SkipBlanksRun(s: string, i: nat)
    requires i <= |s|
    ensures var j := SkipBlanks(s, i);
            (forall k :: i <= k < j ==> IsSpace(s[k])) && (j == |s| || !IsSpace(s[j]))
    decreases |s| - i
  {
    if i < |s| && IsSpace(s[i]) {
      SkipBlanksRun(s, i + 1);
    }
  }

  /** A run of blanks from `i` to a non-blank (or the end) at `j` is what SkipBlanks passes. */
  lemma {:induction false} SkipBlanksTo(s: string, i: nat, j: nat)
    requires i <= j <= |s|
    requires forall k :: i <= k < j ==> IsSpace(s[k])
    requires j == |s| || !IsSpace(s[j])
    ensures SkipBlanks(s, i) == j
    decreases j - i
  {
    if i < j {
      SkipBlanksTo(s, i + 1, j);
    }
  }

  /** A greedy `\s*` consumes exactly a blank prefix that is followed by a non-blank. */
  lemma {:induction false} TrimStartPadded(w: string, t: string)
    requires AllSpace(w)
    requires t == [] || !IsSpace(t[0])
    ensures TrimStart(w + t) == t
  {
    if w != [] {
      assert (w + t)[1..] == w[1..] + t;
      TrimStartPadded(w[1..], t);
    }
  }

  /** Stripping the blanks off the text from index `i` leaves the text from
      where the run of blanks at `i` ends. */
  lemma {:induction false} TrimStartSkip(s: string, i: nat)
    requires i <= |s|
    ensures TrimStart(s[i..]) == s[SkipBlanks(s, i)..]
    decreases |s| - i
  {
    if i < |s| && IsSpace(s[i]) {
      assert s[i..][1..] == s[i + 1..];
      TrimStartSkip(s, i + 1);
    }
  }

  /** Stripping blank padding off a token with non-blank ends gives the token back. */
  lemma {:induction false} StripPadded(w: string, t: string)
    requires AllSpace(w)
    requires t != [] && !IsSpace(t[0]) && !IsSpace(t[|t| - 1])
    ensures Strip(w + t) == t
  {
    TrimStartPadded(w, t);
  }

  /** Splitting at the first separator peels off the piece in front of it. */
  lemma {:induction false} SplitAtFirst(a: string, b: string, sep: char)
    requires sep !in a
    ensures Split(a + [sep] + b, sep) == [a] + Split(b, sep)
  {
    if a == [] {
      assert a + [sep] + b == [sep] + b;
      assert ([sep] + b)[1..] == b;
    } else {
      assert (a + [sep] + b)[1..] == a[1..] + [sep] + b;
      SplitAtFirst(a[1..], b, sep);
      assert [a[0]] + a[1..] == a;
    }
  }

  /** A text without the separator is a single piece. */
  lemma {:induction false} SplitNoSep(a: string, sep: char)
    requires sep !in a
    ensures Split(a, sep) == [a]
  {
    if a != [] {
      SplitNoSep(a[1..], sep);
      assert [a[0]] + a[1..] == a;
    }
  }

  /** Splitting undoes joining when no part holds the separator. */
  lemma {:induction false} SplitOfJoin(parts: seq<string>, sep: char)
    requires |parts| >= 1
    requires forall i :: 0 <= i < |parts| ==> sep !in parts[i]
    ensures Split(JoinWith(parts, [sep]), sep) == parts
  {
    if |parts| == 1 {
      SplitNoSep(parts[0], sep);
    } else {
      assert JoinWith(parts, [sep]) == parts[0] + [sep] + JoinWith(parts[1..], [sep]);
      SplitAtFirst(parts[0], JoinWith(parts[1..], [sep]), sep);
      SplitOfJoin(parts[1..], sep);
      assert [parts[0]] + parts[1..] == parts;
    }
  }

  /** A trailing separator adds one empty piece at the end. */
  lemma {:induction false} SplitTrailing(a: string, sep: char)
    ensures Split(a + [sep], sep) == Split(a, sep) + [[]]
  {
    if a == [] {
      assert [sep][1..] == [];
    } else {
      assert (a + [sep])[1..] == a[1..] + [sep];
      SplitTrailing(a[1..], sep);
    }
  }

  /** Removing a pattern whose first character does not occur changes nothing. */
  lemma {:induction false} RemoveAllAbsent(s: string, pat: string)
    requires |pat| > 0 && pat[0] !in s
    ensures RemoveAll(s, pat) == s
  {
    if |s| >= |pat| {
      assert s[..|pat|][0] == s[0];
      RemoveAllAbsent(s[1..], pat);
      assert [s[0]] + s[1..] == s;
    }
  }

  /** The first occurrence of `pat` in `a` is also the first in any extension of `a`. */
  lemma {:induction false} FindExtend(a: string, x: string, pat: string)
    requires Find(a, pat).Some?
    ensures Find(a + x, pat) == Find(a, pat)
  {
    if StartsWith(a, pat) {
      assert (a + x)[..|pat|] == a[..|pat|];
    } else {
      var i := Find(a, pat).value;
      assert |pat| <= i + |pat| <= |a|;
      assert (a + x)[..|pat|] == a[..|pat|];
      assert (a + x)[1..] == a[1..] + x;
      FindExtend(a[1..], x, pat);
    }
  }

  /** Cutting `s` after its first occurrence of `pat` keeps that occurrence first. */
  lemma {:induction false} FindTruncate(s: string, pat: string, n: nat)
    requires Find(s, pat).Some? && Find(s, pat).value + |pat| <= n <= |s|
    ensures Find(s[..n], pat) == Find(s, pat)
  {
    var i := Find(s, pat).value;
    assert s[..n] + s[n..] == s;
    FindExtendInverse(s[..n], s[n..], pat, i);
  }

  lemma {:induction false} FindExtendInverse(a: string, x: string, pat: string, i: nat)
    requires Find(a + x, pat) == Some(i) && i + |pat| <= |a|
    ensures Find(a, pat) == Some(i)
  {
    if StartsWith(a + x, pat) {
      assert (a + x)[..|pat|] == a[..|pat|];
    } else {
      assert (a + x)[..|pat|] == a[..|pat|] by { assert |pat| <= |a|; }
      assert (a + x)[1..] == a[1..] + x;
      FindExtendInverse(a[1..], x, pat, i - 1);
    }
  }

  /** No occurrence in `s` means none in any suffix of it. */
  lemma {:induction false} FindNoneSuffix(s: string, pat: string, j: nat)
    requires j <= |s| && Find(s, pat).None?
    ensures Find(s[j..], pat).None?
  {
    var r := Find(s[j..], pat);
    if r.Some? {
      FindFound(s[j..], pat);
      DropDrop(s, j, r.value);
      FindIsFirst(s, pat);
      assert false;
    }
  }
}

=== FILE: wrappers.dfy ===
/** The optional value that stands for Python's `None` and for a failed conversion. */
module Wrappers {
  datatype Option<+T> = None | Some(value: T)
}
